=== FILE: README.md ===
# autocommiter — a Dafny model of its decision procedures

autocommiter is a command-line tool. It stages the changes of every git
repository under a directory, asks a language model for a commit message
describing them, commits, and pushes. Most of its code is subprocess,
HTTP and SQLite plumbing. Under that plumbing sit a set of deterministic
decisions, and this project models those decisions as pure Dafny
functions over plain inputs:

- **Change summary** (`Summarizer`, internal/summarizer/summarizer.go):
  - a one-line descriptor per staged file, taken from `git diff --numstat`
    or `--unified=0` output;
  - the first-fit search that compresses the change list into a JSON
    payload within a byte budget, and its fallback.
- **Account resolution** (`Account`, internal/processor/account.go) over the
  single-account sentinel and the `repo_cache` table (`Index`,
  internal/index/index.go):
  - `discover` is an ordered first-match policy over a snapshot of signals;
  - `Sync` is a transition of an environment record: active `gh` account,
    local git identity, store;
  - the store is a `map<Hash, Row>` with the upsert and replace semantics of
    the SQL statements.
- **Orchestration** (`Processor`, internal/processor/processor.go):
  - the `.gitignore` merge;
  - the stage / skip / confirm / commit / push gating of one repository;
  - the file-name cap of the prompt;
  - the loop over discovered repositories.
- **Repository discovery and staged-file parsing** (`Git`,
  internal/git/git.go): a walk over a directory-tree datatype that prunes
  `.git`, `node_modules` and `target`, then sort and de-duplication.
- **Gitmoji scoring** (`Gitmoji`, internal/gitmoji/gitmoji.go): a capped
  additive keyword score, and an arg-max above a threshold with ties going
  to the first entry.
- **Small helpers**:
  - `Updater` (internal/updater/updater.go): version test, release plan,
    asset name, installed-copy list, the AutoUpdate guard;
  - `Auth` (internal/auth/auth.go): token choice, `gh auth status` parsing,
    no-reply address;
  - `Models` (internal/models/manager.go): built-in models, catalogue
    filter, cache fallbacks.

Support modules:

- `Wrappers`: Option, Result, and Outcome (an error or success).
- `Text`: Go's `strings` functions. White space is Go's `unicode.IsSpace`
  in full; letter case is ASCII only.
- `Ordering`: byte-wise string order, sort, order-preserving de-duplication.
- `Paths`: Unix `filepath.Clean/Abs/Join/Base`.

What the program reads from git, `gh`, the file system, the network or the
clock appears as a parameter:

- a `Result<string>` for a command's output;
- an `Outcome` for a write or an SQL statement;
- a function from path to existence for `os.Stat`;
- a `pick` number for the random gitmoji.

## Behaviour worth knowing

- **CompressToJSON search order.** The outer loop runs over truncation
  lengths and the inner loop over the kept count. So a shorter list of whole
  descriptors beats a longer list of truncated ones, and the kept count is
  not monotone in the budget. `Summarizer.KeptCountNotMonotone` exhibits this.
- **GetDefaultUser is an exact-key lookup**, and `discover` never consults
  it.
- **ProcessSingleRepo pushes once** and returns that push's error.
- **Discovery keeps descending into found repositories**, so nested
  repositories (for example under `vendor/`) are reported too.
- **`Sync` caches under the guessed target handle**, not a canonical login.
  Line 142 of account.go unpacks three of GetAccountIdentity's four results.
  The model takes the evident intent: name, e-mail, error.
- **`PreferNoReplyEmail` is not a field of the configuration type.** The
  model makes it an optional input that defaults to true, as `Sync` does.
- **`LatestVersionFound` and `LastUpdateCheck` are not fields of the
  configuration type** either (config.go:11-20), although updater.go reads
  and writes them (lines 31-32, 65 and 76). The model takes the cached tag
  as an input of `Updater.AutoUpdate` for that reason.
- **ListAccounts never returns an error**, so the error branch of `discover`
  is unreachable with the real ListAccounts. The model keeps that branch for
  an account list given as a Result.

## Model

| member | source | states |
|---|---|---|
| Summarizer.NumstatCount | internal/summarizer/summarizer.go:28-35 | a "-" count (binary file) reads as "0"; any other count is kept |
| Summarizer.NumstatDescriptor | internal/summarizer/summarizer.go:24-39 | a first line with at least three tab-separated fields gives "A+/R−"; fewer fields give "mod" |
| Summarizer.FirstNonBlankIndex | internal/summarizer/summarizer.go:46-52 | the index of the first line whose trimmed form is not empty: every earlier line is blank and that line is not |
| Summarizer.ShortLine | internal/summarizer/summarizer.go:56-61 | the line cut to its first 40 characters (Go cuts 40 bytes; see "Left out") with whitespace runs collapsed: not empty, at most 40 characters, no leading space, ' ' its only white space, no two adjacent spaces, the same words in the same order as the cut line, and a trailing space exactly where the cut line ends in white space |
| Summarizer.UnifiedDescriptor | internal/summarizer/summarizer.go:42-61 | the descriptor from a unified diff has the words and non-space characters of the first non-blank trimmed line cut to 40 characters (Go cuts 40 bytes; see "Left out"), single spaces between them, and a trailing space exactly where the cut line ends in white space; "mod" when every line is blank; never longer than 40 characters |
| Summarizer.AnalyzeFileChange | internal/summarizer/summarizer.go:21-65 | numstat output wins when numstat succeeded with output; otherwise the unified descriptor when that diff succeeded; otherwise "err"; never empty |
| Summarizer.NumstatLine | internal/summarizer/summarizer.go:22-37 | a numstat line "added\tremoved\tpath" yields the two counts around "+/" and "−", with "-" read as 0 |
| Summarizer.BuildFileChanges | internal/summarizer/summarizer.go:67-80 | a staged-files error is returned; otherwise exactly one entry per staged file, in listing order, carrying that file's descriptor |
| Summarizer.EncodedLength | internal/summarizer/summarizer.go:96-98 | a payload of n entries takes at least 11 + 16n bytes; for plain-text entries the size is exact |
| Summarizer.Cut | internal/summarizer/summarizer.go:91-93 | the descriptor cut to the truncation length is a prefix of it, of that length when longer; a length of -1 keeps it whole |
| Summarizer.Shape | internal/summarizer/summarizer.go:87-95 | the serialized list is the first `keep` changes with file names untouched and each descriptor cut |
| Summarizer.SearchFrom | internal/summarizer/summarizer.go:103-110 | the search from one point on returns the first point in loop order whose payload fits, or none when no later point fits |
| Summarizer.FirstFit | internal/summarizer/summarizer.go:101-110 | the chosen (truncation, keep) point fits the budget and no point visited before it fits; none is chosen only when no point fits |
| Summarizer.FirstFitUnique | internal/summarizer/summarizer.go:101-110 | any fitting point with no fitting predecessor is the one the search returns |
| Summarizer.ScanKeeps | internal/summarizer/summarizer.go:104-109 | the inner loop finds the largest kept prefix that fits at one truncation length, or reports that none fits |
| Summarizer.Fallback | internal/summarizer/summarizer.go:112-116 | the fallback is one entry with descriptor "mod" whose name is the first file's whole last path element: a suffix without '/', either the whole name or preceded by a '/' |
| Summarizer.Compress | internal/summarizer/summarizer.go:82-119 | an empty list gives `{"files":[]}`; a result of the search is within the budget; otherwise the fallback payload |
| Summarizer.CompressToJSON | internal/summarizer/summarizer.go:82-119 | the loops of CompressToJSON return the first fitting serialization in loop order, else the fallback; the loop result equals Compress |
| Summarizer.WholeDescriptorsPreferred | internal/summarizer/summarizer.go:101-110 | when some prefix fits untruncated, nothing is truncated and the longest fitting whole prefix is sent |
| Summarizer.ShrinkingBudgetNeverEarlier | internal/summarizer/summarizer.go:101-110 | a smaller budget never chooses a point earlier in loop order, and if nothing fits the larger budget nothing fits the smaller |
| Summarizer.TinyBudgetFallsBack | internal/summarizer/summarizer.go:112-118 | below 27 bytes nothing fits, so the fallback is sent, and it exceeds the budget |
| Summarizer.KeptCountNotMonotone | internal/summarizer/summarizer.go:101-110 | a budget of 68 keeps one whole descriptor while the smaller budget of 60 keeps two truncated ones |
| Summarizer.ExampleSizes | internal/summarizer/summarizer.go:87-99 | the byte sizes of the three serializations of that two-file example: 86, 68 and 58 |
| Git.NonBlankLines | internal/git/git.go:43-50 | every trimmed non-blank line is kept, nothing empty or untrimmed is, and no more entries than lines |
| Git.NonBlankAppend | internal/git/git.go:43-50 | the filter distributes over concatenation, so order is kept |
| Git.NonBlankSingle | internal/git/git.go:44-49 | one line gives its trimmed form when that is non-blank, otherwise nothing |
| Git.StagedFilesLines | internal/git/git.go:35-52 | the output of newline-joined lines parses to exactly the trimmed non-blank lines, in order |
| Git.StagedFiles | internal/git/git.go:35-52 | a command error is returned; empty output gives no files; every file name is trimmed, non-empty and newline-free |
| Git.StagedFilesRoundTrip | internal/git/git.go:40-51 | trimmed non-empty names joined by newlines parse back to the same list |
| Git.Walk | internal/git/git.go:103-121 | a path is recorded exactly when it is the absolute path of a readable, unpruned directory at or below the entry, reached through readable unpruned directories, whose `.git` entry os.Stat resolves (a directory, a file or a live link, not a dangling link); the entry's own repository comes first |
| Git.WalkEntries | internal/git/git.go:103-121 | a path is in the result exactly when the walk under some child records it, with the same resolving `.git` test |
| Git.UnresolvedMarkerIgnored | internal/git/git.go:115-120 | a directory whose `.git` entries os.Stat cannot resolve, such as a dangling link, is not recorded: it yields only what its entries yield |
| Git.WalkDescends | internal/git/git.go:115-120 | what is recorded under a child of a visited directory is recorded by the walk of that directory, so the walk descends into repositories |
| Git.VendoredRepositoryFound | internal/git/git.go:115-120 | a repository under `vendor/` inside a repository is reported along with the outer one |
| Git.DiscoverRepositories | internal/git/git.go:92-137 | the result is strictly ascending, holds exactly the top level and the repositories the walk records (a `.git` that os.Stat resolves), and includes the cleaned absolute top level when rev-parse succeeds |
| Ordering.SortUnique | internal/git/git.go:123-134 | sorting then dropping repeats gives a strictly ascending list with the same elements |
| Auth.GetToken | internal/auth/auth.go:21-29 | a configured key is returned unchanged; otherwise the `gh` token |
| Auth.JsonUsers | internal/auth/auth.go:62-67 | the users of the `accounts` array, in array order |
| Auth.LineUser | internal/auth/auth.go:77-83 | a line yields a user exactly when it contains "Logged in to github.com as" and has at least seven fields, and the user is the seventh field |
| Auth.StatusUsers | internal/auth/auth.go:75-84 | the users of the status lines, each a field; no user when no line qualifies |
| Auth.StatusUsersAppend | internal/auth/auth.go:75-84 | the users of two blocks of lines are the users of the first followed by those of the second |
| Auth.StatusUsersSingle | internal/auth/auth.go:77-83 | one line contributes its seventh field exactly when LineUser accepts it |
| Auth.ListAccounts | internal/auth/auth.go:42-86 | never an error; the JSON users when the hosts file exists and the JSON call succeeds; otherwise the users parsed from `gh auth status` |
| Auth.StatusLineUser | internal/auth/auth.go:78-81 | a status line of seven or more words containing the marker yields its seventh word |
| Auth.NoReplyEmail | internal/auth/auth.go:106-108 | the no-reply address ends in the login followed by "@users.noreply.github.com" |
| Auth.NoReplyEmailInjective | internal/auth/auth.go:107 | two non-negative ids with logins give the same no-reply address only when ids and logins are equal |
| Auth.AccountIdentity | internal/auth/auth.go:89-120 | a user lookup error is returned; name and login come from the user; the e-mail is the no-reply address when preferred, else the trimmed primary e-mail, or "" when that lookup fails |
| Index.SetSentinel | internal/index/index.go:40-49 | an unknown data directory is an error; setting succeeds iff the write does; clearing succeeds iff the file exists and its removal does, a failed write's error being returned; afterwards the flag is what was set |
| Index.SentinelRoundTrip | internal/index/index.go:31-49 | after a successful set, the sentinel test reports the value set |
| Index.RepoHash | internal/index/index.go:93-101 | an absolute root hashes its cleaned form; a root without an absolute form hashes as given |
| Index.SameAbsoluteSameKey | internal/index/index.go:93-101 | absolute spellings of the same cleaned path share a key |
| Index.DiscoveryKeyAgreement | internal/index/index.go:93-101 | the verbatim-root key of `discover` agrees with GetRepoHash for clean absolute roots and never for relative roots |
| Index.SetDefaultUser | internal/index/index.go:103-116 | the upsert adds the key; a new row has account = default user = user, NULL e-mail and name; an existing row keeps e-mail and name; other rows are unchanged; the error opening the store or executing the statement is returned |
| Index.GetDefaultUser | internal/index/index.go:118-137 | the row's default user, "" for a missing row or a NULL column; the error opening the store or running the query is returned |
| Index.PinnedUserReadBack | internal/index/index.go:103-137 | GetDefaultUser after SetDefaultUser returns the user, for every root with the same key |
| Index.PinIsLocal | internal/index/index.go:103-137 | pinning one root leaves what every other key reads unchanged |
| Index.InsertOrReplace | internal/processor/account.go:152-153 | INSERT OR REPLACE writes the whole row, so its default user becomes NULL, and leaves the other rows alone |
| Index.ReplaceDropsPin | internal/processor/account.go:152-153 | after caching an identity over a root, its pinned default user reads back as "" |
| Index.CachedIdentity | internal/processor/account.go:80-87 | the cache lookup hits exactly when the row exists and account, e-mail and name are all non-NULL |
| Index.NewPinIsNotACacheHit | internal/index/index.go:113 | a row created by SetDefaultUser has NULL e-mail and name, so `discover`'s cache lookup misses it |
| Index.PinOverCacheRedirects | internal/index/index.go:113 | pinning over a cached row makes the cache hit return the pinned user with the cached e-mail and name |
| Account.ContainsAffixIsPrefixOrSuffix | internal/processor/account.go:181-183 | `contains(s, t)` holds iff both are non-empty and t is a prefix or a suffix of s |
| Text.FirstWhere | internal/processor/account.go:102-116 | the index where a first-match loop breaks: no earlier element matches, and the element found does |
| Account.WeakTarget | internal/processor/account.go:96-117 | an e-mail match always wins, and the first matching account in list order is taken; otherwise an account equal to the remote owner; otherwise the active user |
| Account.WeakSignals | internal/processor/account.go:99-117 | the two loops as written (owner first, then e-mail, each breaking at its first match) compute WeakTarget |
| Account.Discover | internal/processor/account.go:41-120 | the sentinel short-circuits; single-account status iff sentinel or at most one account; with at most one account the result is nil with an empty target, and the sentinel is written when the data directory is known and the write succeeds, its error being discarded; the sentinel is written in no other case; a listing error is returned; a failing cache query counts as a miss |
| Account.GravityDecides | internal/processor/account.go:60-66 | the first account whose "/acc/" or "/acc" suffix appears in the root is chosen, and nothing else is consulted |
| Account.SingleAccountRemembered | internal/processor/account.go:42-58 | after a discovery with at most one account has written the sentinel, every later discovery takes the fast exit whatever the account list then holds |
| Account.StoreErrorFails | internal/processor/account.go:69-72 | without gravity, a store that cannot be opened fails discovery |
| Account.CacheDecides | internal/processor/account.go:77-87 | a complete cached row under the hash of the verbatim root sets account, e-mail and name when the query succeeds; a failing query leaves the choice to the weak signals |
| Account.WeakSignalsDecide | internal/processor/account.go:89-119 | without gravity or a cache hit (no complete row, or a failing query), the weak signals choose the account and e-mail and name stay empty |
| Account.PinIgnoredByDiscovery | internal/processor/account.go:77-87 | a fresh pin from SetDefaultUser does not change which account `discover` chooses |
| Account.CacheRow | internal/processor/account.go:167-175 | a store error or a failing statement leaves the store as it was, its error discarded; otherwise the keys gain the repository's hash, its row becomes exactly (account, e-mail, name, now, NULL default user), every other row is unchanged, and the cache lookup returns the new identity |
| Account.CacheAccount | internal/processor/account.go:167-175 | only the store changes: the repository's verbatim hash gets exactly the given identity stamped with the current time and every other row is kept; a store error or a failing statement changes nothing |
| Account.FetchIdentity | internal/processor/account.go:134-156 | a known e-mail skips the fetch; a failed fetch changes nothing; a successful one sets e-mail and name and caches them under the target handle |
| Account.Sync | internal/processor/account.go:122-165 | no-op when single or undecided; a failed switch returns its error; success leaves the target active; a non-empty target e-mail different from the local one is written, and the write's error is returned; otherwise the identity is left alone and the result is success |
| Account.NoSwitchWhenActive | internal/processor/account.go:127-132 | when the target is already active the switch result plays no part |
| Account.FetchFailureSwallowed | internal/processor/account.go:142-156 | a failed identity fetch is swallowed: success, e-mail still empty, store and git identity untouched |
| Account.FetchCachesUnderTarget | internal/processor/account.go:142-156 | a successful fetch uses the fetched e-mail; when the cache statement succeeds it stores the guessed handle and fetched e-mail and drops the pinned default user, and when it fails the store is unchanged |
| Account.NoReplyByDefault | internal/processor/account.go:136-145 | with the preference unset, the fetched e-mail is the no-reply address |
| Account.SyncSettles | internal/processor/account.go:158-162 | when the local e-mail already equals the target e-mail, the git identity is not rewritten |
| Processor.Missing | internal/processor/processor.go:212-218 | a pattern is in the result exactly when it is configured and not present |
| Processor.MissingAppend | internal/processor/processor.go:212-218 | the missing patterns of two lists are those of the first followed by those of the second, so configuration order is kept |
| Processor.MissingSingle | internal/processor/processor.go:213-217 | one pattern is reported exactly when it is not present |
| Processor.NoneMissing | internal/processor/processor.go:212-220 | when nothing is missing, every configured pattern is present |
| Processor.Annotate | internal/processor/processor.go:213-217 | each pattern is preceded by "# Added by Autocommiter: ensure P", in order |
| Processor.CollectPatterns | internal/processor/processor.go:203-210 | the keys of `lineMap` are exactly the trimmed lines that are neither empty nor comments |
| Processor.AppendMissing | internal/processor/processor.go:212-218 | the lines to append are marker and pattern pairs, exactly for the patterns not present |
| Processor.MergeLines | internal/processor/processor.go:203-218 | the two loops compute the annotated missing patterns of the file's content |
| Processor.GitignoreUpdate | internal/processor/processor.go:188-229 | nothing is written when the update is off or no pattern is missing; otherwise the written text is the old content (an unreadable file counts as empty), a newline if it lacked a final one, then each missing pattern behind its "# Added by Autocommiter" marker line, and a final newline |
| Processor.EnsureGitignoreSafety | internal/processor/processor.go:188-230 | fails exactly when content is to be written and the write fails, with that error |
| Processor.AppendedLines | internal/processor/processor.go:220-225 | the merged file's lines are the old lines followed by the appended ones; a newline is inserted only for non-empty content without one |
| Processor.MergeIsIdempotent | internal/processor/processor.go:203-220 | for clean patterns, merging the merged file again writes nothing |
| Processor.MergedHasAll | internal/processor/processor.go:203-227 | once the missing clean patterns are appended, every configured pattern is among the file's trimmed pattern lines |
| Processor.CommentPatternAlwaysAppended | internal/processor/processor.go:207-216 | a configured pattern starting with '#' never counts as present, so it is appended on every run |
| Processor.PromptFiles | internal/processor/processor.go:159-165 | the names of the first min(n, 100) changes, in order |
| Processor.BuildRequest | internal/processor/processor.go:144-171 | the request carries the configured model (default gpt-4o-mini), the capped names joined by newlines, and the payload compressed to 12000 bytes |
| Processor.PromptFilesRoundTrip | internal/processor/processor.go:159-166 | the prompt's file list splits back into the first min(n, 100) staged files |
| Processor.TryAPIGeneration | internal/processor/processor.go:144-186 | a change-listing or API error is returned; otherwise the message, and when gitmoji is enabled the message behind the emoji GetGitmojifiedMessage picks (the best-scoring entry when one scores above 30, else the randomly picked one) and a space |
| Processor.GenerateMessage | internal/processor/processor.go:128-142 | without a token an authentication error; a configured key is the token used; without one, the `gh` token is |
| Processor.Gate | internal/processor/processor.go:46-126 | stage-all only when nothing is staged; a commit iff all steps succeed, files remain and the user is not asked or says yes; push only after a successful commit without `noPush`; each failing step's own error is what comes back, and the push's outcome after a commit |
| Processor.CommitsGeneratedMessage | internal/processor/processor.go:84-112 | the committed message is the one generated from the listing of the files to commit |
| Processor.AlreadyStagedIsKept | internal/processor/processor.go:61-74 | with files already staged nothing is staged anew |
| Processor.NothingToCommit | internal/processor/processor.go:61-79 | staging everything that leaves nothing staged ends the run successfully after only the staging |
| Processor.DeclinedIsQuiet | internal/processor/processor.go:98-106 | a declined prompt ends the run successfully with no commit or push |
| Processor.StartDir | internal/processor/processor.go:20-23 | discovery starts at the given path, or "." for an empty one |
| Processor.GenerateCommit | internal/processor/processor.go:19-44 | no repository is an error; otherwise every repository is processed, in discovery order, whatever earlier runs returned, and the result is success |
| Processor.ProcessAll | internal/processor/processor.go:36-40 | the loop runs every repository once, in order |
| Gitmoji.FuzzyScore | internal/gitmoji/gitmoji.go:45-68 | the score never exceeds 100; it equals 100 iff the raw score reaches 100, and is the raw score below that |
| Gitmoji.Scores | internal/gitmoji/gitmoji.go:78-79 | the score of the message against each table entry, in table order |
| Gitmoji.KeywordScoreAppend | internal/gitmoji/gitmoji.go:49-56 | the keyword score of a concatenated list is the sum of the scores of its parts |
| Gitmoji.KeywordScoreSingle | internal/gitmoji/gitmoji.go:49-56 | one keyword contributes exactly its own points |
| Gitmoji.KeywordScoreAtLeast | internal/gitmoji/gitmoji.go:49-56 | the keyword score is at least what any two keywords add, so two contained keywords of three or more letters reach the cap |
| Gitmoji.BestUnique | internal/gitmoji/gitmoji.go:76-86 | at most one choice is above the threshold, maximal, and strictly above every earlier entry |
| Gitmoji.FindBest | internal/gitmoji/gitmoji.go:70-87 | none for a blank message; otherwise no entry when none scores above 30, else an entry above 30 with the maximal score and the first such |
| Gitmoji.FindBestGitmoji | internal/gitmoji/gitmoji.go:70-87 | FindBest over the emoji table |
| Gitmoji.CapWins | internal/gitmoji/gitmoji.go:76-86 | the first entry that reaches the cap is the one chosen |
| Gitmoji.Gitmojified | internal/gitmoji/gitmoji.go:94-103 | the chosen entry's emoji and a space before the message, or a table emoji when nothing is chosen; the message is always a suffix |
| Gitmoji.FixABugInAuth | internal/gitmoji/gitmoji_test.go:12 | "fix a bug in auth" selects the bug entry 🐛 |
| Gitmoji.RemoveUnusedFiles | internal/gitmoji/gitmoji_test.go:16 | "remove unused files" selects the fire entry 🔥 |
| Gitmoji.SparklesWins | internal/gitmoji/gitmoji.go:45-87 | a lower-case message that misses Art, Zap, Fire and Bug's keywords but contains "feature" and "new" selects the fifth entry |
| Gitmoji.AddNewFeatureForLogging | internal/gitmoji/gitmoji_test.go:13 | "add new feature for logging" selects the sparkles entry ✨ |
| Updater.IsNewer | internal/updater/updater.go:111-132 | every branch of isNewer collapses to: latest is non-empty and differs from current |
| Updater.IsNewerSymmetricOnTags | internal/updater/updater.go:111-132 | isNewer is irreflexive and false for an empty tag, and any two different tags are newer than each other |
| Updater.UpToDateAgreesWithIsNewer | internal/updater/updater.go:190-194 | an isNewer version is never "already up to date"; away from the rolling tag and development builds the two are complements |
| Updater.TargetOS | internal/updater/updater.go:206-214 | linux becomes android exactly when the Termux directory exists; other systems are kept |
| Updater.BinaryName | internal/updater/updater.go:216-219 | the asset name starts "autocommiter-<os>-" and ends with the architecture, plus ".exe" on windows |
| Updater.BinaryNameDeterminesTarget | internal/updater/updater.go:216-219 | the asset name determines the target system and the architecture |
| Updater.ReleasePlan | internal/updater/updater.go:185-221 | a failed tag lookup is an error; "already up to date" iff UpToDate; otherwise the URL ends in "/tag/asset-name" |
| Updater.WhichPaths | internal/updater/updater.go:327-336 | the non-empty lines of the trimmed `which -a` output; nothing when `which` fails |
| Updater.WhichPathsLines | internal/updater/updater.go:327-336 | trimmed output of newline-free lines gives exactly the non-empty lines, in printed order |
| Updater.NonEmptyAppend | internal/updater/updater.go:331-335 | the filter keeps order: the lines of a concatenation are those of its parts |
| Updater.NonEmptySingle | internal/updater/updater.go:331-335 | one line is kept exactly when it is not empty |
| Updater.PathHits | internal/updater/updater.go:339-353 | the candidates of the PATH entries that exist |
| Updater.PathHitsAppend | internal/updater/updater.go:346-353 | the scan keeps PATH order: the hits of a concatenated PATH list are those of its parts |
| Updater.PathHitsSingle | internal/updater/updater.go:346-353 | one PATH entry gives its candidate (".exe" added on windows) when os.Stat finds it, and nothing otherwise |
| Updater.AllInstances | internal/updater/updater.go:323-365 | no duplicates, exactly the `which` lines and PATH hits, each at its first occurrence in order |
| Updater.WhichFirst | internal/updater/updater.go:355-364 | every `which` line comes before any copy found only by scanning PATH |
| Ordering.Dedupe | internal/updater/updater.go:355-364 | removing repeats keeps each value's first occurrence, in order, with the same elements |
| Ordering.DedupeKeepsFrontFirst | internal/updater/updater.go:355-364 | after de-duplicating a + b, every element of a comes before every element found only in b |
| Updater.AutoUpdate | internal/updater/updater.go:61-79 | an update is attempted iff the cached tag is non-empty and differs from the running version; the saved tag is cleared only when the update and the following SaveConfig both succeed |
| Updater.CachedTagIsDownloaded | internal/updater/updater.go:65-77 | a cached tag that triggers AutoUpdate is downloaded rather than reported up to date; after a successful update whose cleared tag is saved the next run attempts nothing, and when the update or the save fails the next run tries again |
| Models.DefaultModels | internal/models/manager.go:27-53 | the four built-in rows in order, each with ID = Name = the row ID and task "chat-completion" |
| Models.DefaultSelectionIsFirstDefault | internal/models/manager.go:27-31 | the first built-in model is gpt-4o-mini |
| Models.Strings | internal/models/manager.go:92-99 | the string tags are kept and other values dropped |
| Models.StringsAppend | internal/models/manager.go:92-99 | tags keep array order: the strings of a concatenation are those of its parts |
| Models.StringsSingle | internal/models/manager.go:94-97 | one element gives its string when it is a string, and nothing otherwise |
| Models.FilterChat | internal/models/manager.go:83-111 | only chat-completion entries are kept, each with ID = Name; nothing is kept when no entry qualifies |
| Models.FilterChatAppend | internal/models/manager.go:84-111 | the filter keeps response order across any split |
| Models.FilterChatKeeps | internal/models/manager.go:84-110 | every chat-completion entry appears in the result |
| Models.FetchAvailableModels | internal/models/manager.go:55-118 | never empty; a transport error, non-200 status, bad body or no chat model gives the built-in models; otherwise the filtered list |
| Models.GetCachedModels | internal/models/manager.go:124-145 | the stored list; built-in models with the error for an unknown path or unreadable file, and without one for a missing or unparsable file |
| Models.RefreshModelList | internal/models/manager.go:162-182 | without a token an authentication error and no fetch; on success the count is the number of models fetched and cached |
| Models.RefreshThenRead | internal/models/manager.go:162-182 | after a successful refresh the cache reads back the fetched list, as many models as reported |

## Left out

- **Process execution, file I/O, SQLite and HTTP.** The outputs of `git`,
  `gh`, `which`, `os.Stat`, the model catalogue and the release list are
  parameters, and so are the results of writes and of SQL statements.
  - RunGitCommand, CommitWithMessage, PushChanges, StageAllChanges,
    InitDB and the download and install steps are not modelled.
  - internal/api/client.go, internal/netutil/client.go and
    internal/anyisland/anyisland.go are not part of this model.
- **Functions the code calls but the shown source does not define.**
  GetRemoteOwner, GetLocalIdentity, GetHistoryIdentity, SyncLocalConfig and
  GetCurrentBranch appear as opaque inputs.
- **Concurrency.** StartDiscovery and Wait wrap `discover` in a goroutine with
  a one-slot channel. `Account.Discover` is the plain function they run.
- **Randomness and time.**
  - GetRandomGitmoji is the `pick` parameter of `Gitmoji.Gitmojified`.
  - `last_used` is a `now` parameter.
  - The four-hour update throttle is not modelled.
- **The command line.** Cobra wiring, colored output and `vibe.go` are not
  modelled, and nor is configuration loading. The merged configuration is
  an input record.
- **Build from source and conflict cleanup.** These SeamlessUpdate branches
  are not modelled; `Updater.ReleasePlan` covers the release path only.
  debug_schema.go and ListAllCache are debug only and are not modelled.
- **Unicode letter case.** `Text.ToLower` lower-cases only the letters A to
  Z, while Go's strings.ToLower maps every upper-case letter. White space
  (TrimSpace, Fields) follows Go's unicode.IsSpace in full.
- Summarizer.Cut: cuts by characters, not bytes. Go slices by byte, so for
  non-ASCII text it keeps fewer characters and can split one. Cut is used at
  the truncation lengths 6, 3 and 1, which can split the 3-byte "−" of a
  numstat descriptor and change the JSON output, and at 40 in ShortLine.
- Summarizer.ShortLine: keeps the first 40 characters where Go keeps the
  first 40 bytes. The two differ for a line with non-ASCII text and more than
  40 bytes: Go's line is shorter and may end in a split character, which a
  `seq<char>` cannot hold.
- Summarizer.UnifiedDescriptor: inherits ShortLine's 40-character cut. It
  differs from Go only when the first non-blank line has non-ASCII text and
  more than 40 bytes.
- **JSON encoding.** Byte sizes are computed from the model's encoding:
  - escapes for quotes, backslash, control characters, `<>&` and
    U+2028/U+2029;
  - UTF-8 lengths per character.

  Invalid UTF-8, which Go rewrites as `�`, cannot occur in a
  `seq<char>`.
- **Hashing.** sha256 is the constructor `Index.Sha256`, an injective
  function of the path. Hex formatting is not modelled.
- **Paths.** They follow Unix `filepath` rules only. A Windows volume name
  is not modelled.
- Gitmoji.FindBestGitmoji: of the five messages with an expected emoji in
  the package's test table, three are proved: "fix a bug in auth", "remove
  unused files" and "add new feature for logging". In each, the winner
  reaches the score cap; Sparkles scores 180 on the third before the cap.
  For "improve performance of diff" (Zap, 80) and "update documentation for
  api" (Memo, 75) the winner stays below the cap. Proving them would take
  the exact score of all 26 entries.
- Models.RefreshModelList: the "Failed to fetch models" branch and the
  "No chat-completion models found" branch are unreachable and not modelled.
  FetchAvailableModels always returns a nil error and a non-empty list.

=== FILE: account.dfy ===
/**
 * internal/processor/account.go: which GitHub account a repository should be
 * committed and pushed as (`discover`), and bringing the active `gh` account
 * and the repository's git identity in line with it (`Sync`). Everything the
 * program learns from `gh`, git, the data directory and the affinity store is
 * part of an explicit environment record.
 */
module Account {
  import opened Wrappers
  import opened Text
  import Index
  import Auth
  import Paths

  /** The AccountManager's decision: target account, e-mail and name, and whether only one account is in use. */
  datatype Manager = Manager(repoRoot: string, targetAccount: string, targetEmail: string, targetName: string, isSingle: bool)

  /** NewAccountManager: nothing decided yet. */
  function NewManager(repoRoot: string): Manager
  {
    Manager(repoRoot, "", "", "", false)
  }

  /** What discovery and synchronisation observe and change. */
  datatype Env = Env(
    dataDir: Index.DataDir,               // the sentinel file
    sentinelIO: Outcome,                  // what writing the sentinel file answers
    accounts: Result<seq<string>>,        // auth.ListAccounts
    db: Result<Index.Store>,              // index.InitDB: the store, or the error opening it
    cacheQuery: Outcome,                  // what the repo_cache SELECT answers, apart from its rows
    cacheExec: Outcome,                   // what the repo_cache INSERT OR REPLACE answers
    activeUser: string,                   // auth.GetGithubUser ("" when gh fails)
    localEmail: string,                   // the repository's git user.email
    localName: string,                    // the repository's git user.name
    histEmail: string,                    // e-mail of the repository's recent history
    owner: string,                        // owner of the repository's remote
    preferNoReply: Option<bool>,          // the configured PreferNoReplyEmail, if set
    ghUser: Result<Auth.UserData>,        // `gh api user` for the active account
    ghPrimaryEmail: Result<string>,       // `gh api user/emails` for the active account
    switchResult: Outcome,                // auth.SwitchAccount
    configResult: Outcome,                // git.SyncLocalConfig
    now: int)                             // time.Now().Unix()

  // ---------------------------------------------------------------------------
  // String helpers
  // ---------------------------------------------------------------------------

  /** stringsEqual: both non-empty and equal. */
  predicate StringsEqual(a: string, b: string)
  {
    (a != "" && b != "") && a == b
  }

  /** contains: both non-empty and `t` starts or ends `s` (despite its name, no infix match). */
  predicate ContainsAffix(s: string, t: string)
  {
    (s != "" && t != "") && (|s| >= |t| && (s[..|t|] == t || s[|s| - |t|..] == t))
  }

  /** `contains` is a non-empty prefix or suffix test. */
  lemma ContainsAffixIsPrefixOrSuffix(s: string, t: string)
    ensures ContainsAffix(s, t) <==> s != "" && t != "" && (HasPrefix(s, t) || HasSuffix(s, t))
  {
  }

  // ---------------------------------------------------------------------------
  // Signals
  // ---------------------------------------------------------------------------

  /** Directory gravity: the root has a path element equal to the account. */
  predicate Gravity(root: string, acc: string)
  {
    Contains(root, "/" + acc + "/") || HasSuffix(root, "/" + acc)
  }

  /** The e-mail signal: an e-mail equals the account, or the account starts or ends the local e-mail. */
  predicate EmailMatch(acc: string, localEmail: string, histEmail: string)
  {
    StringsEqual(acc, localEmail) || StringsEqual(acc, histEmail)
    || (localEmail != "" && ContainsAffix(localEmail, acc))
  }

  /**
   * The weak-signal target by priority: the first account matching an
   * e-mail, else the first account equal to the remote owner, else the
   * active user.
   */
  function WeakTarget(accounts: seq<string>, activeUser: string, owner: string, localEmail: string, histEmail: string): (r: string)
    ensures r == activeUser || r in accounts
    ensures (exists j :: 0 <= j < |accounts| && EmailMatch(accounts[j], localEmail, histEmail))
            ==> EmailMatch(r, localEmail, histEmail)
    ensures forall k :: 0 <= k < |accounts| && EmailMatch(accounts[k], localEmail, histEmail)
                        && (forall j :: 0 <= j < k ==> !EmailMatch(accounts[j], localEmail, histEmail))
                        ==> r == accounts[k]
    ensures ((forall j :: 0 <= j < |accounts| ==> !EmailMatch(accounts[j], localEmail, histEmail))
             && (exists j :: 0 <= j < |accounts| && StringsEqual(accounts[j], owner))) ==> r == owner
    ensures (forall j :: 0 <= j < |accounts| ==> !EmailMatch(accounts[j], localEmail, histEmail) && !StringsEqual(accounts[j], owner))
            ==> r == activeUser
  {
    var e := FirstWhere(accounts, acc => EmailMatch(acc, localEmail, histEmail));
    if e < |accounts| then accounts[e]
    else
      var o := FirstWhere(accounts, acc => StringsEqual(acc, owner));
      if o < |accounts| then accounts[o] else activeUser
  }

  /**
   * The weak-signal step as the program writes it: start from the active
   * user, overwrite with the first account equal to the owner, then with the
   * first account matching an e-mail.
   */
  method WeakSignals(accounts: seq<string>, activeUser: string, owner: string, localEmail: string, histEmail: string)
    returns (target: string)
    ensures target == WeakTarget(accounts, activeUser, owner, localEmail, histEmail)
  {
    target := activeUser;
    var i := 0;
    while i < |accounts|
      invariant 0 <= i <= |accounts|
      invariant forall j :: 0 <= j < i ==> !StringsEqual(accounts[j], owner)
      invariant target == activeUser
    {
      if StringsEqual(accounts[i], owner) {
        target := accounts[i];
        break;
      }
      i := i + 1;
    }
    ghost var o := FirstWhere(accounts, acc => StringsEqual(acc, owner));
    assert target == if o < |accounts| then accounts[o] else activeUser;
    i := 0;
    while i < |accounts|
      invariant 0 <= i <= |accounts|
      invariant forall j :: 0 <= j < i ==> !EmailMatch(accounts[j], localEmail, histEmail)
      invariant target == if o < |accounts| then accounts[o] else activeUser
    {
      if EmailMatch(accounts[i], localEmail, histEmail) {
        target := accounts[i];
        break;
      }
      i := i + 1;
    }
  }

  // ---------------------------------------------------------------------------
  // discover
  // ---------------------------------------------------------------------------

  /** What discover returns, the manager it leaves, and the data directory afterwards. */
  datatype Discovery = Discovery(outcome: Outcome, m: Manager, dataDir: Index.DataDir)

  /**
   * discover for the repository at `root`, signals in priority order:
   * sentinel, account list, directory gravity, cached row, weak signals. A
   * failing cache query counts as a miss, as a missing row does.
   */
  function Discover(env: Env, root: string): (r: Discovery)
    ensures r.m.repoRoot == root
    ensures Index.HasSentinel(env.dataDir) ==> r == Discovery(Pass, NewManager(root).(isSingle := true), env.dataDir)
    ensures r.m.isSingle <==> Index.HasSentinel(env.dataDir) || (env.accounts.Ok? && |env.accounts.value| <= 1)
    ensures r.dataDir != env.dataDir ==>
              !Index.HasSentinel(env.dataDir) && env.accounts.Ok? && |env.accounts.value| <= 1
              && Index.HasSentinel(r.dataDir)
    ensures !Index.HasSentinel(env.dataDir) && env.accounts.Err? ==> r.outcome == Fail(env.accounts.error)
    ensures !Index.HasSentinel(env.dataDir) && env.accounts.Ok? && |env.accounts.value| <= 1 ==>
              && r.outcome == Pass && r.m == NewManager(root).(isSingle := true)
              && (env.dataDir.available && env.sentinelIO.Pass? ==> Index.HasSentinel(r.dataDir))
              && (!env.dataDir.available || env.sentinelIO.Fail? ==> r.dataDir == env.dataDir)
    ensures r.outcome.Fail? ==> r.m == NewManager(root)
  {
    var m := NewManager(root);
    if Index.HasSentinel(env.dataDir) then Discovery(Pass, m.(isSingle := true), env.dataDir)
    else
      match env.accounts
      case Err(e) => Discovery(Fail(e), m, env.dataDir)
      case Ok(accs) =>
        if |accs| <= 1 then
          var d := match Index.SetSentinel(env.dataDir, true, env.sentinelIO) case Ok(d) => d case Err(_) => env.dataDir;
          Discovery(Pass, m.(isSingle := true), d)
        else
          var g := FirstWhere(accs, acc => Gravity(root, acc));
          if g < |accs| then Discovery(Pass, m.(targetAccount := accs[g]), env.dataDir)
          else
            match env.db
            case Err(e) => Discovery(Fail(e), m, env.dataDir)
            case Ok(store) =>
              match if env.cacheQuery.Pass? then Index.CachedIdentity(store, Index.Sha256(root)) else None
              case Some((a, e, n)) => Discovery(Pass, m.(targetAccount := a, targetEmail := e, targetName := n), env.dataDir)
              case None =>
                Discovery(Pass, m.(targetAccount := WeakTarget(accs, env.activeUser, env.owner, env.localEmail, env.histEmail)), env.dataDir)
  }

  /**
   * Gravity decides when some account names a directory of the root: the
   * first such account in listing order is the target, whatever the store and
   * the weak signals say.
   */
  lemma GravityDecides(env: Env, root: string, g: nat)
    requires !Index.HasSentinel(env.dataDir) && env.accounts.Ok? && |env.accounts.value| > 1
    requires g < |env.accounts.value| && Gravity(root, env.accounts.value[g])
    requires forall j :: 0 <= j < g ==> !Gravity(root, env.accounts.value[j])
    ensures Discover(env, root) == Discovery(Pass, NewManager(root).(targetAccount := env.accounts.value[g]), env.dataDir)
  {
    FirstWhereIs(env.accounts.value, acc => Gravity(root, acc), g);
  }

  /** Without gravity, a store that cannot be opened is discovery's error. */
  lemma StoreErrorFails(env: Env, root: string)
    requires !Index.HasSentinel(env.dataDir) && env.accounts.Ok? && |env.accounts.value| > 1
    requires forall j :: 0 <= j < |env.accounts.value| ==> !Gravity(root, env.accounts.value[j])
    requires env.db.Err?
    ensures Discover(env, root).outcome == Fail(env.db.error)
  {
  }

  /**
   * With one account or none, the sentinel the first discovery writes makes
   * every later discovery take the fast exit, whatever the account list says
   * by then.
   */
  lemma SingleAccountRemembered(env: Env, root: string, later: Env)
    requires !Index.HasSentinel(env.dataDir) && env.accounts.Ok? && |env.accounts.value| <= 1
    requires env.dataDir.available && env.sentinelIO.Pass?
    requires later.dataDir == Discover(env, root).dataDir
    ensures Discover(later, root) == Discovery(Pass, NewManager(root).(isSingle := true), later.dataDir)
  {
  }

  /**
   * Without gravity, a complete cached row under the hash of the root as
   * given decides account, e-mail and name, when the query runs; a failing
   * query leaves the choice to the weak signals.
   */
  lemma CacheDecides(env: Env, root: string)
    requires !Index.HasSentinel(env.dataDir) && env.accounts.Ok? && |env.accounts.value| > 1
    requires forall j :: 0 <= j < |env.accounts.value| ==> !Gravity(root, env.accounts.value[j])
    requires env.db.Ok? && Index.CachedIdentity(env.db.value, Index.Sha256(root)).Some?
    ensures var id := Index.CachedIdentity(env.db.value, Index.Sha256(root)).value;
            env.cacheQuery.Pass? ==> Discover(env, root) == Discovery(Pass, Manager(root, id.0, id.1, id.2, false), env.dataDir)
    ensures env.cacheQuery.Fail? ==>
              Discover(env, root).m.targetAccount == WeakTarget(env.accounts.value, env.activeUser, env.owner, env.localEmail, env.histEmail)
  {
  }

  /**
   * Without gravity and a complete cached row, the weak signals decide the
   * account and leave e-mail and name empty; an e-mail match always wins.
   */
  lemma WeakSignalsDecide(env: Env, root: string)
    requires !Index.HasSentinel(env.dataDir) && env.accounts.Ok? && |env.accounts.value| > 1
    requires forall j :: 0 <= j < |env.accounts.value| ==> !Gravity(root, env.accounts.value[j])
    requires env.db.Ok? && (env.cacheQuery.Fail? || Index.CachedIdentity(env.db.value, Index.Sha256(root)).None?)
    ensures var r := Discover(env, root);
            r.outcome.Pass? && r.m.targetEmail == "" && r.m.targetName == ""
            && r.m.targetAccount == WeakTarget(env.accounts.value, env.activeUser, env.owner, env.localEmail, env.histEmail)
  {
  }

  /**
   * A pin made with SetDefaultUser for a root not cached before is invisible
   * to discovery: the weak signals still decide.
   */
  lemma PinIgnoredByDiscovery(env: Env, root: string, user: string, now: int)
    requires !Index.HasSentinel(env.dataDir) && env.accounts.Ok? && |env.accounts.value| > 1
    requires forall j :: 0 <= j < |env.accounts.value| ==> !Gravity(root, env.accounts.value[j])
    requires env.db.Ok? && Paths.IsCleanAbs(root) && Index.Sha256(root) !in env.db.value
    ensures var pinned := env.(db := Index.SetDefaultUser(env.db, None, root, user, now, Pass));
            Discover(pinned, root).m.targetAccount
            == WeakTarget(env.accounts.value, env.activeUser, env.owner, env.localEmail, env.histEmail)
  {
    Index.DiscoveryKeyAgreement(None, root);
    Index.NewPinIsNotACacheHit(env.db.value, None, root, user, now);
  }

  // ---------------------------------------------------------------------------
  // Sync and CacheAccount
  // ---------------------------------------------------------------------------

  /** Sync gets past its first steps: several accounts, a decided target, and the target active or switched to. */
  predicate SwitchedTo(env: Env, m: Manager)
  {
    !m.isSingle && m.targetAccount != "" && (env.activeUser == m.targetAccount || env.switchResult.Pass?)
  }

  /** What Sync returns, the manager it leaves, and the environment afterwards. */
  datatype Synced = Synced(outcome: Outcome, m: Manager, env: Env)

  /**
   * INSERT OR REPLACE of the repository's row, when the store opens and the
   * statement (answering `exec`) runs; the key is the hash of the root as
   * given. The new row holds the identity and the time and no default user;
   * every other row is kept. Both errors are discarded: the store is then as
   * it was.
   */
  function CacheRow(db: Result<Index.Store>, root: string, account: string, email: string, name: string, now: int, exec: Outcome)
    : (r: Result<Index.Store>)
    ensures db.Err? || exec.Fail? ==> r == db
    ensures db.Ok? && exec.Pass? ==> r.Ok? && r.value.Keys == db.value.Keys + {Index.Sha256(root)}
    ensures db.Ok? && exec.Pass? ==> r.value[Index.Sha256(root)] == Index.Row(Some(account), Some(email), Some(name), Some(now), None)
    ensures db.Ok? && exec.Pass? ==> forall h :: h in db.value && h != Index.Sha256(root) ==> r.value[h] == db.value[h]
    ensures db.Ok? && exec.Pass? ==> Index.CachedIdentity(r.value, Index.Sha256(root)) == Some((account, email, name))
  {
    match db
    case Err(_) => db
    case Ok(store) =>
      if exec.Fail? then db else Ok(Index.InsertOrReplace(store, Index.Sha256(root), account, email, name, now))
  }

  /**
   * CacheAccount: the manager's repository row replaced by the given
   * identity, stamped with the current time; nothing but the store changes,
   * and discovery's next cache lookup for the root finds the identity. A
   * store that does not open or a statement that fails changes nothing.
   */
  function CacheAccount(env: Env, m: Manager, account: string, email: string, name: string): (r: Env)
    ensures r == env.(db := r.db)
    ensures env.db.Err? || env.cacheExec.Fail? ==> r == env
    ensures env.db.Ok? && env.cacheExec.Pass? ==> r.db.Ok? && r.db.value.Keys == env.db.value.Keys + {Index.Sha256(m.repoRoot)}
    ensures env.db.Ok? && env.cacheExec.Pass? ==>
              r.db.value[Index.Sha256(m.repoRoot)] == Index.Row(Some(account), Some(email), Some(name), Some(env.now), None)
    ensures env.db.Ok? && env.cacheExec.Pass? ==>
              forall h :: h in env.db.value && h != Index.Sha256(m.repoRoot) ==> r.db.value[h] == env.db.value[h]
    ensures env.db.Ok? && env.cacheExec.Pass? ==> Index.CachedIdentity(r.db.value, Index.Sha256(m.repoRoot)) == Some((account, email, name))
  {
    env.(db := CacheRow(env.db, m.repoRoot, account, email, name, env.now, env.cacheExec))
  }

  /**
   * The identity step of Sync: with no target e-mail yet, the active
   * account's identity is fetched (no-reply address unless configured
   * otherwise) and cached under the target handle; a failed fetch changes
   * nothing.
   */
  function FetchIdentity(env: Env, m: Manager): (r: (Manager, Env))
    ensures m.targetEmail != "" ==> r == (m, env)
    ensures var id := Auth.AccountIdentity(env.preferNoReply.GetOr(true), env.ghUser, env.ghPrimaryEmail);
            m.targetEmail == "" && id.Err? ==> r == (m, env)
    ensures var id := Auth.AccountIdentity(env.preferNoReply.GetOr(true), env.ghUser, env.ghPrimaryEmail);
            m.targetEmail == "" && id.Ok? ==>
              r.0 == m.(targetEmail := id.value.email, targetName := id.value.name)
              && r.1 == CacheAccount(env, m, m.targetAccount, id.value.email, id.value.name)
  {
    if m.targetEmail != "" then (m, env)
    else
      match Auth.AccountIdentity(env.preferNoReply.GetOr(true), env.ghUser, env.ghPrimaryEmail)
      case Err(_) => (m, env)
      case Ok(id) =>
        (m.(targetEmail := id.email, targetName := id.name), CacheAccount(env, m, m.targetAccount, id.email, id.name))
  }

  /**
   * Sync: nothing for a single-account setup or an undecided target;
   * otherwise switch `gh` to the target when another account is active
   * (failing with the switch's error), fetch and cache the identity when the
   * e-mail is unknown, and write the repository's git identity when the
   * target e-mail is known and differs from the current one.
   */
  function Sync(env: Env, m: Manager): (r: Synced)
    ensures m.isSingle || m.targetAccount == "" ==> r == Synced(Pass, m, env)
    ensures !m.isSingle && m.targetAccount != "" && env.activeUser != m.targetAccount && env.switchResult.Fail?
            ==> r == Synced(env.switchResult, m, env)
    ensures r.outcome.Pass? && !m.isSingle && m.targetAccount != "" ==> r.env.activeUser == m.targetAccount
    ensures r.env.localEmail != env.localEmail ==>
              r.m.targetEmail != "" && r.env.localEmail == r.m.targetEmail && r.env.localName == r.m.targetName
    ensures r.m.targetAccount == m.targetAccount && r.m.isSingle == m.isSingle && r.m.repoRoot == m.repoRoot
    ensures r.env.dataDir == env.dataDir && r.env.accounts == env.accounts
    ensures SwitchedTo(env, m) && r.m.targetEmail != "" && r.m.targetEmail != env.localEmail && env.configResult.Pass? ==>
              r.outcome == Pass && r.env.localEmail == r.m.targetEmail && r.env.localName == r.m.targetName
    ensures SwitchedTo(env, m) && r.m.targetEmail != "" && r.m.targetEmail != env.localEmail && env.configResult.Fail? ==>
              r.outcome == env.configResult && r.env.localEmail == env.localEmail && r.env.localName == env.localName
    ensures SwitchedTo(env, m) && (r.m.targetEmail == "" || r.m.targetEmail == env.localEmail) ==>
              r.outcome == Pass && r.env.localEmail == env.localEmail && r.env.localName == env.localName
  {
    if m.isSingle || m.targetAccount == "" then Synced(Pass, m, env)
    else if env.activeUser != m.targetAccount && env.switchResult.Fail? then Synced(env.switchResult, m, env)
    else
      var switched := env.(activeUser := m.targetAccount);
      var (m1, env1) := FetchIdentity(switched, m);
      if m1.targetEmail != "" && env1.localEmail != m1.targetEmail then
        match env1.configResult
        case Fail(e) => Synced(Fail(e), m1, env1)
        case Pass => Synced(Pass, m1, env1.(localEmail := m1.targetEmail, localName := m1.targetName))
      else Synced(Pass, m1, env1)
  }

  /** When the target is already active the outcome of a switch plays no part: no switch happens. */
  lemma NoSwitchWhenActive(env: Env, m: Manager, other: Outcome)
    requires env.activeUser == m.targetAccount
    ensures Sync(env, m).m == Sync(env.(switchResult := other), m).m
    ensures Sync(env, m).outcome == Sync(env.(switchResult := other), m).outcome
  {
  }

  /**
   * A failed identity fetch is swallowed: Sync succeeds (when the git
   * identity need not be written), the e-mail stays empty, the store and the
   * git identity are untouched.
   */
  lemma FetchFailureSwallowed(env: Env, m: Manager)
    requires !m.isSingle && m.targetAccount != "" && m.targetEmail == ""
    requires env.activeUser == m.targetAccount || env.switchResult.Pass?
    requires Auth.AccountIdentity(env.preferNoReply.GetOr(true), env.ghUser, env.ghPrimaryEmail).Err?
    ensures var r := Sync(env, m);
            r.outcome.Pass? && r.m == m && r.env.db == env.db
            && r.env.localEmail == env.localEmail && r.env.localName == env.localName
  {
  }

  /**
   * A successful fetch replaces the repository's row with the target handle
   * and the fetched identity, so a default user pinned there is dropped; when
   * the statement fails the store is kept and the fetched e-mail is still
   * used.
   */
  lemma FetchCachesUnderTarget(env: Env, m: Manager)
    requires !m.isSingle && m.targetAccount != "" && m.targetEmail == ""
    requires env.activeUser == m.targetAccount || env.switchResult.Pass?
    requires env.db.Ok?
    requires Auth.AccountIdentity(env.preferNoReply.GetOr(true), env.ghUser, env.ghPrimaryEmail).Ok?
    ensures var r := Sync(env, m);
            var id := Auth.AccountIdentity(env.preferNoReply.GetOr(true), env.ghUser, env.ghPrimaryEmail).value;
            var key := Index.Sha256(m.repoRoot);
            env.cacheExec.Pass? ==>
              && r.env.db.Ok? && key in r.env.db.value
              && r.env.db.value[key].accountHandle == Some(m.targetAccount)
              && r.env.db.value[key].email == Some(id.email)
              && r.env.db.value[key].defaultUser.None?
    ensures env.cacheExec.Fail? ==> Sync(env, m).env.db == env.db
    ensures Sync(env, m).m.targetEmail == Auth.AccountIdentity(env.preferNoReply.GetOr(true), env.ghUser, env.ghPrimaryEmail).value.email
  {
    SyncAfterFetch(env, m);
    var id := Auth.AccountIdentity(env.preferNoReply.GetOr(true), env.ghUser, env.ghPrimaryEmail).value;
    var fetched := FetchIdentity(env.(activeUser := m.targetAccount), m);
    assert fetched.0.targetEmail == id.email;
    if env.cacheExec.Pass? {
      assert fetched.1.db == Ok(Index.InsertOrReplace(env.db.value, Index.Sha256(m.repoRoot), m.targetAccount, id.email, id.name, env.now));
    }
  }

  /** Past the switch, Sync's manager and store are those the identity step leaves. */
  lemma SyncAfterFetch(env: Env, m: Manager)
    requires !m.isSingle && m.targetAccount != ""
    requires env.activeUser == m.targetAccount || env.switchResult.Pass?
    ensures Sync(env, m).m == FetchIdentity(env.(activeUser := m.targetAccount), m).0
    ensures Sync(env, m).env.db == FetchIdentity(env.(activeUser := m.targetAccount), m).1.db
  {
  }

  /** Unless configured otherwise, the fetched e-mail is the account's no-reply address. */
  lemma NoReplyByDefault(env: Env, m: Manager)
    requires !m.isSingle && m.targetAccount != "" && m.targetEmail == ""
    requires env.activeUser == m.targetAccount || env.switchResult.Pass?
    requires env.preferNoReply.None? && env.ghUser.Ok?
    ensures Sync(env, m).m.targetEmail == Auth.NoReplyEmail(env.ghUser.value.id, env.ghUser.value.login)
  {
  }

  /** Once the repository's git e-mail is the target e-mail, Sync changes it no further. */
  lemma SyncSettles(env: Env, m: Manager)
    requires m.targetEmail != "" && env.localEmail == m.targetEmail
    ensures Sync(env, m).env.localEmail == env.localEmail
  {
  }
}

=== FILE: auth.dfy ===
/**
 * internal/auth/auth.go: token selection, the parsing of `gh auth status`
 * output into account handles, and the identity (name, e-mail, login) of the
 * active account. What `gh` prints is an input here.
 */
module Auth {
  import opened Wrappers
  import opened Text

  /**
   * GetToken: a configured key is used as is; otherwise the token `gh` holds
   * for github.com (`ghToken`, "" when it has none).
   */
  function GetToken(configuredKey: string, ghToken: string): (r: string)
    ensures configuredKey != "" ==> r == configuredKey
    ensures configuredKey == "" ==> r == ghToken
  {
    if configuredKey != "" then configuredKey else ghToken
  }

  // ---------------------------------------------------------------------------
  // Logged-in accounts
  // ---------------------------------------------------------------------------

  /** One element of the `accounts` array of `gh auth status --json`. */
  datatype StatusAccount = StatusAccount(user: string)

  /** The decoded `gh auth status --json` document. */
  datatype StatusJson = StatusJson(activeUser: string, accounts: seq<StatusAccount>)

  /** The text marking a logged-in line of plain `gh auth status` output. */
  const LoggedInMarker := "Logged in to github.com as"

  /** The `user` of every account, in array order. */
  function JsonUsers(accounts: seq<StatusAccount>): (r: seq<string>)
    ensures |r| == |accounts|
    ensures forall i :: 0 <= i < |r| ==> r[i] == accounts[i].user
  {
    seq(|accounts|, i requires 0 <= i < |accounts| => accounts[i].user)
  }

  /** The handle a plain status line names: its seventh field, if it holds the marker and has seven fields. */
  function LineUser(line: string): (r: Option<string>)
    ensures r.Some? ==> Contains(line, LoggedInMarker) && IsWord(r.value)
    ensures r.Some? <==> Contains(line, LoggedInMarker) && |Fields(line)| >= 7
    ensures r.Some? ==> r.value == Fields(line)[6]
  {
    var fields := Fields(line);
    if Contains(line, LoggedInMarker) && |fields| >= 7 then Some(fields[6]) else None
  }

  /** The handles of the logged-in lines, in line order; other lines are ignored. */
  function StatusUsers(lines: seq<string>): (r: seq<string>)
    ensures |r| <= |lines|
    ensures forall i :: 0 <= i < |r| ==> IsWord(r[i])
    ensures (forall i :: 0 <= i < |lines| ==> LineUser(lines[i]).None?) ==> r == []
  {
    if |lines| == 0 then []
    else
      var rest := StatusUsers(lines[1..]);
      match LineUser(lines[0])
      case Some(u) => WordsCons(u, rest); [u] + rest
      case None => NoUsersTail(lines); rest
  }

  /** A word in front of a list of words gives a list of words. */
  lemma WordsCons(u: string, rest: seq<string>)
    requires IsWord(u) && forall i :: 0 <= i < |rest| ==> IsWord(rest[i])
    ensures forall i :: 0 <= i < |[u] + rest| ==> IsWord(([u] + rest)[i])
  {
    forall i | 0 < i < |[u] + rest| ensures ([u] + rest)[i] == rest[i - 1] { }
  }

  /** A list of status lines that name no user has a tail that names none either. */
  lemma NoUsersTail(lines: seq<string>)
    requires |lines| > 0
    ensures (forall i :: 0 <= i < |lines| ==> LineUser(lines[i]).None?) ==>
              forall i :: 0 <= i < |lines[1..]| ==> LineUser(lines[1..][i]).None?
  {
    forall i | 0 <= i < |lines[1..]| ensures lines[1..][i] == lines[i + 1] { }
  }

  /** The status lines are read one at a time: the users of a concatenation are those of its parts, in order. */
  lemma {:induction false} StatusUsersAppend(a: seq<string>, b: seq<string>)
    ensures StatusUsers(a + b) == StatusUsers(a) + StatusUsers(b)
  {
    if |a| > 0 {
      assert (a + b)[1..] == a[1..] + b;
      StatusUsersAppend(a[1..], b);
    } else {
      assert a + b == b;
    }
  }

  /** One line yields its seventh field when it holds the marker and has seven fields, and nothing otherwise. */
  lemma StatusUsersSingle(line: string)
    ensures StatusUsers([line]) == if Contains(line, LoggedInMarker) && |Fields(line)| >= 7 then [Fields(line)[6]] else []
  {
    assert [line][1..] == [];
  }

  /**
   * ListAccounts never fails: when the hosts file exists and `gh auth status
   * --json` yields a document (`json`), its account users in order; otherwise
   * the users parsed from the plain `gh auth status` output.
   */
  function ListAccounts(hostsFileExists: bool, json: Result<StatusJson>, statusText: string): (r: Result<seq<string>>)
    ensures r.Ok?
    ensures hostsFileExists && json.Ok? ==> r.value == JsonUsers(json.value.accounts)
    ensures !(hostsFileExists && json.Ok?) ==> r.value == StatusUsers(Split(statusText, '\n'))
  {
    if hostsFileExists && json.Ok? then Ok(JsonUsers(json.value.accounts))
    else Ok(StatusUsers(Split(statusText, '\n')))
  }

  /**
   * A status line made of single-space-separated fields, holding the marker,
   * yields its seventh field: for "✓ Logged in to github.com as alice (keyring)"
   * that is "alice".
   */
  lemma StatusLineUser(ws: seq<string>)
    requires |ws| >= 7 && forall i :: 0 <= i < |ws| ==> IsWord(ws[i])
    requires Contains(Join(ws, " "), LoggedInMarker)
    ensures StatusUsers([Join(ws, " ")]) == [ws[6]]
  {
    FieldsJoin(ws);
  }

  // ---------------------------------------------------------------------------
  // Account identity
  // ---------------------------------------------------------------------------

  /** The user record `gh api user` yields: name (login when unset), login, numeric id. */
  datatype UserData = UserData(name: string, login: string, id: int)

  /** Name, e-mail and login of the active account. */
  datatype Identity = Identity(name: string, email: string, login: string)

  const NoReplyDomain := "@users.noreply.github.com"

  /** GitHub's no-reply address "<id>+<login>@users.noreply.github.com". */
  function NoReplyEmail(id: int, login: string): (r: string)
    ensures HasSuffix(r, login + NoReplyDomain)
  {
    var head := IntToDecimal(id) + "+";
    var tail := login + NoReplyDomain;
    ConcatHasSuffix(head, tail);
    head + tail
  }

  /**
   * GetAccountIdentity: a failed user lookup is an error; otherwise name and
   * login come from it and the e-mail is the no-reply address when preferred,
   * else the trimmed primary verified address, or "" when that lookup fails.
   */
  function AccountIdentity(preferNoReply: bool, user: Result<UserData>, primaryEmail: Result<string>): (r: Result<Identity>)
    ensures user.Err? ==> r == Err(user.error)
    ensures user.Ok? ==> r.Ok? && r.value.name == user.value.name && r.value.login == user.value.login
    ensures user.Ok? && preferNoReply ==> r.value.email == NoReplyEmail(user.value.id, user.value.login)
    ensures user.Ok? && !preferNoReply && primaryEmail.Err? ==> r.value.email == ""
    ensures user.Ok? && !preferNoReply && primaryEmail.Ok? ==> r.value.email == TrimSpace(primaryEmail.value)
  {
    match user
    case Err(e) => Err(e)
    case Ok(u) =>
      if preferNoReply then Ok(Identity(u.name, NoReplyEmail(u.id, u.login), u.login))
      else
        match primaryEmail
        case Err(_) => Ok(Identity(u.name, "", u.login))
        case Ok(out) => Ok(Identity(u.name, TrimSpace(out), u.login))
  }

  /**
   * The no-reply address identifies the account: two accounts with
   * non-negative ids share it only if they share id and login.
   */
  lemma NoReplyEmailInjective(id1: int, login1: string, id2: int, login2: string)
    requires id1 >= 0 && id2 >= 0
    requires NoReplyEmail(id1, login1) == NoReplyEmail(id2, login2)
    ensures id1 == id2 && login1 == login2
  {
    var d1 := NatToDecimal(id1);
    var d2 := NatToDecimal(id2);
    var t1 := "+" + login1 + NoReplyDomain;
    var t2 := "+" + login2 + NoReplyDomain;
    NoReplyParts(id1, login1);
    NoReplyParts(id2, login2);
    DigitsThenPlus(d1, t1, d2, t2);
    DecimalRoundTrip(id1);
    DecimalRoundTrip(id2);
    assert login1 == t1[1..|t1| - |NoReplyDomain|];
    assert login2 == t2[1..|t2| - |NoReplyDomain|];
  }

  /** The address of a non-negative id: its digits, then "+", the login and the domain. */
  lemma NoReplyParts(id: int, login: string)
    requires id >= 0
    ensures NoReplyEmail(id, login) == NatToDecimal(id) + ("+" + login + NoReplyDomain)
  {
    assert IntToDecimal(id) == NatToDecimal(id);
  }

  /** A run of digits ended by '+' splits a string in only one way. */
  lemma DigitsThenPlus(d1: string, t1: string, d2: string, t2: string)
    requires forall k :: 0 <= k < |d1| ==> IsDigit(d1[k])
    requires forall k :: 0 <= k < |d2| ==> IsDigit(d2[k])
    requires |t1| > 0 && t1[0] == '+' && |t2| > 0 && t2[0] == '+'
    requires d1 + t1 == d2 + t2
    ensures d1 == d2 && t1 == t2
  {
    var s := d1 + t1;
    assert s[|d1|] == '+' && s[|d2|] == '+';
    assert forall k :: 0 <= k < |d1| ==> s[k] == d1[k];
    assert forall k :: 0 <= k < |d2| ==> s[k] == d2[k];
    assert |d1| == |d2|;
    assert d1 == s[..|d1|] && d2 == s[..|d2|];
  }
}

=== FILE: git.dfy ===
/**
 * internal/git/git.go: parsing of the staged-file listing and repository
 * discovery over an abstract directory tree. The outputs of `git` commands are
 * inputs here, as RunGitCommand returns them (whitespace-trimmed, or an error).
 */
module Git {
  import opened Wrappers
  import opened Text
  import opened Ordering
  import Paths

  // ---------------------------------------------------------------------------
  // Staged files
  // ---------------------------------------------------------------------------

  /** Trimming never introduces a character. */
  lemma TrimSpaceKeepsOut(s: string, c: char)
    requires c !in s
    ensures c !in TrimSpace(s)
  {
    var t := TrimSpace(s);
    TrimBothEnds(s);
    var a := |s| - |TrimLeft(s)|;
    forall k | 0 <= k < |t| ensures t[k] != c {
      assert t[k] == s[a + k];
    }
  }

  /** The trimmed lines of `lines` that are not blank, in order. */
  function NonBlankLines(lines: seq<string>): (r: seq<string>)
    requires forall i :: 0 <= i < |lines| ==> '\n' !in lines[i]
    ensures |r| <= |lines|
    ensures forall i :: 0 <= i < |r| ==> r[i] != "" && IsTrimmed(r[i]) && '\n' !in r[i]
    ensures forall i :: 0 <= i < |lines| && TrimSpace(lines[i]) != "" ==> TrimSpace(lines[i]) in r
  {
    if |lines| == 0 then []
    else
      var rest := NonBlankLines(lines[1..]);
      NonBlankConsShape(lines[0], rest);
      NonBlankConsCovers(lines, rest);
      var t := TrimSpace(lines[0]);
      if t != "" then [t] + rest else rest
  }

  /** Putting a line's non-blank trimmed form in front keeps every entry trimmed, non-empty and newline-free. */
  lemma NonBlankConsShape(line: string, rest: seq<string>)
    requires '\n' !in line
    requires forall i :: 0 <= i < |rest| ==> rest[i] != "" && IsTrimmed(rest[i]) && '\n' !in rest[i]
    ensures var t := TrimSpace(line);
            var r := if t != "" then [t] + rest else rest;
            forall i :: 0 <= i < |r| ==> r[i] != "" && IsTrimmed(r[i]) && '\n' !in r[i]
  {
    var t := TrimSpace(line);
    var r := if t != "" then [t] + rest else rest;
    TrimSpaceKeepsOut(line, '\n');
    forall i | 0 <= i < |r| ensures r[i] != "" && IsTrimmed(r[i]) && '\n' !in r[i] {
      if t != "" && i > 0 {
        assert r[i] == rest[i - 1];
      }
    }
  }

  /** Every non-blank line, the first or a later one, has its trimmed form kept by one step. */
  lemma NonBlankConsCovers(lines: seq<string>, rest: seq<string>)
    requires |lines| > 0
    requires forall i :: 0 <= i < |lines[1..]| && TrimSpace(lines[1..][i]) != "" ==> TrimSpace(lines[1..][i]) in rest
    ensures var t := TrimSpace(lines[0]);
            var r := if t != "" then [t] + rest else rest;
            forall i :: 0 <= i < |lines| && TrimSpace(lines[i]) != "" ==> TrimSpace(lines[i]) in r
  {
    var t := TrimSpace(lines[0]);
    var r := if t != "" then [t] + rest else rest;
    forall i | 0 <= i < |lines| && TrimSpace(lines[i]) != "" ensures TrimSpace(lines[i]) in r {
      if i > 0 {
        assert lines[i] == lines[1..][i - 1];
      }
    }
  }

  /** The line filter works line by line: the lines of a concatenation are those of its parts, in order. */
  lemma {:induction false} NonBlankAppend(a: seq<string>, b: seq<string>)
    requires forall i :: 0 <= i < |a| ==> '\n' !in a[i]
    requires forall i :: 0 <= i < |b| ==> '\n' !in b[i]
    ensures NonBlankLines(a + b) == NonBlankLines(a) + NonBlankLines(b)
  {
    if |a| > 0 {
      assert (a + b)[1..] == a[1..] + b;
      NonBlankAppend(a[1..], b);
    } else {
      assert a + b == b;
    }
  }

  /** One line gives its trimmed form, or nothing when it is blank. */
  lemma NonBlankSingle(l: string)
    requires '\n' !in l
    ensures NonBlankLines([l]) == if TrimSpace(l) == "" then [] else [TrimSpace(l)]
  {
    assert [l][1..] == [];
  }

  /**
   * GetStagedFiles over the output of `git diff --staged --name-only`: an error
   * passes through, empty output is no files, otherwise one file per non-blank
   * line, trimmed, in listing order.
   */
  function StagedFiles(output: Result<string>): (r: Result<seq<string>>)
    ensures output.Err? ==> r == Err(output.error)
    ensures output == Ok("") ==> r == Ok([])
    ensures r.Ok? ==> forall i :: 0 <= i < |r.value| ==> r.value[i] != "" && IsTrimmed(r.value[i]) && '\n' !in r.value[i]
  {
    match output
    case Err(e) => Err(e)
    case Ok(out) => if out == "" then Ok([]) else Ok(NonBlankLines(Split(out, '\n')))
  }

  /** Any listing, one line per entry, gives its trimmed non-blank lines in listing order. */
  lemma StagedFilesLines(lines: seq<string>)
    requires forall i :: 0 <= i < |lines| ==> '\n' !in lines[i]
    ensures StagedFiles(Ok(Join(lines, "\n"))) == Ok(NonBlankLines(lines))
  {
    if Join(lines, "\n") == "" {
      if |lines| == 1 { assert lines[0] == ""; assert lines[1..] == []; }
    } else if |lines| >= 1 {
      SplitJoin(lines, '\n');
    }
  }

  /** A listing of trimmed, non-blank file names, one per line, parses back to those names. */
  lemma StagedFilesRoundTrip(files: seq<string>)
    requires forall i :: 0 <= i < |files| ==> files[i] != "" && IsTrimmed(files[i]) && '\n' !in files[i]
    ensures StagedFiles(Ok(Join(files, "\n"))) == Ok(files)
  {
    if |files| > 0 {
      SplitJoin(files, '\n');
      assert Join(files, "\n") != "" by {
        if |files| > 1 { assert |Join(files, "\n")| >= |files[0]|; }
      }
      NonBlankIdentity(files);
    }
  }

  /** Lines that are already trimmed and non-blank pass through unchanged. */
  lemma {:induction false} NonBlankIdentity(lines: seq<string>)
    requires forall i :: 0 <= i < |lines| ==> lines[i] != "" && IsTrimmed(lines[i]) && '\n' !in lines[i]
    ensures NonBlankLines(lines) == lines
  {
    if |lines| > 0 {
      TrimmedIsFixpoint(lines[0]);
      NonBlankIdentity(lines[1..]);
      assert lines == [lines[0]] + lines[1..];
    }
  }

  // ---------------------------------------------------------------------------
  // Repository discovery
  // ---------------------------------------------------------------------------

  /**
   * What filepath.Walk sees of one directory entry: a directory (whose listing
   * may fail) with its entries, or anything else — a file, a symbolic link, or
   * an entry whose Lstat failed. `resolves` says whether os.Stat, which
   * follows symbolic links, succeeds on it: false for a dangling link.
   */
  datatype Entry =
    | Dir(name: string, readable: bool, children: seq<Entry>)
    | Other(name: string, resolves: bool)

  /** Directory names the walk returns filepath.SkipDir for. */
  predicate Pruned(name: string)
  {
    name == ".git" || name == "node_modules" || name == "target"
  }

  /** An entry os.Stat succeeds on: a directory, or anything else that resolves. */
  predicate Resolves(e: Entry)
  {
    e.Dir? || e.resolves
  }

  /**
   * os.Stat(filepath.Join(path, ".git")) succeeds: the directory has a `.git`
   * entry that resolves — a directory, a file, or a link to either.
   */
  predicate HasGitMarker(children: seq<Entry>)
  {
    exists k :: 0 <= k < |children| && children[k].name == ".git" && Resolves(children[k])
  }

  /** The path recorded for a discovered directory: filepath.Abs, skipped when it fails. */
  function Recorded(cwd: Option<string>, path: string): seq<string>
  {
    match Paths.Abs(cwd, path)
    case Some(abs) => [abs]
    case None => []
  }

  /**
   * `x` is the absolute path of a directory the walk reaches from `e` (at
   * `path`, named `name`) that holds a `.git` entry: every directory on the way
   * down, this one included, is readable and not pruned.
   */
  ghost predicate RecordedBelow(path: string, name: string, e: Entry, cwd: Option<string>, x: string)
    decreases e
  {
    && e.Dir? && e.readable && !Pruned(name)
    && ((HasGitMarker(e.children) && Paths.Abs(cwd, path) == Some(x))
        || exists k :: 0 <= k < |e.children| && RecordedBelow(Paths.JoinPath(path, e.children[k].name), e.children[k].name, e.children[k], cwd, x))
  }

  /**
   * The walk callback applied to `e`, reached as `path` under the name `name`,
   * and to everything below it: an entry that is not a readable directory is
   * ignored, a pruned directory is skipped with all it contains, and any other
   * directory is recorded when it holds `.git` and is then descended into.
   */
  function Walk(path: string, name: string, e: Entry, cwd: Option<string>): (r: seq<string>)
    ensures (e.Other? || !e.readable || Pruned(name)) ==> r == []
    ensures (e.Dir? && e.readable && !Pruned(name) && HasGitMarker(e.children) && Paths.Abs(cwd, path).Some?)
            ==> |r| > 0 && r[0] == Paths.Abs(cwd, path).value
    ensures forall x :: x in r <==> RecordedBelow(path, name, e, cwd, x)
    decreases e, 1
  {
    match e
    case Other(_, _) => []
    case Dir(_, readable, children) =>
      if !readable || Pruned(name) then []
      else
        var here := if HasGitMarker(children) then Recorded(cwd, path) else [];
        here + WalkEntries(path, children, cwd)
  }

  /** The walk over the entries of the directory at `path`, in listing order. */
  function WalkEntries(path: string, children: seq<Entry>, cwd: Option<string>): (r: seq<string>)
    ensures forall k, x :: 0 <= k < |children| && x in Walk(Paths.JoinPath(path, children[k].name), children[k].name, children[k], cwd) ==> x in r
    ensures forall x :: x in r <==>
              exists k :: 0 <= k < |children| && RecordedBelow(Paths.JoinPath(path, children[k].name), children[k].name, children[k], cwd, x)
    decreases children, 0
  {
    if |children| == 0 then []
    else
      var c := children[0];
      var first := Walk(Paths.JoinPath(path, c.name), c.name, c, cwd);
      var rest := WalkEntries(path, children[1..], cwd);
      assert forall k :: 1 <= k < |children| ==> children[k] == children[1..][k - 1];
      first + rest
  }

  /**
   * The walk goes on below a recorded repository: whatever an entry of a
   * walked directory yields is part of what the directory yields, so nested
   * repositories are found too.
   */
  lemma WalkDescends(path: string, name: string, e: Entry, cwd: Option<string>, k: int, x: string)
    requires e.Dir? && e.readable && !Pruned(name)
    requires 0 <= k < |e.children|
    requires x in Walk(Paths.JoinPath(path, e.children[k].name), e.children[k].name, e.children[k], cwd)
    ensures x in Walk(path, name, e, cwd)
  {
  }

  /**
   * A directory whose `.git` entries do not resolve, such as a dangling
   * symbolic link, is not recorded itself: it yields only what its entries
   * yield.
   */
  lemma UnresolvedMarkerIgnored(path: string, name: string, e: Entry, cwd: Option<string>)
    requires e.Dir? && e.readable && !Pruned(name)
    requires forall k :: 0 <= k < |e.children| && e.children[k].name == ".git" ==> !Resolves(e.children[k])
    ensures Walk(path, name, e, cwd) == WalkEntries(path, e.children, cwd)
  {
  }

  /**
   * A repository holding a `vendor` directory that holds another repository:
   * both are recorded, since `vendor` is not pruned and the walk does not stop
   * at the outer repository.
   */
  lemma VendoredRepositoryFound(path: string, name: string, outer: Entry, cwd: Option<string>, v: int, b: int)
    requires outer.Dir? && outer.readable && !Pruned(name) && HasGitMarker(outer.children)
    requires 0 <= v < |outer.children|
    requires outer.children[v].Dir? && outer.children[v].name == "vendor" && outer.children[v].readable
    requires 0 <= b < |outer.children[v].children|
    requires outer.children[v].children[b].Dir? && outer.children[v].children[b].readable
    requires !Pruned(outer.children[v].children[b].name) && HasGitMarker(outer.children[v].children[b].children)
    requires cwd.Some? && Paths.IsAbs(cwd.value)
    ensures Paths.Abs(cwd, path).value in Walk(path, name, outer, cwd)
    ensures var vendorPath := Paths.JoinPath(path, "vendor");
            var innerPath := Paths.JoinPath(vendorPath, outer.children[v].children[b].name);
            Paths.Abs(cwd, innerPath).value in Walk(path, name, outer, cwd)
  {
    var vendor := outer.children[v];
    var vendorPath := Paths.JoinPath(path, "vendor");
    var inner := vendor.children[b];
    var innerPath := Paths.JoinPath(vendorPath, inner.name);
    var x := Paths.Abs(cwd, innerPath).value;
    assert x in Walk(innerPath, inner.name, inner, cwd);
    WalkDescends(vendorPath, "vendor", vendor, cwd, b, x);
    WalkDescends(path, name, outer, cwd, v, x);
  }

  /**
   * DiscoverRepositories(root): the working-tree top level of `root` when `git
   * rev-parse --show-toplevel` succeeds there (`toplevel`), plus every
   * directory the walk from `root` records, sorted and without duplicates.
   * `tree` is what Lstat and the directory listings show at `root`.
   */
  function DiscoverRepositories(root: string, cwd: Option<string>, toplevel: Result<string>, tree: Entry): (r: seq<string>)
    ensures StrictlySorted(r)
    ensures forall x :: x in r <==> x in TopLevel(cwd, toplevel) || x in Walk(root, Paths.Base(root), tree, cwd)
    ensures toplevel.Ok? && Paths.IsAbs(toplevel.value) ==> Paths.Clean(toplevel.value) in r
  {
    var top := TopLevel(cwd, toplevel);
    var found := Walk(root, Paths.Base(root), tree, cwd);
    SortUnique(top + found)
  }

  /** The recorded top level of the working tree holding the root, if any. */
  function TopLevel(cwd: Option<string>, toplevel: Result<string>): seq<string>
  {
    match toplevel
    case Ok(t) => Recorded(cwd, t)
    case Err(_) => []
  }
}

=== FILE: gitmoji.dfy ===
/**
 * internal/gitmoji/gitmoji.go: the emoji table, the fuzzy score of a commit
 * message against one entry, the choice of the best entry, and the prefixing
 * of a message with an emoji. The random pick used when nothing matches is a
 * parameter.
 */
module Gitmoji {
  import opened Wrappers
  import opened Text

  /** One table entry. */
  datatype Gitmoji = Gitmoji(emoji: string, code: string, description: string, keywords: seq<string>)

  // The entries of GITMOJIS, named after their codes.
  const Art := Gitmoji("🎨", ":art:", "Improve structure/format", ["format", "structure", "style", "lint"])
  const Zap := Gitmoji("⚡", ":zap:", "Improve performance", ["performance", "speed", "optimize", "fast"])
  const Fire := Gitmoji("🔥", ":fire:", "Remove code/files", ["remove", "delete", "clean", "unused"])
  const Bug := Gitmoji("🐛", ":bug:", "Fix bug", ["fix", "bug", "issue", "error", "crash"])
  const Sparkles := Gitmoji("✨", ":sparkles:", "New feature", ["feature", "new", "add", "implement"])
  const Memo := Gitmoji("📝", ":memo:", "Add documentation", ["docs", "documentation", "comment", "readme"])
  const Rocket := Gitmoji("🚀", ":rocket:", "Deploy stuff", ["deploy", "release", "publish", "launch"])
  const NailCare := Gitmoji("💅", ":nail_care:", "Polish code", ["polish", "refine", "improve"])
  const WhiteCheckMark := Gitmoji("✅", ":white_check_mark:", "Add tests", ["test", "tests", "testing"])
  const Lock := Gitmoji("🔐", ":lock:", "Security fix", ["security", "auth", "encrypt"])
  const ArrowUp := Gitmoji("⬆️", ":arrow_up:", "Upgrade dependencies", ["upgrade", "update", "dependency", "dependencies"])
  const ArrowDown := Gitmoji("⬇️", ":arrow_down:", "Downgrade dependencies", ["downgrade"])
  const Package := Gitmoji("📦", ":package:", "Update packages", ["package", "npm", "yarn", "bundler"])
  const Wrench := Gitmoji("🔧", ":wrench:", "Configuration", ["config", "configuration", "settings"])
  const GlobeWithMeridians := Gitmoji("🌐", ":globe_with_meridians:", "i18n/localization", ["i18n", "translation", "locale", "language"])
  const Wheelchair := Gitmoji("♿", ":wheelchair:", "Accessibility", ["accessibility", "a11y", "aria"])
  const RotatingLight := Gitmoji("🚨", ":rotating_light:", "Fix warnings", ["warning", "lint"])
  const Mag := Gitmoji("🔍", ":mag:", "SEO", ["seo"])
  const Apple := Gitmoji("🍎", ":apple:", "macOS fix", ["macos", "mac", "apple"])
  const Penguin := Gitmoji("🐧", ":penguin:", "Linux fix", ["linux", "ubuntu"])
  const Snake := Gitmoji("🐍", ":snake:", "Python changes", ["python", "django", "flask", "pip", "pytorch"])
  const Books := Gitmoji("📚", ":books:", "Node.js/JavaScript", ["node", "npm", "javascript", "express", "typescript"])
  const Crab := Gitmoji("🦀", ":crab:", "Rust changes", ["rust", "cargo", "tokio", "wasm"])
  const Coffee := Gitmoji("☕", ":coffee:", "Java changes", ["java", "spring", "maven", "gradle", "jvm"])
  const Whale := Gitmoji("🐳", ":whale:", "Docker changes", ["docker", "container", "dockerfile", "image"])
  const Hamster := Gitmoji("🐹", ":hamster:", "Go changes", ["go", "golang", "mod"])

  /** GITMOJIS, in table order. */
  const Gitmojis: seq<Gitmoji> := [
    Art, Zap, Fire, Bug, Sparkles, Memo,
    Rocket, NailCare, WhiteCheckMark, Lock, ArrowUp, ArrowDown,
    Package, Wrench, GlobeWithMeridians, Wheelchair, RotatingLight, Mag,
    Apple, Penguin, Snake, Books, Crab, Coffee,
    Whale, Hamster
  ]

  /** The score is capped at this value. */
  const Cap: nat := 100

  /** An entry is chosen only when it scores strictly more than this. */
  const Threshold: nat := 30

  // ---------------------------------------------------------------------------
  // Scoring
  // ---------------------------------------------------------------------------

  /**
   * What one keyword adds for the lower-cased message `msg`: 40 when the
   * message contains it, and 10 more when it has at least three characters
   * and the message contains its first three.
   */
  function KeywordPoints(msg: string, keyword: string): (r: nat)
    ensures r <= 50
    ensures r >= 40 <==> Contains(msg, keyword)
    ensures Contains(msg, keyword) && |keyword| >= 3 ==> r == 50
    ensures !Contains(msg, keyword) ==> r <= 10
  {
    assert Contains(msg, keyword) && |keyword| >= 3 ==> Contains(msg, keyword[..3]) by {
      if Contains(msg, keyword) && |keyword| >= 3 { ContainsPrefix(msg, keyword, 3); }
    }
    (if Contains(msg, keyword) then 40 else 0)
    + (if |keyword| >= 3 && Contains(msg, keyword[..3]) then 10 else 0)
  }

  /** The keyword part of the score: the points of every keyword, summed. */
  function KeywordScore(msg: string, keywords: seq<string>): (r: nat)
    ensures r <= 50 * |keywords|
  {
    if |keywords| == 0 then 0
    else KeywordPoints(msg, keywords[0]) + KeywordScore(msg, keywords[1..])
  }

  /** The keyword score of two keyword lists is the sum of their scores. */
  lemma {:induction false} KeywordScoreAppend(msg: string, a: seq<string>, b: seq<string>)
    ensures KeywordScore(msg, a + b) == KeywordScore(msg, a) + KeywordScore(msg, b)
  {
    if |a| > 0 {
      assert (a + b)[1..] == a[1..] + b;
      KeywordScoreAppend(msg, a[1..], b);
    } else {
      assert a + b == b;
    }
  }

  /** A single keyword scores its own points. */
  lemma KeywordScoreSingle(msg: string, k: string)
    ensures KeywordScore(msg, [k]) == KeywordPoints(msg, k)
  {
    assert [k][1..] == [];
  }

  /** What one description word adds: 15 when it is longer than two characters and contained. */
  function WordPoints(msg: string, word: string): (r: nat)
    ensures r == 15 <==> |word| > 2 && Contains(msg, word)
    ensures r == 0 || r == 15
  {
    if |word| > 2 && Contains(msg, word) then 15 else 0
  }

  /** The description part of the score, over the lower-cased description's fields. */
  function DescriptionScore(msg: string, words: seq<string>): (r: nat)
    ensures r <= 15 * |words|
  {
    if |words| == 0 then 0
    else WordPoints(msg, words[0]) + DescriptionScore(msg, words[1..])
  }

  /** The uncapped score of `message` against `g`. */
  function RawScore(message: string, g: Gitmoji): nat
  {
    var msg := ToLower(message);
    KeywordScore(msg, g.keywords) + DescriptionScore(msg, Fields(ToLower(g.description)))
  }

  /** calculateFuzzyScore: the raw score, capped at 100. */
  function FuzzyScore(message: string, g: Gitmoji): (r: nat)
    ensures r <= Cap
    ensures r == Cap <==> RawScore(message, g) >= Cap
    ensures r < Cap ==> r == RawScore(message, g)
  {
    var raw := RawScore(message, g);
    if raw > Cap then Cap else raw
  }

  /** The score of `message` against every entry of `table`, in table order. */
  function Scores(table: seq<Gitmoji>, message: string): (r: seq<nat>)
    ensures |r| == |table|
    ensures forall k :: 0 <= k < |table| ==> r[k] == FuzzyScore(message, table[k])
  {
    seq(|table|, k requires 0 <= k < |table| => FuzzyScore(message, table[k]))
  }

  /** Two contained keywords of three characters or more reach the cap on their own. */
  lemma {:induction false} KeywordScoreAtLeast(msg: string, keywords: seq<string>, i: nat, j: nat)
    requires i < j < |keywords|
    ensures KeywordScore(msg, keywords) >= KeywordPoints(msg, keywords[i]) + KeywordPoints(msg, keywords[j])
    decreases i
  {
    if i > 0 {
      KeywordScoreAtLeast(msg, keywords[1..], i - 1, j - 1);
    } else {
      KeywordScoreAtLeastOne(msg, keywords[1..], j - 1);
    }
  }

  /** The keyword score is at least what any one keyword adds. */
  lemma {:induction false} KeywordScoreAtLeastOne(msg: string, keywords: seq<string>, j: nat)
    requires j < |keywords|
    ensures KeywordScore(msg, keywords) >= KeywordPoints(msg, keywords[j])
    decreases j
  {
    if j > 0 {
      KeywordScoreAtLeastOne(msg, keywords[1..], j - 1);
    }
  }

  /** Keywords the message does not contain add at most 10 each. */
  lemma {:induction false} KeywordScoreAtMost(msg: string, keywords: seq<string>)
    requires forall i :: 0 <= i < |keywords| ==> !Contains(msg, keywords[i])
    ensures KeywordScore(msg, keywords) <= 10 * |keywords|
  {
    if |keywords| > 0 {
      assert !Contains(msg, keywords[0]);
      var tail := keywords[1..];
      assert forall i :: 0 <= i < |tail| ==> !Contains(msg, tail[i]) by {
        forall i | 0 <= i < |tail| ensures !Contains(msg, tail[i]) { assert tail[i] == keywords[i + 1]; }
      }
      KeywordScoreAtMost(msg, tail);
    }
  }

  /**
   * The fields of a description that is words joined by single spaces are
   * those words, lower-cased.
   */
  lemma DescriptionWords(description: string, words: seq<string>)
    requires description == Join(words, " ")
    requires forall i :: 0 <= i < |words| ==> IsWord(words[i])
    ensures Fields(ToLower(description)) == LowerAll(words)
  {
    ToLowerJoin(words);
    forall i | 0 <= i < |words| ensures IsWord(LowerAll(words)[i]) {
      ToLowerWord(words[i]);
    }
    FieldsJoin(LowerAll(words));
  }

  // ---------------------------------------------------------------------------
  // Choosing the best entry
  // ---------------------------------------------------------------------------

  /**
   * `r` is what FindBestGitmoji promises for a non-blank message with entry
   * scores `scores`: no entry when none scores above the threshold;
   * otherwise an entry scoring above it, no entry scoring higher, and every
   * earlier entry scoring lower (ties go to the first).
   */
  predicate IsBest(scores: seq<nat>, r: Option<nat>)
  {
    match r
    case None => forall j :: 0 <= j < |scores| ==> scores[j] <= Threshold
    case Some(k) =>
      && k < |scores|
      && scores[k] > Threshold
      && (forall j :: 0 <= j < |scores| ==> scores[j] <= scores[k])
      && (forall j :: 0 <= j < k ==> scores[j] < scores[k])
  }

  /** At most one choice meets IsBest. */
  lemma BestUnique(scores: seq<nat>, a: Option<nat>, b: Option<nat>)
    requires IsBest(scores, a) && IsBest(scores, b)
    ensures a == b
  {
    if a.Some? && b.Some? {
      assert !(a.value < b.value);
      assert !(b.value < a.value);
    }
  }

  /**
   * The loop of FindBestGitmoji from entry `i` on, with `bestScore` (starting
   * at the threshold) and the entry that reached it so far; only a strictly
   * higher score replaces the current pick.
   */
  function BestFrom(scores: seq<nat>, i: nat, bestScore: nat, best: Option<nat>): (r: Option<nat>)
    requires i <= |scores| && Threshold <= bestScore
    requires best.None? ==> bestScore == Threshold
    requires best.Some? ==> bestScore > Threshold
    requires best.Some? ==> best.value < i && scores[best.value] == bestScore
    requires forall j :: 0 <= j < i ==> scores[j] <= bestScore
    requires best.Some? ==> forall j :: 0 <= j < best.value ==> scores[j] < bestScore
    ensures IsBest(scores, r)
    decreases |scores| - i
  {
    if i == |scores| then best
    else if scores[i] > bestScore then BestFrom(scores, i + 1, scores[i], Some(i))
    else BestFrom(scores, i + 1, bestScore, best)
  }

  /** FindBestGitmoji over `table`: None for a blank message, otherwise the IsBest choice. */
  function FindBest(table: seq<Gitmoji>, message: string): (r: Option<nat>)
    ensures TrimSpace(message) == "" ==> r.None?
    ensures TrimSpace(message) != "" ==> IsBest(Scores(table, message), r)
    ensures r.Some? ==> r.value < |table|
  {
    if TrimSpace(message) == "" then None
    else BestFrom(Scores(table, message), 0, Threshold, None)
  }

  /** FindBestGitmoji: the index of the chosen entry of GITMOJIS, if any. */
  function FindBestGitmoji(message: string): (r: Option<nat>)
    ensures TrimSpace(message) == "" ==> r.None?
    ensures TrimSpace(message) != "" ==> IsBest(Scores(Gitmojis, message), r)
    ensures r.Some? ==> r.value < |Gitmojis|
  {
    FindBest(Gitmojis, message)
  }

  /** An entry that reaches the cap, with every earlier entry below it, is the one chosen. */
  lemma CapWins(scores: seq<nat>, k: nat)
    requires k < |scores| && scores[k] == Cap
    requires forall j :: 0 <= j < |scores| ==> scores[j] <= Cap
    requires forall j :: 0 <= j < k ==> scores[j] < Cap
    ensures IsBest(scores, Some(k))
  {
  }

  /** A prefix and a space in front of a message leave the message as a suffix. */
  lemma Prefixed(e: string, message: string)
    ensures HasSuffix(e + " " + message, " " + message) && |e + " " + message| > |message|
  {
    assert e + " " + message == e + (" " + message);
    ConcatHasSuffix(e, " " + message);
  }

  /**
   * GetGitmojifiedMessage: the message behind the chosen entry's emoji and a
   * space; when nothing is chosen, behind the emoji of the randomly picked
   * entry `pick` (modulo the table size).
   */
  function Gitmojified(message: string, pick: nat): (r: string)
    ensures FindBestGitmoji(message).Some? ==> r == Gitmojis[FindBestGitmoji(message).value].emoji + " " + message
    ensures exists k :: 0 <= k < |Gitmojis| && r == Gitmojis[k].emoji + " " + message
    ensures HasSuffix(r, " " + message) && |r| > |message|
  {
    var k := match FindBestGitmoji(message)
      case Some(b) => b
      case None => pick % |Gitmojis|;
    Prefixed(Gitmojis[k].emoji, message);
    Gitmojis[k].emoji + " " + message
  }

  // ---------------------------------------------------------------------------
  // The cases of the package's test table whose winner reaches the cap
  // ---------------------------------------------------------------------------

  /**
   * An entry whose keywords the lower-cased message all misses stays under
   * the cap when it has few enough keywords and description words.
   */
  lemma BelowCap(message: string, g: Gitmoji)
    requires forall k :: k in g.keywords ==> !Contains(ToLower(message), k)
    requires 10 * |g.keywords| + 15 * |Fields(ToLower(g.description))| < Cap
    ensures FuzzyScore(message, g) < Cap
  {
    assert forall i :: 0 <= i < |g.keywords| ==> !Contains(ToLower(message), g.keywords[i]) by {
      forall i | 0 <= i < |g.keywords| ensures !Contains(ToLower(message), g.keywords[i]) {
        assert g.keywords[i] in g.keywords;
      }
    }
    KeywordScoreAtMost(ToLower(message), g.keywords);
  }

  /** An entry with two contained keywords of three characters or more reaches the cap. */
  lemma AtCap(message: string, g: Gitmoji, i: nat, j: nat)
    requires i < j < |g.keywords|
    requires |g.keywords[i]| >= 3 && Contains(ToLower(message), g.keywords[i])
    requires |g.keywords[j]| >= 3 && Contains(ToLower(message), g.keywords[j])
    ensures FuzzyScore(message, g) == Cap
  {
    KeywordScoreAtLeast(ToLower(message), g.keywords, i, j);
  }

  /** The first entries of GITMOJIS. */
  lemma TableStart()
    ensures |Gitmojis| == 26
    ensures Gitmojis[0] == Art && Gitmojis[1] == Zap && Gitmojis[2] == Fire && Gitmojis[3] == Bug
    ensures Gitmojis[4] == Sparkles
  {
  }

  /** Art has four keywords and two description words. */
  lemma ArtShape()
    ensures |Art.keywords| == 4 && |Fields(ToLower(Art.description))| == 2
  {
    DescriptionWords(Art.description, ["Improve", "structure/format"]);
  }

  /** Zap has four keywords and two description words. */
  lemma ZapShape()
    ensures |Zap.keywords| == 4 && |Fields(ToLower(Zap.description))| == 2
  {
    DescriptionWords(Zap.description, ["Improve", "performance"]);
  }

  /** Fire has four keywords and two description words. */
  lemma FireShape()
    ensures |Fire.keywords| == 4 && |Fields(ToLower(Fire.description))| == 2
  {
    DescriptionWords(Fire.description, ["Remove", "code/files"]);
  }

  /** Bug has five keywords and two description words. */
  lemma BugShape()
    ensures |Bug.keywords| == 5 && |Fields(ToLower(Bug.description))| == 2
  {
    DescriptionWords(Bug.description, ["Fix", "bug"]);
  }

  /** A message without 'o', 's' and 'l' contains none of Art's keywords. */
  lemma ArtMissed(msg: string)
    requires 'o' !in msg && 's' !in msg && 'l' !in msg
    ensures forall k :: k in Art.keywords ==> !Contains(msg, k)
  {
    NotContainsMissingChar(msg, "format", 'o');
    NotContainsMissingChar(msg, "structure", 's');
    NotContainsMissingChar(msg, "style", 's');
    NotContainsMissingChar(msg, "lint", 'l');
  }

  /** A message without 't' contains none of Art's keywords. */
  lemma ArtMissedNoT(msg: string)
    requires 't' !in msg
    ensures forall k :: k in Art.keywords ==> !Contains(msg, k)
  {
    NotContainsMissingChar(msg, "format", 't');
    NotContainsMissingChar(msg, "structure", 't');
    NotContainsMissingChar(msg, "style", 't');
    NotContainsMissingChar(msg, "lint", 't');
  }

  /** A message without 'p', and without 's' or without 'a', contains none of Zap's keywords. */
  lemma ZapMissed(msg: string, c: char)
    requires 'p' !in msg && (c == 's' || c == 'a') && c !in msg
    ensures forall k :: k in Zap.keywords ==> !Contains(msg, k)
  {
    NotContainsMissingChar(msg, "performance", 'p');
    NotContainsMissingChar(msg, "speed", 'p');
    NotContainsMissingChar(msg, "optimize", 'p');
    NotContainsMissingChar(msg, "fast", c);
  }

  /** A message without 'r', 'd', 'c' and 's' contains none of Fire's keywords. */
  lemma FireMissed(msg: string)
    requires 'r' !in msg && 'd' !in msg && 'c' !in msg && 's' !in msg
    ensures forall k :: k in Fire.keywords ==> !Contains(msg, k)
  {
    NotContainsMissingChar(msg, "remove", 'r');
    NotContainsMissingChar(msg, "delete", 'd');
    NotContainsMissingChar(msg, "clean", 'c');
    NotContainsMissingChar(msg, "unused", 's');
  }

  /** A test message of the package is lower-case and trimmed. */
  lemma TestMessage(m: string)
    requires m == "fix a bug in auth" || m == "remove unused files" || m == "add new feature for logging"
    ensures ToLower(m) == m && TrimSpace(m) == m
  {
    assert forall i :: 0 <= i < |m| ==> !('A' <= m[i] <= 'Z');
    ToLowerOfLower(m);
    TrimmedIsFixpoint(m);
  }

  /**
   * An entry reaching the cap, with every earlier one below it, is what
   * FindBest picks for a non-blank message.
   */
  lemma FirstAtCapChosen(t: seq<Gitmoji>, m: string, k: nat)
    requires TrimSpace(m) != ""
    requires k < |t| && FuzzyScore(m, t[k]) == Cap
    requires forall j :: 0 <= j < k ==> FuzzyScore(m, t[j]) < Cap
    ensures FindBest(t, m) == Some(k)
  {
    var scores := Scores(t, m);
    assert scores[k] == Cap;
    assert forall j :: 0 <= j < k ==> scores[j] < Cap;
    CapWins(scores, k);
    var r := FindBest(t, m);
    assert IsBest(scores, r);
    BestUnique(scores, r, Some(k));
  }

  /** "fix a bug in auth" reaches the cap on Bug ("fix" and "bug"). */
  lemma FixABugInAuthAtCap(m: string)
    requires m == "fix a bug in auth"
    ensures FuzzyScore(m, Bug) == Cap
  {
    TestMessage(m);
    assert OccursAt(m, "fix", 0);
    assert OccursAt(m, "bug", 6);
    AtCap(m, Bug, 0, 1);
  }

  /** Art stays under the cap for "fix a bug in auth". */
  lemma FixABugInAuthNotArt(m: string)
    requires m == "fix a bug in auth"
    ensures FuzzyScore(m, Art) < Cap
  {
    TestMessage(m);
    ArtMissed(m);
    ArtShape();
    BelowCap(m, Art);
  }

  /** "fix a bug in auth" has neither 'p' nor 's'. */
  lemma FixABugInAuthLetters(m: string)
    requires m == "fix a bug in auth"
    ensures 'p' !in m && 's' !in m
  {
  }

  /** "remove unused files" has neither 'p' nor 'a'. */
  lemma RemoveUnusedFilesLetters(m: string)
    requires m == "remove unused files"
    ensures 'p' !in m && 'a' !in m
  {
  }

  /** Zap stays under the cap for a lower-case message without 'p', and without 's' or without 'a'. */
  lemma ZapBelowCap(m: string, c: char)
    requires ToLower(m) == m
    requires 'p' !in m && (c == 's' || c == 'a') && c !in m
    ensures FuzzyScore(m, Zap) < Cap
  {
    ZapMissed(m, c);
    ZapShape();
    BelowCap(m, Zap);
  }

  /** Fire stays under the cap for "fix a bug in auth". */
  lemma FixABugInAuthNotFire(m: string)
    requires m == "fix a bug in auth"
    ensures FuzzyScore(m, Fire) < Cap
  {
    TestMessage(m);
    FireMissed(m);
    FireShape();
    BelowCap(m, Fire);
  }

  /**
   * FindBest picks the fourth entry of a table for a non-blank message on
   * which that entry, and none of the three before it, reaches the cap.
   */
  lemma FourthChosen(t: seq<Gitmoji>, m: string)
    requires TrimSpace(m) != "" && |t| > 3
    requires FuzzyScore(m, t[0]) < Cap && FuzzyScore(m, t[1]) < Cap && FuzzyScore(m, t[2]) < Cap
    requires FuzzyScore(m, t[3]) == Cap
    ensures FindBest(t, m) == Some(3)
  {
    forall j | 0 <= j < 3 ensures FuzzyScore(m, t[j]) < Cap {
      assert j == 0 || j == 1 || j == 2;
    }
    FirstAtCapChosen(t, m, 3);
  }

  /** FindBestGitmoji("fix a bug in auth") is the bug entry. */
  lemma FixABugInAuth(m: string)
    requires m == "fix a bug in auth"
    ensures FindBestGitmoji(m) == Some(3) && Gitmojis[3] == Bug && Bug.emoji == "🐛"
  {
    TableStart();
    TestMessage(m);
    FixABugInAuthNotArt(m);
    FixABugInAuthLetters(m);
    ZapBelowCap(m, 's');
    FixABugInAuthNotFire(m);
    FixABugInAuthAtCap(m);
    FourthChosen(Gitmojis, m);
  }

  /** "remove unused files" reaches the cap on Fire ("remove" and "unused"). */
  lemma RemoveUnusedFilesAtCap(m: string)
    requires m == "remove unused files"
    ensures FuzzyScore(m, Fire) == Cap
  {
    TestMessage(m);
    assert OccursAt(m, "remove", 0);
    assert OccursAt(m, "unused", 7);
    AtCap(m, Fire, 0, 3);
  }

  /** Art stays under the cap for "remove unused files". */
  lemma RemoveUnusedFilesNotArt(m: string)
    requires m == "remove unused files"
    ensures FuzzyScore(m, Art) < Cap
  {
    TestMessage(m);
    ArtMissedNoT(m);
    ArtShape();
    BelowCap(m, Art);
  }

  /**
   * FindBest picks the third entry of a table for a non-blank message on
   * which that entry, and neither of the two before it, reaches the cap.
   */
  lemma ThirdChosen(t: seq<Gitmoji>, m: string)
    requires TrimSpace(m) != "" && |t| > 2
    requires FuzzyScore(m, t[0]) < Cap && FuzzyScore(m, t[1]) < Cap && FuzzyScore(m, t[2]) == Cap
    ensures FindBest(t, m) == Some(2)
  {
    forall j | 0 <= j < 2 ensures FuzzyScore(m, t[j]) < Cap {
      assert j == 0 || j == 1;
    }
    FirstAtCapChosen(t, m, 2);
  }

  /** FindBestGitmoji("remove unused files") is the fire entry. */
  lemma RemoveUnusedFiles(m: string)
    requires m == "remove unused files"
    ensures FindBestGitmoji(m) == Some(2) && Gitmojis[2] == Fire && Fire.emoji == "🔥"
  {
    TableStart();
    TestMessage(m);
    RemoveUnusedFilesNotArt(m);
    RemoveUnusedFilesLetters(m);
    ZapBelowCap(m, 'a');
    RemoveUnusedFilesAtCap(m);
    ThirdChosen(Gitmojis, m);
  }

  // "add new feature for logging": Sparkles scores 180 before the cap, and
  // so reaches it, while the four entries before it stay below.

  /** "add new feature for logging" is its five words joined by single spaces. */
  lemma AddNewFeatureWords(m: string)
    requires m == "add new feature for logging"
    ensures m == Join(["add", "new", "feature", "for", "logging"], " ")
  {
    var ws := ["add", "new", "feature", "for", "logging"];
    assert ws[1..][1..][1..][1..] == ["logging"];
    assert ws[1..][1..][1..] == ["for", "logging"];
    assert ws[1..][1..] == ["feature", "for", "logging"];
    assert ws[1..] == ["new", "feature", "for", "logging"];
  }

  /**
   * A keyword of four characters or more, without spaces, is not in
   * "add new feature for logging" when it has a character `c` that
   * "feature" lacks and a character `d` that "logging" lacks.
   */
  lemma AddNewFeatureMissed(m: string, t: string, c: char, d: char)
    requires m == "add new feature for logging"
    requires |t| > 3 && ' ' !in t
    requires c in t && c !in "feature" && d in t && d !in "logging"
    ensures !Contains(m, t)
  {
    var ws := ["add", "new", "feature", "for", "logging"];
    AddNewFeatureWords(m);
    NotContainsMissingChar("feature", t, c);
    NotContainsMissingChar("logging", t, d);
    forall i | 0 <= i < |ws| ensures !Contains(ws[i], t) {
      if i != 2 && i != 4 {
        assert |ws[i]| < |t|;
      }
    }
    NotContainsJoin(ws, t);
  }

  /** A message without 'm' and 's', and without "lint", contains none of Art's keywords. */
  lemma ArtMissedWithout(msg: string)
    requires 'm' !in msg && 's' !in msg && !Contains(msg, "lint")
    ensures forall k :: k in Art.keywords ==> !Contains(msg, k)
  {
    NotContainsMissingChar(msg, "format", 'm');
    NotContainsMissingChar(msg, "structure", 's');
    NotContainsMissingChar(msg, "style", 's');
  }

  /** A message without 'm', 'c' and 's', and without "delete", contains none of Fire's keywords. */
  lemma FireMissedWithout(msg: string)
    requires 'm' !in msg && 'c' !in msg && 's' !in msg && !Contains(msg, "delete")
    ensures forall k :: k in Fire.keywords ==> !Contains(msg, k)
  {
    NotContainsMissingChar(msg, "remove", 'm');
    NotContainsMissingChar(msg, "clean", 'c');
    NotContainsMissingChar(msg, "unused", 's');
  }

  /** A message without 'x', 'b', 's' and 'c', and without "error", contains none of Bug's keywords. */
  lemma BugMissedWithout(msg: string)
    requires 'x' !in msg && 'b' !in msg && 's' !in msg && 'c' !in msg && !Contains(msg, "error")
    ensures forall k :: k in Bug.keywords ==> !Contains(msg, k)
  {
    NotContainsMissingChar(msg, "fix", 'x');
    NotContainsMissingChar(msg, "bug", 'b');
    NotContainsMissingChar(msg, "issue", 's');
    NotContainsMissingChar(msg, "crash", 'c');
  }

  /** A lower-case message without 'm' and 's', and without "lint", keeps Art under the cap. */
  lemma ArtBelowCapWithout(m: string)
    requires ToLower(m) == m && 'm' !in m && 's' !in m && !Contains(m, "lint")
    ensures FuzzyScore(m, Art) < Cap
  {
    ArtMissedWithout(m);
    ArtShape();
    BelowCap(m, Art);
  }

  /** A lower-case message without 'm', 'c' and 's', and without "delete", keeps Fire under the cap. */
  lemma FireBelowCapWithout(m: string)
    requires ToLower(m) == m && 'm' !in m && 'c' !in m && 's' !in m && !Contains(m, "delete")
    ensures FuzzyScore(m, Fire) < Cap
  {
    FireMissedWithout(m);
    FireShape();
    BelowCap(m, Fire);
  }

  /** A lower-case message without 'x', 'b', 's' and 'c', and without "error", keeps Bug under the cap. */
  lemma BugBelowCapWithout(m: string)
    requires ToLower(m) == m && 'x' !in m && 'b' !in m && 's' !in m && 'c' !in m && !Contains(m, "error")
    ensures FuzzyScore(m, Bug) < Cap
  {
    BugMissedWithout(m);
    BugShape();
    BelowCap(m, Bug);
  }

  /** Every character of "add new feature for logging" is one of its eleven letters or a space. */
  lemma AddNewFeatureLetters(m: string)
    requires m == "add new feature for logging"
    ensures forall i :: 0 <= i < |m| ==> m[i] in "adefgilnortuw "
  {
  }

  /** A character outside those letters is not in "add new feature for logging". */
  lemma AddNewFeatureLacksChar(m: string, c: char)
    requires m == "add new feature for logging" && c !in "adefgilnortuw "
    ensures c !in m
  {
    AddNewFeatureLetters(m);
  }

  /** The letters that keep Zap and parts of Art, Fire and Bug away from "add new feature for logging". */
  lemma AddNewFeatureLacksLetters(m: string)
    requires m == "add new feature for logging"
    ensures 'm' !in m && 's' !in m && 'p' !in m && 'c' !in m && 'x' !in m && 'b' !in m
  {
    AddNewFeatureLacksChar(m, 'm');
    AddNewFeatureLacksChar(m, 's');
    AddNewFeatureLacksChar(m, 'p');
    AddNewFeatureLacksChar(m, 'c');
    AddNewFeatureLacksChar(m, 'x');
    AddNewFeatureLacksChar(m, 'b');
  }

  /** The keywords of Art, Fire and Bug that "add new feature for logging" has every letter of, yet misses. */
  lemma AddNewFeatureLacks(m: string)
    requires m == "add new feature for logging"
    ensures !Contains(m, "lint") && !Contains(m, "delete") && !Contains(m, "error")
  {
    AddNewFeatureMissed(m, "lint", 'l', 't');
    AddNewFeatureMissed(m, "delete", 'd', 't');
    AddNewFeatureMissed(m, "error", 'o', 'e');
  }

  /** "add new feature for logging" contains "feature" and "new". */
  lemma AddNewFeatureHas(m: string)
    requires m == "add new feature for logging"
    ensures Contains(m, "feature") && Contains(m, "new")
  {
    assert m[8..15] == "feature";
    assert OccursAt(m, "feature", 8);
    assert m[4] == 'n' && m[5] == 'e' && m[6] == 'w';
    assert m[4..7] == "new";
    assert OccursAt(m, "new", 4);
  }

  /** A lower-case message containing "feature" and "new" brings Sparkles to the cap. */
  lemma SparklesAtCapWith(m: string)
    requires ToLower(m) == m && Contains(m, "feature") && Contains(m, "new")
    ensures FuzzyScore(m, Sparkles) == Cap
  {
    AtCap(m, Sparkles, 0, 1);
  }

  /** FindBestGitmoji("add new feature for logging") is the sparkles entry. */
  lemma AddNewFeatureForLogging(m: string)
    requires m == "add new feature for logging"
    ensures FindBestGitmoji(m) == Some(4) && Gitmojis[4] == Sparkles && Sparkles.emoji == "✨"
  {
    TableStart();
    TestMessage(m);
    AddNewFeatureLacksLetters(m);
    AddNewFeatureLacks(m);
    AddNewFeatureHas(m);
    SparklesWins(m);
  }

  /**
   * A non-blank lower-case message with the letters and keywords below makes
   * FindBestGitmoji pick Sparkles, the fifth entry.
   */
  lemma SparklesWins(m: string)
    requires TrimSpace(m) != "" && ToLower(m) == m
    requires 'm' !in m && 's' !in m && 'p' !in m && 'c' !in m && 'x' !in m && 'b' !in m
    requires !Contains(m, "lint") && !Contains(m, "delete") && !Contains(m, "error")
    requires Contains(m, "feature") && Contains(m, "new")
    ensures FindBestGitmoji(m) == Some(4)
  {
    TableStart();
    ArtBelowCapWithout(m);
    ZapBelowCap(m, 's');
    FireBelowCapWithout(m);
    BugBelowCapWithout(m);
    SparklesAtCapWith(m);
    forall j | 0 <= j < 4 ensures FuzzyScore(m, Gitmojis[j]) < Cap {
      assert j == 0 || j == 1 || j == 2 || j == 3;
    }
    FirstAtCapChosen(Gitmojis, m, 4);
  }
}

=== FILE: index.dfy ===
/**
 * internal/index/index.go: the single-account sentinel file and the
 * `repo_cache` table of the affinity store, keyed by the sha256 of a
 * repository path.
 */
module Index {
  import opened Wrappers
  import Paths

  // ---------------------------------------------------------------------------
  // The single-account sentinel
  // ---------------------------------------------------------------------------

  /**
   * The data directory as the sentinel functions see it: whether its path
   * can be determined, and whether the `.single_account` file exists there.
   */
  datatype DataDir = DataDir(available: bool, sentinel: bool)

  /** HasSingleAccountSentinel: the file can be located and exists. */
  predicate HasSentinel(d: DataDir)
  {
    d.available && d.sentinel
  }

  /**
   * SetSingleAccountSentinel: `true` writes the file, `false` removes it.
   * `io` is what the file system answers to that write or remove; removing a
   * file that is not there is an error, as is an unknown data directory. The
   * result is the directory afterwards.
   */
  function SetSentinel(d: DataDir, isSingle: bool, io: Outcome): (r: Result<DataDir>)
    ensures !d.available ==> r.Err?
    ensures d.available && isSingle ==> (r.Ok? <==> io.Pass?)
    ensures d.available && !isSingle ==> (r.Ok? <==> d.sentinel && io.Pass?)
    ensures d.available && io.Fail? && (isSingle || d.sentinel) ==> r == Err(io.error)
    ensures r.Ok? ==> r.value.available && r.value.sentinel == isSingle
    ensures r.Err? ==> d.available ==> isSingle || d.sentinel || r.error == NoSuchFile
  {
    if !d.available then Err("data directory unknown")
    else if !isSingle && !d.sentinel then Err(NoSuchFile)
    else if io.Fail? then Err(io.error)
    else Ok(d.(sentinel := isSingle))
  }

  /** The error os.Remove gives for a sentinel that is not there. */
  const NoSuchFile := "remove .single_account: no such file or directory"

  /** What HasSentinel reports after a successful SetSentinel is what was set. */
  lemma SentinelRoundTrip(d: DataDir, isSingle: bool, io: Outcome)
    requires SetSentinel(d, isSingle, io).Ok?
    ensures HasSentinel(SetSentinel(d, isSingle, io).value) == isSingle
  {
  }

  // ---------------------------------------------------------------------------
  // The repo_cache table
  // ---------------------------------------------------------------------------

  /** The hex sha256 of a path; equal hashes mean equal paths. */
  datatype Hash = Sha256(path: string)

  /** A `repo_cache` row; None stands for SQL NULL. */
  datatype Row = Row(
    accountHandle: Option<string>,
    email: Option<string>,
    name: Option<string>,
    lastUsed: Option<int>,
    defaultUser: Option<string>)

  /** The table: at most one row per `repo_path_hash`, its primary key. */
  type Store = map<Hash, Row>

  /** GetRepoHash: the hash of the absolute form of the root, or of the root as given when that fails. */
  function RepoHash(cwd: Option<string>, root: string): (r: Hash)
    ensures Paths.IsAbs(root) ==> r == Sha256(Paths.Clean(root))
    ensures Paths.Abs(cwd, root).None? ==> r == Sha256(root)
  {
    match Paths.Abs(cwd, root)
    case Some(abs) => Sha256(abs)
    case None => Sha256(root)
  }

  /** Spellings of the same absolute path share a key. */
  lemma SameAbsoluteSameKey(cwd1: Option<string>, r1: string, cwd2: Option<string>, r2: string)
    requires Paths.IsAbs(r1) && Paths.IsAbs(r2) && Paths.Clean(r1) == Paths.Clean(r2)
    ensures RepoHash(cwd1, r1) == RepoHash(cwd2, r2)
  {
  }

  /**
   * The key account discovery uses, the hash of the root as given, agrees
   * with RepoHash for a clean absolute root, and never for a relative root
   * resolved against an absolute working directory.
   */
  lemma DiscoveryKeyAgreement(cwd: Option<string>, root: string)
    ensures Paths.IsCleanAbs(root) ==> RepoHash(cwd, root) == Sha256(root)
    ensures !Paths.IsAbs(root) && cwd.Some? && Paths.IsAbs(cwd.value) ==> RepoHash(cwd, root) != Sha256(root)
  {
    if Paths.IsCleanAbs(root) {
      Paths.CleanKeepsCleanAbs(root);
    }
  }

  /**
   * SetDefaultUser's upsert: a new key gets account_handle = default_user =
   * `user`, last_used = `now`, e-mail and name NULL; an existing row gets only
   * default_user, account_handle and last_used replaced. `exec` is what the
   * database answers to the statement. An error opening the store or
   * executing the statement is returned, and the table is then as before.
   */
  function SetDefaultUser(db: Result<Store>, cwd: Option<string>, root: string, user: string, now: int, exec: Outcome): (r: Result<Store>)
    ensures db.Err? ==> r == Err(db.error)
    ensures db.Ok? && exec.Fail? ==> r == Err(exec.error)
    ensures db.Ok? && exec.Pass? ==> r.Ok? && r.value.Keys == db.value.Keys + {RepoHash(cwd, root)}
    ensures db.Ok? && exec.Pass? ==> var k := RepoHash(cwd, root);
                       && r.value[k].accountHandle == Some(user)
                       && r.value[k].defaultUser == Some(user)
                       && r.value[k].lastUsed == Some(now)
    ensures db.Ok? && exec.Pass? ==> var k := RepoHash(cwd, root);
                       k in db.value ==> r.value[k].email == db.value[k].email && r.value[k].name == db.value[k].name
    ensures db.Ok? && exec.Pass? ==> var k := RepoHash(cwd, root);
                       k !in db.value ==> r.value[k].email.None? && r.value[k].name.None?
    ensures db.Ok? && exec.Pass? ==> forall h :: h in db.value && h != RepoHash(cwd, root) ==> r.value[h] == db.value[h]
  {
    match db
    case Err(e) => Err(e)
    case Ok(store) =>
      if exec.Fail? then Err(exec.error)
      else
        var k := RepoHash(cwd, root);
        if k in store then
          Ok(store[k := store[k].(defaultUser := Some(user), accountHandle := Some(user), lastUsed := Some(now))])
        else
          Ok(store[k := Row(Some(user), None, None, Some(now), Some(user))])
  }

  /**
   * GetDefaultUser: the default_user of the root's row, "" when there is no
   * row (sql.ErrNoRows) or the column is NULL. `query` is what the database
   * answers to the SELECT apart from finding no row; an error opening the
   * store or running the query is returned.
   */
  function GetDefaultUser(db: Result<Store>, cwd: Option<string>, root: string, query: Outcome): (r: Result<string>)
    ensures db.Err? ==> r == Err(db.error)
    ensures db.Ok? && query.Fail? ==> r == Err(query.error)
    ensures db.Ok? && query.Pass? && RepoHash(cwd, root) !in db.value ==> r == Ok("")
    ensures db.Ok? && query.Pass? && RepoHash(cwd, root) in db.value ==>
              r == Ok(db.value[RepoHash(cwd, root)].defaultUser.GetOr(""))
  {
    match db
    case Err(e) => Err(e)
    case Ok(store) =>
      if query.Fail? then Err(query.error)
      else
        var k := RepoHash(cwd, root);
        if k in store then Ok(store[k].defaultUser.GetOr("")) else Ok("")
  }

  /** The pinned user is read back, for the root it was pinned for and for every spelling of it. */
  lemma PinnedUserReadBack(store: Store, cwd: Option<string>, root: string, other: string, user: string, now: int)
    requires RepoHash(cwd, other) == RepoHash(cwd, root)
    ensures GetDefaultUser(SetDefaultUser(Ok(store), cwd, root, user, now, Pass), cwd, other, Pass) == Ok(user)
  {
  }

  /** Pinning for one root leaves what every other root reads unchanged. */
  lemma PinIsLocal(store: Store, cwd: Option<string>, root: string, other: string, user: string, now: int, query: Outcome)
    requires RepoHash(cwd, other) != RepoHash(cwd, root)
    ensures GetDefaultUser(SetDefaultUser(Ok(store), cwd, root, user, now, Pass), cwd, other, query)
            == GetDefaultUser(Ok(store), cwd, other, query)
  {
  }

  /**
   * `INSERT OR REPLACE ... (repo_path_hash, account_handle, email, name,
   * last_used)`: the whole row is replaced, so its default_user becomes NULL.
   */
  function InsertOrReplace(store: Store, key: Hash, account: string, email: string, name: string, now: int): (r: Store)
    ensures r.Keys == store.Keys + {key}
    ensures r[key].defaultUser.None?
    ensures r[key].accountHandle == Some(account) && r[key].email == Some(email) && r[key].name == Some(name)
    ensures forall h :: h in store && h != key ==> r[h] == store[h]
  {
    store[key := Row(Some(account), Some(email), Some(name), Some(now), None)]
  }

  /** Caching an identity over a pinned row drops the pin: GetDefaultUser then reads "". */
  lemma ReplaceDropsPin(store: Store, cwd: Option<string>, root: string, account: string, email: string, name: string, now: int)
    ensures GetDefaultUser(Ok(InsertOrReplace(store, RepoHash(cwd, root), account, email, name, now)), cwd, root, Pass) == Ok("")
  {
  }

  /**
   * The cache lookup of account discovery: account_handle, e-mail and name
   * of the row, when there is one and none of the three is NULL (Scan into a
   * string fails on NULL).
   */
  function CachedIdentity(store: Store, key: Hash): (r: Option<(string, string, string)>)
    ensures r.Some? <==> key in store && store[key].accountHandle.Some? && store[key].email.Some? && store[key].name.Some?
    ensures r.Some? ==> r.value == (store[key].accountHandle.value, store[key].email.value, store[key].name.value)
  {
    if key in store then
      var row := store[key];
      if row.accountHandle.Some? && row.email.Some? && row.name.Some? then
        Some((row.accountHandle.value, row.email.value, row.name.value))
      else None
    else None
  }

  /** A row SetDefaultUser creates has NULL e-mail and name, so discovery's cache lookup misses it. */
  lemma NewPinIsNotACacheHit(store: Store, cwd: Option<string>, root: string, user: string, now: int)
    requires RepoHash(cwd, root) !in store
    ensures CachedIdentity(SetDefaultUser(Ok(store), cwd, root, user, now, Pass).value, RepoHash(cwd, root)).None?
  {
  }

  /**
   * Pinning over a cached identity redirects discovery's cache hit to the
   * pinned user, with the e-mail and name cached before.
   */
  lemma PinOverCacheRedirects(store: Store, cwd: Option<string>, root: string, user: string, now: int)
    requires CachedIdentity(store, RepoHash(cwd, root)).Some?
    ensures var k := RepoHash(cwd, root);
            CachedIdentity(SetDefaultUser(Ok(store), cwd, root, user, now, Pass).value, k)
            == Some((user, CachedIdentity(store, k).value.1, CachedIdentity(store, k).value.2))
  {
  }
}

=== FILE: models.dfy ===
/**
 * internal/models/manager.go: the built-in model list, the filtering of the
 * model catalogue the inference endpoint returns, and the fallbacks of the
 * model cache. The HTTP response and the cache file are inputs here.
 */
module Models {
  import opened Wrappers
  import opened Text
  import Auth

  /** ModelInfo; None stands for a nil pointer field. */
  datatype ModelInfo = ModelInfo(
    id: string,
    name: string,
    friendlyName: Option<string>,
    publisher: Option<string>,
    summary: Option<string>,
    task: Option<string>,
    tags: seq<string>)

  const ChatCompletion := "chat-completion"

  // ---------------------------------------------------------------------------
  // GetDefaultModels
  // ---------------------------------------------------------------------------

  /** One row of DEFAULT_MODELS. */
  datatype DefaultModel = DefaultModel(id: string, friendlyName: string, summary: string)

  const DefaultTable: seq<DefaultModel> := [
    DefaultModel("gpt-4o-mini", "OpenAI GPT-4o mini", "Fast & cost-effective, great for most tasks"),
    DefaultModel("gpt-4o", "OpenAI GPT-4o", "High quality, most capable model"),
    DefaultModel("Phi-3-mini-128k-instruct", "Phi-3 mini 128k", "Lightweight, efficient open model"),
    DefaultModel("Mistral-large", "Mistral Large", "Powerful open-source model")
  ]

  /** The ModelInfo built from one row of DEFAULT_MODELS. */
  function FromDefault(d: DefaultModel): ModelInfo
  {
    ModelInfo(d.id, d.id, Some(d.friendlyName), None, Some(d.summary), Some(ChatCompletion), [])
  }

  /**
   * GetDefaultModels: the rows of DEFAULT_MODELS in order, each with ID and
   * Name the row's ID and task "chat-completion".
   */
  function DefaultModels(): (r: seq<ModelInfo>)
    ensures |r| == |DefaultTable| == 4
    ensures forall i :: 0 <= i < |r| ==>
              r[i].id == DefaultTable[i].id && r[i].name == DefaultTable[i].id
              && r[i].friendlyName == Some(DefaultTable[i].friendlyName)
              && r[i].summary == Some(DefaultTable[i].summary)
              && r[i].task == Some(ChatCompletion)
  {
    seq(|DefaultTable|, i requires 0 <= i < |DefaultTable| => FromDefault(DefaultTable[i]))
  }

  /** The model a configuration without a selection uses is the first built-in model. */
  lemma DefaultSelectionIsFirstDefault()
    ensures DefaultModels()[0].id == "gpt-4o-mini"
  {
  }

  // ---------------------------------------------------------------------------
  // FetchAvailableModels
  // ---------------------------------------------------------------------------

  /** A decoded JSON value, as far as the filter looks at it. */
  datatype Json =
    | JString(s: string)
    | JArray(items: seq<Json>)
    | JOther

  /** One decoded element of the catalogue: a JSON object. */
  type Entry = map<string, Json>

  /** `m[key].(string)` with the ok result dropped: "" when absent or not a string. */
  function StringField(m: Entry, key: string): (r: string)
    ensures key in m && m[key].JString? ==> r == m[key].s
    ensures !(key in m && m[key].JString?) ==> r == ""
  {
    if key in m && m[key].JString? then m[key].s else ""
  }

  /** The strings of a JSON array, in order; the other elements are dropped. */
  function Strings(items: seq<Json>): (r: seq<string>)
    ensures |r| <= |items|
    ensures forall s :: s in r <==> JString(s) in items
  {
    if |items| == 0 then []
    else
      assert items == [items[0]] + items[1..];
      var rest := Strings(items[1..]);
      if items[0].JString? then [items[0].s] + rest else rest
  }

  /** The tags are taken element by element: those of a concatenation are those of its parts, in order. */
  lemma {:induction false} StringsAppend(a: seq<Json>, b: seq<Json>)
    ensures Strings(a + b) == Strings(a) + Strings(b)
  {
    if |a| > 0 {
      assert a + b == [a[0]] + (a[1..] + b);
      assert a == [a[0]] + a[1..];
      StringsCons(a[0], a[1..] + b);
      StringsCons(a[0], a[1..]);
      StringsAppend(a[1..], b);
      var h := if a[0].JString? then [a[0].s] else [];
      assert h + (Strings(a[1..]) + Strings(b)) == (h + Strings(a[1..])) + Strings(b);
    } else {
      assert a + b == b;
    }
  }

  /** One step of the tag loop: the first element's string, if any, then those of the rest. */
  lemma StringsCons(j: Json, rest: seq<Json>)
    ensures Strings([j] + rest) == (if j.JString? then [j.s] else []) + Strings(rest)
  {
    assert ([j] + rest)[0] == j && ([j] + rest)[1..] == rest;
  }

  /** One element gives its string when it is a string, and nothing otherwise. */
  lemma StringsSingle(j: Json)
    ensures Strings([j]) == if j.JString? then [j.s] else []
  {
  }

  /** The `tags` of an entry: the strings of its array, none when it is missing or not an array. */
  function Tags(m: Entry): seq<string>
  {
    if "tags" in m && m["tags"].JArray? then Strings(m["tags"].items) else []
  }

  /** An entry the filter keeps: its task is the string "chat-completion". */
  predicate IsChat(m: Entry)
  {
    StringField(m, "task") == ChatCompletion
  }

  /** The ModelInfo built from a kept entry. */
  function ChatModel(m: Entry): ModelInfo
  {
    var name := StringField(m, "name");
    ModelInfo(name, name, Some(StringField(m, "friendly_name")), Some(StringField(m, "publisher")),
              Some(StringField(m, "summary")), Some(ChatCompletion), Tags(m))
  }

  /** The loop of FetchAvailableModels: a ModelInfo for each chat-completion entry, in response order. */
  function FilterChat(response: seq<Entry>): (r: seq<ModelInfo>)
    ensures |r| <= |response|
    ensures forall i :: 0 <= i < |r| ==> r[i].task == Some(ChatCompletion) && r[i].id == r[i].name
    ensures (forall k :: 0 <= k < |response| ==> !IsChat(response[k])) ==> r == []
  {
    if |response| == 0 then []
    else
      var rest := FilterChat(response[1..]);
      assert forall k :: 1 <= k < |response| ==> response[k] == response[1..][k - 1];
      if IsChat(response[0]) then [ChatModel(response[0])] + rest else rest
  }

  /** The filter is a homomorphism: it keeps response order across any split. */
  lemma {:induction false} FilterChatAppend(a: seq<Entry>, b: seq<Entry>)
    ensures FilterChat(a + b) == FilterChat(a) + FilterChat(b)
  {
    if |a| > 0 {
      assert (a + b)[0] == a[0];
      assert (a + b)[1..] == a[1..] + b;
      FilterChatAppend(a[1..], b);
    } else {
      assert a + b == b;
    }
  }

  /** A single entry is kept, as its ModelInfo, exactly when its task is "chat-completion". */
  lemma FilterChatSingle(m: Entry)
    ensures FilterChat([m]) == if IsChat(m) then [ChatModel(m)] else []
  {
    assert [m][1..] == [];
  }

  /** Every chat-completion entry appears in the result. */
  lemma {:induction false} FilterChatKeeps(response: seq<Entry>, k: nat)
    requires k < |response| && IsChat(response[k])
    ensures ChatModel(response[k]) in FilterChat(response)
  {
    assert response == response[..k] + ([response[k]] + response[k + 1..]);
    FilterChatAppend(response[..k], [response[k]] + response[k + 1..]);
    FilterChatAppend([response[k]], response[k + 1..]);
    FilterChatSingle(response[k]);
  }

  /** What the HTTP exchange gave: a transport error, or a status and the decoded body (None when decoding fails). */
  datatype Response =
    | TransportError
    | Answer(status: int, body: Option<seq<Entry>>)

  /**
   * FetchAvailableModels: the chat-completion entries of a good answer; the
   * built-in models after a transport error, a status other than 200, a body
   * that does not decode, or an answer without chat-completion entries. The
   * error result is always nil.
   */
  function FetchAvailableModels(resp: Response): (r: seq<ModelInfo>)
    ensures |r| > 0
    ensures resp.TransportError? || resp.status != 200 || resp.body.None? ==> r == DefaultModels()
    ensures resp.Answer? && resp.status == 200 && resp.body.Some? ==>
              r == if FilterChat(resp.body.value) == [] then DefaultModels() else FilterChat(resp.body.value)
  {
    match resp
    case TransportError => DefaultModels()
    case Answer(status, body) =>
      if status != 200 || body.None? then DefaultModels()
      else
        var models := FilterChat(body.value);
        if |models| == 0 then DefaultModels() else models
  }

  // ---------------------------------------------------------------------------
  // The model cache
  // ---------------------------------------------------------------------------

  /** The cache file as GetCachedModels finds it. */
  datatype CacheFile =
    | Missing
    | Unreadable(error: string)
    | Garbled
    | Stored(models: seq<ModelInfo>)

  /**
   * GetCachedModels: the stored list; the built-in models with the error
   * when the cache path is unknown or the file cannot be read, and without
   * an error when the file is missing or does not parse.
   */
  function GetCachedModels(path: Result<string>, file: CacheFile): (r: (seq<ModelInfo>, Outcome))
    ensures path.Ok? && file.Stored? ==> r == (file.models, Pass)
    ensures path.Err? ==> r == (DefaultModels(), Fail(path.error))
    ensures path.Ok? && file.Unreadable? ==> r == (DefaultModels(), Fail(file.error))
    ensures path.Ok? && (file.Missing? || file.Garbled?) ==> r == (DefaultModels(), Pass)
  {
    match path
    case Err(e) => (DefaultModels(), Fail(e))
    case Ok(_) =>
      match file
      case Missing => (DefaultModels(), Pass)
      case Unreadable(e) => (DefaultModels(), Fail(e))
      case Garbled => (DefaultModels(), Pass)
      case Stored(models) => (models, Pass)
  }

  /** What RefreshModelList reports: success, the message, the model count and the error. */
  datatype Refresh = Refresh(ok: bool, message: string, count: int, err: Outcome)

  /**
   * RefreshModelList: without a token an authentication error and no fetch;
   * otherwise the fetched list is written to the cache (`write` is what the
   * write returns) and its length reported. The cache file afterwards is the
   * second component.
   */
  function RefreshModelList(apiKey: string, ghToken: string, resp: Response, write: Outcome, file: CacheFile): (r: (Refresh, CacheFile))
    ensures Auth.GetToken(apiKey, ghToken) == "" ==>
              r.0 == Refresh(false, "No API key provided and GitHub CLI not authenticated", 0, Fail("authentication required"))
              && r.1 == file
    ensures r.0.ok <==> Auth.GetToken(apiKey, ghToken) != "" && write.Pass?
    ensures r.0.ok ==> r.0.count == |FetchAvailableModels(resp)| > 0 && r.0.err == Pass
    ensures !r.0.ok ==> r.0.count == 0 && r.0.err.Fail?
    ensures write.Fail? ==> r.1 == file
  {
    if Auth.GetToken(apiKey, ghToken) == "" then
      (Refresh(false, "No API key provided and GitHub CLI not authenticated", 0, Fail("authentication required")), file)
    else
      var models := FetchAvailableModels(resp);
      match write
      case Fail(e) => (Refresh(false, "Failed to cache models: " + e, 0, Fail(e)), file)
      case Pass =>
        (Refresh(true, "Successfully fetched and cached " + IntToDecimal(|models|) + " models", |models|, Pass), Stored(models))
  }

  /** After a successful refresh the cache reads back the fetched list, as many models as reported. */
  lemma RefreshThenRead(apiKey: string, ghToken: string, resp: Response, file: CacheFile, path: string)
    requires RefreshModelList(apiKey, ghToken, resp, Pass, file).0.ok
    ensures var (rep, after) := RefreshModelList(apiKey, ghToken, resp, Pass, file);
            GetCachedModels(Ok(path), after) == (FetchAvailableModels(resp), Pass)
            && |GetCachedModels(Ok(path), after).0| == rep.count
  {
  }
}

=== FILE: ordering.dfy ===
/**
 * Ordering and de-duplication of string lists: the lexicographic order of Go's
 * sort.Strings, an insertion sort, and the first-occurrence de-duplication the
 * program writes out with a `seen` map (repository discovery, updater).
 */
module Ordering {

  /**
   * `a` sorts no later than `b`: Go compares strings byte-wise, and byte order
   * of UTF-8 agrees with code-point order.
   */
  predicate Below(a: string, b: string)
    decreases |a|
  {
    |a| == 0 || (|b| > 0 && (a[0] < b[0] || (a[0] == b[0] && Below(a[1..], b[1..]))))
  }

  lemma {:induction false} BelowTotal(a: string, b: string)
    ensures Below(a, b) || Below(b, a)
    decreases |a|
  {
    if |a| > 0 && |b| > 0 && a[0] == b[0] {
      BelowTotal(a[1..], b[1..]);
    }
  }

  lemma {:induction false} BelowAntisymmetric(a: string, b: string)
    requires Below(a, b) && Below(b, a)
    ensures a == b
    decreases |a|
  {
    if |a| > 0 {
      BelowAntisymmetric(a[1..], b[1..]);
      assert a == [a[0]] + a[1..] && b == [b[0]] + b[1..];
    }
  }

  lemma {:induction false} BelowTransitive(a: string, b: string, c: string)
    requires Below(a, b) && Below(b, c)
    ensures Below(a, c)
    decreases |a|
  {
    if |a| > 0 && a[0] == b[0] && b[0] == c[0] {
      BelowTransitive(a[1..], b[1..], c[1..]);
    }
  }

  /** Every element sorts no later than every element after it. */
  predicate Sorted(xs: seq<string>)
  {
    forall i, j :: 0 <= i < j < |xs| ==> Below(xs[i], xs[j])
  }

  /** Sorted and free of duplicates. */
  predicate StrictlySorted(xs: seq<string>)
  {
    forall i, j :: 0 <= i < j < |xs| ==> Below(xs[i], xs[j]) && xs[i] != xs[j]
  }

  /** No element occurs twice. */
  predicate Distinct(xs: seq<string>)
  {
    forall i, j :: 0 <= i < j < |xs| ==> xs[i] != xs[j]
  }

  /** `x` sorts no later than every element of `xs`. */
  predicate BelowAll(x: string, xs: seq<string>)
  {
    forall k :: 0 <= k < |xs| ==> Below(x, xs[k])
  }

  /** A sorted list with a lower bound in front stays sorted. */
  lemma ConsSorted(x: string, xs: seq<string>)
    requires Sorted(xs) && BelowAll(x, xs)
    ensures Sorted([x] + xs)
  {
    var r := [x] + xs;
    forall i, j | 0 <= i < j < |r|
      ensures Below(r[i], r[j])
    {
      if i > 0 {
        assert r[i] == xs[i - 1] && r[j] == xs[j - 1];
      } else {
        assert r[j] == xs[j - 1];
      }
    }
  }

  /** Inserts `x` into a sorted list before the first element it sorts below. */
  function Insert(x: string, xs: seq<string>): (r: seq<string>)
    requires Sorted(xs)
    ensures Sorted(r)
    ensures multiset(r) == multiset(xs) + multiset{x}
  {
    if |xs| == 0 then [x]
    else if Below(x, xs[0]) then
      assert BelowAll(x, xs) by {
        forall k | 0 <= k < |xs| ensures Below(x, xs[k]) {
          if k > 0 { BelowTransitive(x, xs[0], xs[k]); }
        }
      }
      ConsSorted(x, xs);
      [x] + xs
    else
      var rest := Insert(x, xs[1..]);
      assert BelowAll(xs[0], rest) by {
        BelowTotal(x, xs[0]);
        forall k | 0 <= k < |rest| ensures Below(xs[0], rest[k]) {
          assert rest[k] in multiset(rest);
          if rest[k] != x {
            assert rest[k] in multiset(xs[1..]);
            var m :| 0 <= m < |xs[1..]| && xs[1..][m] == rest[k];
            assert xs[m + 1] == rest[k];
          }
        }
      }
      ConsSorted(xs[0], rest);
      assert xs == [xs[0]] + xs[1..];
      [xs[0]] + rest
  }

  /** Insertion sort: the same elements, as often, in sorted order. */
  function Sort(xs: seq<string>): (r: seq<string>)
    ensures Sorted(r)
    ensures multiset(r) == multiset(xs)
  {
    if |xs| == 0 then []
    else
      assert xs == [xs[0]] + xs[1..];
      Insert(xs[0], Sort(xs[1..]))
  }

  /** Position of the first occurrence of `x` in `xs`. */
  function FirstIndex(xs: seq<string>, x: string): (k: nat)
    requires x in xs
    ensures k < |xs| && xs[k] == x
    ensures forall j :: 0 <= j < k ==> xs[j] != x
  {
    if xs[0] == x then 0 else 1 + FirstIndex(xs[1..], x)
  }

  /**
   * The elements of `xs` not in `seen`, each once, in order of first occurrence:
   * the loop `for x in xs { if !seen[x] { seen[x] = true; out = append(out, x) } }`.
   */
  function DedupeFrom(xs: seq<string>, seen: set<string>): (r: seq<string>)
    ensures Distinct(r)
    ensures forall x :: x in r <==> x in xs && x !in seen
    ensures forall i, j :: 0 <= i < j < |r| ==> FirstIndex(xs, r[i]) < FirstIndex(xs, r[j])
    ensures Sorted(xs) ==> Sorted(r)
  {
    if |xs| == 0 then []
    else if xs[0] in seen then
      var r := DedupeFrom(xs[1..], seen);
      DedupeSkip(xs, seen, r);
      r
    else
      var rest := DedupeFrom(xs[1..], seen + {xs[0]});
      DedupeKeep(xs, seen, rest);
      [xs[0]] + rest
  }

  /** Past the head of `xs`, first occurrences in `xs` are one later than in its tail. */
  lemma FirstIndexTail(xs: seq<string>, y: string)
    requires |xs| > 0 && y in xs[1..] && xs[0] != y
    ensures FirstIndex(xs, y) == 1 + FirstIndex(xs[1..], y)
  {
  }

  /** The tail of a sorted list is sorted. */
  lemma TailSorted(xs: seq<string>)
    requires |xs| > 0 && Sorted(xs)
    ensures Sorted(xs[1..])
  {
    forall i, j | 0 <= i < j < |xs[1..]| ensures Below(xs[1..][i], xs[1..][j]) {
      assert xs[1..][i] == xs[i + 1] && xs[1..][j] == xs[j + 1];
    }
  }

  /** Elements of `r` taken from the tail of `xs`, other than its head, sit one later in `xs`. */
  lemma FirstIndexShift(xs: seq<string>, r: seq<string>)
    requires |xs| > 0 && forall k :: 0 <= k < |r| ==> r[k] in xs[1..] && r[k] != xs[0]
    ensures forall k :: 0 <= k < |r| ==> r[k] in xs && FirstIndex(xs, r[k]) == 1 + FirstIndex(xs[1..], r[k])
  {
    forall k | 0 <= k < |r| ensures r[k] in xs && FirstIndex(xs, r[k]) == 1 + FirstIndex(xs[1..], r[k]) {
      FirstIndexTail(xs, r[k]);
    }
  }

  /** A head already seen is skipped: the tail's result serves for the whole list. */
  lemma DedupeSkip(xs: seq<string>, seen: set<string>, r: seq<string>)
    requires |xs| > 0 && xs[0] in seen
    requires forall x :: x in r <==> x in xs[1..] && x !in seen
    requires forall i, j :: 0 <= i < j < |r| ==> FirstIndex(xs[1..], r[i]) < FirstIndex(xs[1..], r[j])
    requires Sorted(xs[1..]) ==> Sorted(r)
    ensures forall x :: x in r <==> x in xs && x !in seen
    ensures forall i, j :: 0 <= i < j < |r| ==> FirstIndex(xs, r[i]) < FirstIndex(xs, r[j])
    ensures Sorted(xs) ==> Sorted(r)
  {
    SkipMembers(xs, seen, r);
    forall k | 0 <= k < |r| ensures r[k] in xs[1..] && r[k] != xs[0] {
      assert r[k] in r;
    }
    FirstIndexShift(xs, r);
    if Sorted(xs) {
      TailSorted(xs);
    }
  }

  /** Skipping a seen head changes nothing about which unseen values there are. */
  lemma SkipMembers(xs: seq<string>, seen: set<string>, r: seq<string>)
    requires |xs| > 0 && xs[0] in seen
    requires forall x :: x in r <==> x in xs[1..] && x !in seen
    ensures forall x :: x in r <==> x in xs && x !in seen
  {
    assert xs == [xs[0]] + xs[1..];
  }

  /** A new head is kept in front of the tail's result, which no longer contains it. */
  lemma DedupeKeep(xs: seq<string>, seen: set<string>, rest: seq<string>)
    requires |xs| > 0 && xs[0] !in seen
    requires Distinct(rest)
    requires forall x :: x in rest <==> x in xs[1..] && x !in seen + {xs[0]}
    requires forall i, j :: 0 <= i < j < |rest| ==> FirstIndex(xs[1..], rest[i]) < FirstIndex(xs[1..], rest[j])
    requires Sorted(xs[1..]) ==> Sorted(rest)
    ensures Distinct([xs[0]] + rest)
    ensures forall x :: x in [xs[0]] + rest <==> x in xs && x !in seen
    ensures forall i, j :: 0 <= i < j < |[xs[0]] + rest| ==>
              FirstIndex(xs, ([xs[0]] + rest)[i]) < FirstIndex(xs, ([xs[0]] + rest)[j])
    ensures Sorted(xs) ==> Sorted([xs[0]] + rest)
  {
    assert xs == [xs[0]] + xs[1..];
    forall k | 0 <= k < |rest| ensures rest[k] in xs[1..] && rest[k] != xs[0] {
      assert rest[k] in rest;
    }
    KeepOrder(xs, rest);
    if Sorted(xs) {
      TailSorted(xs);
      KeepSorted(xs, rest);
    }
  }

  /** Putting the head in front of a list ordered by first occurrence in the tail keeps it ordered and distinct. */
  lemma KeepOrder(xs: seq<string>, rest: seq<string>)
    requires |xs| > 0 && Distinct(rest)
    requires forall k :: 0 <= k < |rest| ==> rest[k] in xs[1..] && rest[k] != xs[0]
    requires forall i, j :: 0 <= i < j < |rest| ==> FirstIndex(xs[1..], rest[i]) < FirstIndex(xs[1..], rest[j])
    ensures Distinct([xs[0]] + rest)
    ensures forall i, j :: 0 <= i < j < |[xs[0]] + rest| ==>
              FirstIndex(xs, ([xs[0]] + rest)[i]) < FirstIndex(xs, ([xs[0]] + rest)[j])
  {
    var r := [xs[0]] + rest;
    var ps := Positions(xs, rest);
    assert FirstIndex(xs, xs[0]) == 0;
    forall i, j | 0 <= i < j < |r| ensures FirstIndex(xs, r[i]) < FirstIndex(xs, r[j]) {
      assert r[j] == rest[j - 1] && FirstIndex(xs, r[j]) == ps[j - 1];
      if i > 0 {
        assert r[i] == rest[i - 1] && FirstIndex(xs, r[i]) == ps[i - 1];
      }
    }
  }

  /**
   * The first-occurrence positions in `xs` of the elements of `rest`, which
   * all come from the tail and differ from the head: each is one past its
   * position in the tail, so they are at least 1 and keep the tail's order.
   */
  function Positions(xs: seq<string>, rest: seq<string>): (ps: seq<nat>)
    requires |xs| > 0
    requires forall k :: 0 <= k < |rest| ==> rest[k] in xs[1..] && rest[k] != xs[0]
    requires forall i, j :: 0 <= i < j < |rest| ==> FirstIndex(xs[1..], rest[i]) < FirstIndex(xs[1..], rest[j])
    ensures |ps| == |rest|
    ensures forall k :: 0 <= k < |rest| ==> rest[k] in xs && ps[k] == FirstIndex(xs, rest[k]) && ps[k] >= 1
    ensures forall i, j :: 0 <= i < j < |ps| ==> ps[i] < ps[j]
  {
    forall k | 0 <= k < |rest| ensures rest[k] in xs && FirstIndex(xs, rest[k]) == 1 + FirstIndex(xs[1..], rest[k]) {
      FirstIndexTail(xs, rest[k]);
    }
    seq(|rest|, k requires 0 <= k < |rest| => 1 + FirstIndex(xs[1..], rest[k]))
  }

  /** The head of a sorted list sorts no later than any of its tail's elements. */
  lemma KeepSorted(xs: seq<string>, rest: seq<string>)
    requires |xs| > 0 && Sorted(xs) && Sorted(rest)
    requires forall x :: x in rest ==> x in xs[1..]
    ensures Sorted([xs[0]] + rest)
  {
    forall k | 0 <= k < |rest| ensures Below(xs[0], rest[k]) {
      assert rest[k] in rest;
      var m := FirstIndex(xs[1..], rest[k]);
      assert xs[m + 1] == rest[k];
    }
    ConsSorted(xs[0], rest);
  }

  /** Order-preserving removal of repeats (the first occurrence of each value stays). */
  function Dedupe(xs: seq<string>): (r: seq<string>)
    ensures Distinct(r)
    ensures forall x :: x in r <==> x in xs
    ensures forall i, j :: 0 <= i < j < |r| ==> FirstIndex(xs, r[i]) < FirstIndex(xs, r[j])
    ensures Sorted(xs) ==> Sorted(r)
  {
    DedupeFrom(xs, {})
  }

  /** After de-duplicating `a + b`, every element taken from `a` comes before every element found only in `b`. */
  lemma DedupeKeepsFrontFirst(a: seq<string>, b: seq<string>, i: nat, j: nat)
    requires i < |Dedupe(a + b)| && j < |Dedupe(a + b)|
    requires Dedupe(a + b)[i] in a && Dedupe(a + b)[j] !in a
    ensures i < j
  {
    var all := a + b;
    var r := Dedupe(all);
    assert r[i] in r && r[j] in r;
    var k := FirstIndex(a, r[i]);
    assert all[k] == r[i];
  }

  /** sort.Strings followed by de-duplication: the set of `xs`, strictly ascending. */
  function SortUnique(xs: seq<string>): (r: seq<string>)
    ensures StrictlySorted(r)
    ensures forall x :: x in r <==> x in xs
  {
    var s := Sort(xs);
    assert forall x :: x in s <==> x in xs by {
      forall x ensures x in s <==> x in xs {
        assert x in s <==> x in multiset(s);
        assert x in xs <==> x in multiset(xs);
      }
    }
    Dedupe(s)
  }

  /** A strictly ascending list is determined by its elements. */
  lemma {:induction false} StrictlySortedUnique(a: seq<string>, b: seq<string>)
    requires StrictlySorted(a) && StrictlySorted(b)
    requires forall x :: x in a <==> x in b
    ensures a == b
  {
    if |a| > 0 { assert a[0] in b; }
    if |b| > 0 { assert b[0] in a; }
    if |a| > 0 && |b| > 0 {
      // The heads are the least elements of the common set.
      var i :| 0 <= i < |b| && b[i] == a[0];
      var j :| 0 <= j < |a| && a[j] == b[0];
      if a[0] != b[0] {
        assert i > 0 && j > 0;
        assert Below(b[0], b[i]) && Below(a[0], a[j]);
        BelowAntisymmetric(a[0], b[0]);
      }
      forall x ensures x in a[1..] <==> x in b[1..] {
        if x in a[1..] {
          var k :| 0 <= k < |a[1..]| && a[1..][k] == x;
          assert a[k + 1] == x && x != a[0] && x in a && x in b;
          var m :| 0 <= m < |b| && b[m] == x;
          assert m != 0 && b[1..][m - 1] == x;
        }
        if x in b[1..] {
          var k :| 0 <= k < |b[1..]| && b[1..][k] == x;
          assert b[k + 1] == x && x != b[0] && x in b && x in a;
          var m :| 0 <= m < |a| && a[m] == x;
          assert m != 0 && a[1..][m - 1] == x;
        }
      }
      StrictlySortedUnique(a[1..], b[1..]);
      assert a == [a[0]] + a[1..] && b == [b[0]] + b[1..];
    }
  }
}

=== FILE: paths.dfy ===
/**
 * The Unix behaviour of Go's path/filepath functions the program calls:
 * Clean, Abs, Join and Base. A path is a string of '/'-separated elements.
 */
module Paths {
  import opened Wrappers
  import opened Text

  /** filepath.IsAbs on Unix. */
  predicate IsAbs(p: string)
  {
    |p| > 0 && p[0] == '/'
  }

  /** An element that survives cleaning unchanged: not empty, not ".", not "..", no '/'. */
  predicate IsNormalElement(e: string)
  {
    e != "" && e != "." && e != ".." && '/' !in e
  }

  /** An absolute path already in the form Clean produces: "/" or "/e1/.../en" with normal elements. */
  predicate IsCleanAbs(p: string)
  {
    p == "/" || (|p| > 1 && p[0] == '/' && forall e :: e in Split(p[1..], '/') ==> IsNormalElement(e))
  }

  /** Elements Resolve may keep: non-empty, not ".", without '/'; ".." only for relative paths. */
  predicate Keepable(kept: seq<string>, rooted: bool)
  {
    forall k :: 0 <= k < |kept| ==> kept[k] != "" && kept[k] != "." && '/' !in kept[k] && (rooted ==> kept[k] != "..")
  }

  /**
   * Processes path elements left to right as filepath.Clean does: empty and "."
   * elements vanish, ".." drops the last kept element, or is dropped at the root
   * of an absolute path, or is kept at the front of a relative one.
   */
  function Resolve(elems: seq<string>, rooted: bool, kept: seq<string>): (r: seq<string>)
    requires forall k :: 0 <= k < |elems| ==> '/' !in elems[k]
    requires Keepable(kept, rooted)
    ensures Keepable(r, rooted)
  {
    if |elems| == 0 then kept
    else
      var e := elems[0];
      if e == "" || e == "." then Resolve(elems[1..], rooted, kept)
      else if e == ".." then
        if |kept| > 0 && kept[|kept| - 1] != ".." then Resolve(elems[1..], rooted, kept[..|kept| - 1])
        else if rooted then Resolve(elems[1..], rooted, kept)
        else Resolve(elems[1..], rooted, kept + [".."])
      else Resolve(elems[1..], rooted, kept + [e])
  }

  /** Normal elements are all kept, in order. */
  lemma {:induction false} ResolveNormal(elems: seq<string>, rooted: bool, kept: seq<string>)
    requires forall k :: 0 <= k < |elems| ==> IsNormalElement(elems[k])
    requires forall k :: 0 <= k < |elems| ==> '/' !in elems[k]
    requires Keepable(kept, rooted)
    ensures Resolve(elems, rooted, kept) == kept + elems
  {
    if |elems| > 0 {
      ResolveNormal(elems[1..], rooted, kept + [elems[0]]);
      assert kept + [elems[0]] + elems[1..] == kept + elems;
    }
  }

  /** A join of non-empty elements starts with the first character of the first element. */
  lemma JoinHead(parts: seq<string>, sep: string)
    requires |parts| > 0 && |parts[0]| > 0
    ensures |Join(parts, sep)| > 0 && Join(parts, sep)[0] == parts[0][0]
  {
  }

  /**
   * filepath.Clean: the shortest path naming the same file by purely lexical
   * processing; "." for an empty result of a relative path, "/" for the root.
   */
  function Clean(p: string): (r: string)
    ensures r != ""
    ensures IsAbs(r) <==> IsAbs(p)
    ensures IsAbs(p) ==> IsCleanAbs(r)
  {
    if p == "" then "."
    else
      var rooted := p[0] == '/';
      var kept := Resolve(Split(p, '/'), rooted, []);
      var body := Join(kept, "/");
      assert |kept| > 0 ==> |body| > 0 && body[0] == kept[0][0] by {
        if |kept| > 0 { JoinHead(kept, "/"); }
      }
      if rooted then
        var r := "/" + body;
        assert IsCleanAbs(r) by {
          if |kept| > 0 {
            assert r[1..] == body;
            SplitJoin(kept, '/');
            forall e | e in Split(r[1..], '/') ensures IsNormalElement(e) {
              var k :| 0 <= k < |kept| && kept[k] == e;
            }
          }
        }
        r
      else if body == "" then "."
      else body
  }

  /** Cleaning leaves an already clean absolute path as it is. */
  lemma CleanKeepsCleanAbs(p: string)
    requires IsCleanAbs(p)
    ensures Clean(p) == p
  {
    if p == "/" {
      assert Split("", '/') == [""];
      assert Split(p, '/') == [""] + Split(p[1..], '/');
      assert Resolve(Split(p, '/'), true, []) == [];
    } else {
      var rest := p[1..];
      var elems := Split(rest, '/');
      assert Split(p, '/') == [""] + elems;
      assert ([""] + elems)[1..] == elems;
      forall k | 0 <= k < |elems| ensures IsNormalElement(elems[k]) {
        assert elems[k] in elems;
      }
      ResolveNormal(elems, true, []);
      assert [] + elems == elems;
      assert p == "/" + rest;
    }
  }

  /** filepath.Join(a, b): empty elements are ignored, the rest joined by '/' and cleaned. */
  function JoinPath(a: string, b: string): (r: string)
    ensures a != "" || b != "" ==> r != ""
    ensures IsAbs(a) ==> IsCleanAbs(r)
  {
    if a != "" then Clean(a + "/" + b)
    else if b != "" then Clean(b)
    else ""
  }

  /**
   * filepath.Abs(p) with the process working directory `cwd` (None when
   * os.Getwd fails): an absolute path is cleaned, a relative one is joined to
   * the working directory, and a failed os.Getwd is an error.
   */
  function Abs(cwd: Option<string>, p: string): (r: Option<string>)
    ensures IsAbs(p) ==> r == Some(Clean(p))
    ensures !IsAbs(p) && cwd.None? ==> r.None?
    ensures cwd.Some? && IsAbs(cwd.value) ==> r.Some? && IsCleanAbs(r.value)
  {
    if IsAbs(p) then Some(Clean(p))
    else if cwd.None? then None
    else Some(JoinPath(cwd.value, p))
  }

  /** `p` without its trailing '/' characters. */
  function TrimTrailingSlashes(p: string): (r: string)
    ensures |r| <= |p| && r == p[..|r|]
    ensures r == [] || r[|r| - 1] != '/'
    ensures forall i :: |r| <= i < |p| ==> p[i] == '/'
  {
    if |p| > 0 && p[|p| - 1] == '/' then TrimTrailingSlashes(p[..|p| - 1]) else p
  }

  /** The part of `t` after its last '/' (all of `t` when there is none). */
  function AfterLastSlash(t: string): (r: string)
    ensures |r| <= |t| && r == t[|t| - |r|..]
    ensures '/' !in r
    ensures |r| == |t| || t[|t| - |r| - 1] == '/'
  {
    if |t| == 0 || t[|t| - 1] == '/' then ""
    else AfterLastSlash(t[..|t| - 1]) + [t[|t| - 1]]
  }

  /** filepath.Base: the last element of `p` after trailing slashes are removed. */
  function Base(p: string): (r: string)
    ensures r != ""
    ensures r == "/" || r == "." || '/' !in r
  {
    if p == "" then "."
    else
      var t := TrimTrailingSlashes(p);
      if t == "" then "/"
      else AfterLastSlash(t)
  }
}

=== FILE: processor.dfy ===
/**
 * internal/processor/processor.go: the `.gitignore` merge, the commit message
 * pipeline, the per-repository stage / confirm / commit / push gating and the
 * loop over discovered repositories. What git, `gh`, the terminal, the file
 * system and the completion API return are inputs here.
 */
module Processor {
  import opened Wrappers
  import opened Text
  import Git
  import Summarizer
  import Auth
  import Gitmoji

  /**
   * The merged configuration of a repository as LoadMergedConfig returns it;
   * None stands for a field the configuration files leave out (a nil pointer).
   */
  datatype Config = Config(
    apiKey: Option<string>,
    selectedModel: Option<string>,
    enableGitmoji: Option<bool>,
    updateGitignore: Option<bool>,
    skipConfirmation: Option<bool>,
    gitignorePatterns: seq<string>)

  // ---------------------------------------------------------------------------
  // EnsureGitignoreSafety
  // ---------------------------------------------------------------------------

  /** The comment written above each added pattern. */
  function Marker(pattern: string): string
  {
    "# Added by Autocommiter: ensure " + pattern
  }

  /** A trimmed line that counts as a pattern: not empty and not a comment. */
  predicate IsPatternLine(t: string)
  {
    t != "" && !HasPrefix(t, "#")
  }

  /** The trimmed pattern lines among `lines`. */
  function PatternSet(lines: seq<string>): set<string>
  {
    set j | 0 <= j < |lines| && IsPatternLine(TrimSpace(lines[j])) :: TrimSpace(lines[j])
  }

  /** The pattern lines of `lines` followed by `l`, as a set added to. */
  function PatternSetPlus(lines: seq<string>, l: string): set<string>
  {
    PatternSet(lines) + (if IsPatternLine(TrimSpace(l)) then {TrimSpace(l)} else {})
  }

  /** One more line adds its trimmed form when that is a pattern line. */
  lemma PatternSetSnoc(lines: seq<string>, l: string)
    ensures PatternSet(lines + [l]) == PatternSet(lines) + (if IsPatternLine(TrimSpace(l)) then {TrimSpace(l)} else {})
  {
    PatternSetSnocWithin(lines, l);
    PatternSetSnocCovers(lines, l);
  }

  /** Every pattern line of `lines + [l]` comes from `lines` or is `l`'s. */
  lemma PatternSetSnocWithin(lines: seq<string>, l: string)
    ensures PatternSet(lines + [l]) <= PatternSetPlus(lines, l)
  {
    var xs := lines + [l];
    forall j | 0 <= j < |xs| && IsPatternLine(TrimSpace(xs[j])) ensures TrimSpace(xs[j]) in PatternSetPlus(lines, l) {
      if j < |lines| {
        assert xs[j] == lines[j];
      } else {
        assert xs[j] == l;
      }
    }
  }

  /** The pattern lines of `lines`, and `l`'s, are pattern lines of `lines + [l]`. */
  lemma PatternSetSnocCovers(lines: seq<string>, l: string)
    ensures PatternSetPlus(lines, l) <= PatternSet(lines + [l])
  {
    var xs := lines + [l];
    forall p | p in PatternSetPlus(lines, l) ensures p in PatternSet(xs) {
      if p in PatternSet(lines) {
        var j :| 0 <= j < |lines| && IsPatternLine(TrimSpace(lines[j])) && TrimSpace(lines[j]) == p;
        assert xs[j] == lines[j];
      } else {
        assert xs[|lines|] == l;
      }
    }
  }

  /** The keys of `lineMap`: the trimmed pattern lines among the '\n'-separated pieces of `content`. */
  function Present(content: string): set<string>
  {
    PatternSet(Split(content, '\n'))
  }

  /** The patterns of `patterns` not in `present`, in order (duplicates kept). */
  function Missing(patterns: seq<string>, present: set<string>): (r: seq<string>)
    ensures |r| <= |patterns|
    ensures forall p :: p in r <==> p in patterns && p !in present
  {
    if |patterns| == 0 then []
    else
      var init := patterns[..|patterns| - 1];
      var p := patterns[|patterns| - 1];
      assert patterns == init + [p];
      if p in present then Missing(init, present) else Missing(init, present) + [p]
  }

  /** Patterns are checked one at a time: what a concatenation misses is what its parts miss, in order. */
  lemma {:induction false} MissingAppend(a: seq<string>, b: seq<string>, present: set<string>)
    ensures Missing(a + b, present) == Missing(a, present) + Missing(b, present)
    decreases |b|
  {
    if |b| == 0 {
      assert a + b == a;
    } else {
      var init := b[..|b| - 1];
      assert b == init + [b[|b| - 1]];
      assert a + b == (a + init) + [b[|b| - 1]];
      assert (a + b)[..|a + b| - 1] == a + init;
      MissingAppend(a, init, present);
    }
  }

  /** One pattern is missing exactly when it is not present. */
  lemma MissingSingle(p: string, present: set<string>)
    ensures Missing([p], present) == if p in present then [] else [p]
  {
    assert [p][..0] == [];
  }

  /** When nothing is missing, every pattern is present. */
  lemma NoneMissing(patterns: seq<string>, present: set<string>)
    requires |Missing(patterns, present)| == 0
    ensures forall k :: 0 <= k < |patterns| ==> patterns[k] in present
  {
    forall k | 0 <= k < |patterns| ensures patterns[k] in present {
      assert patterns[k] in patterns;
    }
  }

  /** Each pattern preceded by its marker comment. */
  function Annotate(patterns: seq<string>): (r: seq<string>)
    ensures |r| == 2 * |patterns|
    ensures forall k :: 0 <= k < |patterns| ==> r[2 * k] == Marker(patterns[k]) && r[2 * k + 1] == patterns[k]
  {
    if |patterns| == 0 then []
    else
      var rest := Annotate(patterns[1..]);
      AnnotateCons(patterns, rest);
      [Marker(patterns[0]), patterns[0]] + rest
  }

  /** The first pattern's two lines in front of the tail's annotation annotate the whole list. */
  lemma AnnotateCons(patterns: seq<string>, rest: seq<string>)
    requires |patterns| > 0 && |rest| == 2 * (|patterns| - 1)
    requires forall k :: 0 <= k < |patterns| - 1 ==> rest[2 * k] == Marker(patterns[1..][k]) && rest[2 * k + 1] == patterns[1..][k]
    ensures forall k :: 0 <= k < |patterns| ==>
              ([Marker(patterns[0]), patterns[0]] + rest)[2 * k] == Marker(patterns[k])
              && ([Marker(patterns[0]), patterns[0]] + rest)[2 * k + 1] == patterns[k]
  {
    var r := [Marker(patterns[0]), patterns[0]] + rest;
    forall k | 0 <= k < |patterns| ensures r[2 * k] == Marker(patterns[k]) && r[2 * k + 1] == patterns[k] {
      if k > 0 {
        assert patterns[1..][k - 1] == patterns[k];
        assert r[2 * k] == rest[2 * (k - 1)] && r[2 * k + 1] == rest[2 * (k - 1) + 1];
      }
    }
  }

  /** Annotating one more pattern adds its two lines at the end. */
  lemma AnnotateSnoc(patterns: seq<string>, p: string)
    ensures Annotate(patterns + [p]) == Annotate(patterns) + [Marker(p), p]
  {
    var a := Annotate(patterns + [p]);
    var b := Annotate(patterns) + [Marker(p), p];
    forall i | 0 <= i < |a| ensures a[i] == b[i] {
      var k := i / 2;
      assert i == 2 * k || i == 2 * k + 1;
      assert (patterns + [p])[k] == if k < |patterns| then patterns[k] else p;
    }
  }

  /** The lines of a file: the '\n'-separated pieces, without the empty piece after a final newline. */
  function Lines(content: string): seq<string>
  {
    if content == "" then []
    else if content[|content| - 1] == '\n' then Split(content[..|content| - 1], '\n')
    else Split(content, '\n')
  }

  /** `content` followed by `lines`, starting on a new line and ending with a newline. */
  function Appended(content: string, lines: seq<string>): (r: string)
    ensures HasPrefix(r, content) && HasSuffix(r, "\n")
  {
    var base := if content != "" && !HasSuffix(content, "\n") then content + "\n" else content;
    var r := base + Join(lines, "\n") + "\n";
    assert r[..|content|] == content;
    r
  }

  /**
   * The content EnsureGitignoreSafety writes: None when the update is not
   * enabled (unset counts as disabled) or no configured pattern is missing.
   * A .gitignore that cannot be read counts as empty.
   */
  function GitignoreUpdate(cfg: Config, existing: Result<string>): (r: Option<string>)
    ensures !cfg.updateGitignore.GetOr(false) ==> r.None?
    ensures cfg.updateGitignore.GetOr(false) ==>
              var content := if existing.Ok? then existing.value else "";
              (r.None? <==> forall k :: 0 <= k < |cfg.gitignorePatterns| ==> cfg.gitignorePatterns[k] in Present(content))
    ensures r.Some? ==> existing.Ok? ==> HasPrefix(r.value, existing.value)
    ensures r.Some? ==> HasSuffix(r.value, "\n")
    ensures r.Some? ==>
              var content := if existing.Ok? then existing.value else "";
              r.value == Appended(content, Annotate(Missing(cfg.gitignorePatterns, Present(content))))
  {
    if !cfg.updateGitignore.GetOr(false) then None
    else
      var content := if existing.Ok? then existing.value else "";
      var toAppend := Annotate(Missing(cfg.gitignorePatterns, Present(content)));
      if |toAppend| == 0 then
        NoneMissing(cfg.gitignorePatterns, Present(content));
        None
      else
        var q := Missing(cfg.gitignorePatterns, Present(content))[0];
        assert q in Missing(cfg.gitignorePatterns, Present(content));
        Some(Appended(content, toAppend))
  }

  /**
   * EnsureGitignoreSafety: the error of writing the merged file (`write` is
   * what os.WriteFile returns), or success when nothing is written.
   */
  function EnsureGitignoreSafety(cfg: Config, existing: Result<string>, write: Outcome): (r: Outcome)
    ensures r.Fail? <==> GitignoreUpdate(cfg, existing).Some? && write.Fail?
    ensures r.Fail? ==> r == write
  {
    if GitignoreUpdate(cfg, existing).Some? then write else Pass
  }

  /** The appended lines are marker and pattern pairs for exactly the missing patterns. */
  lemma AnnotatedMissing(patterns: seq<string>, present: set<string>)
    ensures var a := Annotate(Missing(patterns, present));
            forall k :: 0 <= k < |a| / 2 ==> a[2 * k + 1] in patterns && a[2 * k + 1] !in present && a[2 * k] == Marker(a[2 * k + 1])
    ensures forall p :: p in patterns && p !in present ==> p in Annotate(Missing(patterns, present))
  {
    var missing := Missing(patterns, present);
    var a := Annotate(missing);
    forall k | 0 <= k < |a| / 2
      ensures a[2 * k + 1] in patterns && a[2 * k + 1] !in present
    {
      assert a[2 * k + 1] == missing[k];
      assert missing[k] in missing;
    }
    forall p | p in patterns && p !in present ensures p in a {
      var k :| 0 <= k < |missing| && missing[k] == p;
      assert a[2 * k + 1] == p;
    }
  }

  /** The first loop of EnsureGitignoreSafety: the keys of `lineMap`. */
  method CollectPatterns(lines: seq<string>) returns (lineMap: set<string>)
    ensures forall p :: p in lineMap <==> IsPatternLine(p) && exists j :: 0 <= j < |lines| && TrimSpace(lines[j]) == p
  {
    lineMap := {};
    var i := 0;
    while i < |lines|
      invariant 0 <= i <= |lines|
      invariant lineMap == PatternSet(lines[..i])
    {
      assert lines[..i + 1] == lines[..i] + [lines[i]];
      PatternSetSnoc(lines[..i], lines[i]);
      var trimmed := TrimSpace(lines[i]);
      if trimmed != "" && !HasPrefix(trimmed, "#") {
        lineMap := lineMap + {trimmed};
      }
      i := i + 1;
    }
    assert lines[..i] == lines;
  }

  /**
   * The second loop of EnsureGitignoreSafety: a marker and the pattern for
   * each configured pattern not in `lineMap`, in configuration order.
   */
  method AppendMissing(patterns: seq<string>, lineMap: set<string>) returns (toAppend: seq<string>)
    ensures |toAppend| % 2 == 0
    ensures forall k :: 0 <= k < |toAppend| / 2 ==>
              toAppend[2 * k + 1] in patterns && toAppend[2 * k + 1] !in lineMap
              && toAppend[2 * k] == Marker(toAppend[2 * k + 1])
    ensures forall p :: p in patterns && p !in lineMap ==> p in toAppend
    ensures toAppend == Annotate(Missing(patterns, lineMap))
  {
    toAppend := [];
    var n := 0;
    while n < |patterns|
      invariant 0 <= n <= |patterns|
      invariant toAppend == Annotate(Missing(patterns[..n], lineMap))
    {
      var pattern := patterns[n];
      assert patterns[..n + 1] == patterns[..n] + [pattern];
      if pattern !in lineMap {
        AnnotateSnoc(Missing(patterns[..n], lineMap), pattern);
        toAppend := toAppend + [Marker(pattern), pattern];
      }
      n := n + 1;
    }
    assert patterns[..n] == patterns;
    AnnotatedMissing(patterns, lineMap);
  }

  /** The two loops of EnsureGitignoreSafety compute the lines GitignoreUpdate appends. */
  method MergeLines(content: string, patterns: seq<string>) returns (toAppend: seq<string>)
    ensures toAppend == Annotate(Missing(patterns, Present(content)))
  {
    var lineMap := CollectPatterns(Split(content, '\n'));
    assert lineMap == Present(content);
    toAppend := AppendMissing(patterns, lineMap);
  }

  /** Splitting a non-empty file that ends with a newline gives its lines and one empty piece. */
  lemma SplitFinalNewline(content: string)
    requires content != "" && content[|content| - 1] == '\n'
    ensures Split(content, '\n') == Lines(content) + [""]
  {
    var init := content[..|content| - 1];
    assert content == init + ['\n'] + "";
    SplitAround(init, "", '\n');
    assert Split("", '\n') == [""];
    assert Lines(content) == Split(init, '\n');
  }

  /** The pattern lines of a file are those among its lines. */
  lemma PresentByLines(content: string)
    ensures forall p :: p in Present(content) <==> IsPatternLine(p) && exists l :: l in Lines(content) && TrimSpace(l) == p
  {
    if content != "" && content[|content| - 1] == '\n' {
      SplitFinalNewline(content);
      PresentDropsEmpty(Lines(content));
    } else if content == "" {
      assert Split(content, '\n') == [""];
      assert TrimSpace("") == "";
    } else {
      PresentOfPieces(Split(content, '\n'));
    }
  }

  /** The pattern lines of some pieces are the trimmed pattern lines among them. */
  lemma PresentOfPieces(pieces: seq<string>)
    ensures forall p :: p in PatternSet(pieces) <==> IsPatternLine(p) && exists l :: l in pieces && TrimSpace(l) == p
  {
    forall p | IsPatternLine(p) && (exists l :: l in pieces && TrimSpace(l) == p) ensures p in PatternSet(pieces) {
      var l :| l in pieces && TrimSpace(l) == p;
      var j :| 0 <= j < |pieces| && pieces[j] == l;
    }
  }

  /** An empty last piece adds no pattern line. */
  lemma PresentDropsEmpty(lines: seq<string>)
    ensures forall p :: p in PatternSet(lines + [""]) <==> IsPatternLine(p) && exists l :: l in lines && TrimSpace(l) == p
  {
    PatternSetSnoc(lines, "");
    assert TrimSpace("") == "";
    PresentOfPieces(lines);
  }

  /** The lines of the merged file are the lines of the old one followed by the appended lines. */
  lemma AppendedLines(content: string, lines: seq<string>)
    requires |lines| > 0
    requires forall i :: 0 <= i < |lines| ==> '\n' !in lines[i]
    ensures Lines(Appended(content, lines)) == Lines(content) + lines
  {
    var joined := Join(lines, "\n");
    SplitJoin(lines, '\n');
    var r := Appended(content, lines);
    assert r[..|r| - 1] == (if content != "" && !HasSuffix(content, "\n") then content + "\n" else content) + joined;
    if content == "" {
      assert r[..|r| - 1] == joined;
    } else if content[|content| - 1] == '\n' {
      var init := content[..|content| - 1];
      assert r[..|r| - 1] == init + ['\n'] + joined;
      SplitAround(init, joined, '\n');
    } else {
      assert r[..|r| - 1] == content + ['\n'] + joined;
      SplitAround(content, joined, '\n');
    }
  }

  /** Marker lines hold no newline when their patterns hold none. */
  lemma AnnotateNoNewline(patterns: seq<string>)
    requires forall k :: 0 <= k < |patterns| ==> '\n' !in patterns[k]
    ensures forall i :: 0 <= i < |Annotate(patterns)| ==> '\n' !in Annotate(patterns)[i]
  {
    var a := Annotate(patterns);
    forall i | 0 <= i < |a| ensures '\n' !in a[i] {
      var k := i / 2;
      assert i == 2 * k || i == 2 * k + 1;
      assert forall c :: c in Marker(patterns[k]) ==> c in "# Added by Autocommiter: ensure " || c in patterns[k];
    }
  }

  /**
   * Clean patterns — trimmed, not empty, not a comment, without a newline —
   * are all present once merged, so merging the merged file again adds
   * nothing.
   */
  lemma MergeIsIdempotent(cfg: Config, existing: Result<string>)
    requires cfg.updateGitignore == Some(true)
    requires forall k :: 0 <= k < |cfg.gitignorePatterns| ==>
               IsTrimmed(cfg.gitignorePatterns[k]) && IsPatternLine(cfg.gitignorePatterns[k]) && '\n' !in cfg.gitignorePatterns[k]
    requires GitignoreUpdate(cfg, existing).Some?
    ensures GitignoreUpdate(cfg, Ok(GitignoreUpdate(cfg, existing).value)).None?
  {
    var content := if existing.Ok? then existing.value else "";
    var k :| 0 <= k < |cfg.gitignorePatterns| && cfg.gitignorePatterns[k] !in Present(content);
    assert cfg.gitignorePatterns[k] in Missing(cfg.gitignorePatterns, Present(content));
    MergedHasAll(cfg.gitignorePatterns, content);
  }

  /** Every clean pattern is present in the content once its missing ones are appended. */
  lemma MergedHasAll(pats: seq<string>, content: string)
    requires forall k :: 0 <= k < |pats| ==> IsTrimmed(pats[k]) && IsPatternLine(pats[k]) && '\n' !in pats[k]
    requires |Missing(pats, Present(content))| > 0
    ensures var merged := Appended(content, Annotate(Missing(pats, Present(content))));
            forall k :: 0 <= k < |pats| ==> pats[k] in Present(merged)
  {
    var missing := Missing(pats, Present(content));
    var toAppend := Annotate(missing);
    var merged := Appended(content, toAppend);
    forall k | 0 <= k < |missing| ensures '\n' !in missing[k] {
      assert missing[k] in missing;
    }
    AnnotateNoNewline(missing);
    AppendedLines(content, toAppend);
    PresentByLines(content);
    PresentByLines(merged);
    forall k | 0 <= k < |pats| ensures pats[k] in Present(merged) {
      var p := pats[k];
      if p in Present(content) {
        var l :| l in Lines(content) && TrimSpace(l) == p;
        assert l in Lines(merged);
      } else {
        assert p in missing;
        var m :| 0 <= m < |missing| && missing[m] == p;
        assert toAppend[2 * m + 1] == p;
        assert p in Lines(merged);
        TrimmedIsFixpoint(p);
      }
    }
  }

  /**
   * A configured pattern that starts with '#' never counts as present, so it
   * is appended again on every run.
   */
  lemma CommentPatternAlwaysAppended(cfg: Config, existing: Result<string>, k: nat)
    requires cfg.updateGitignore == Some(true)
    requires k < |cfg.gitignorePatterns| && HasPrefix(cfg.gitignorePatterns[k], "#")
    ensures GitignoreUpdate(cfg, existing).Some?
  {
    var content := if existing.Ok? then existing.value else "";
    assert cfg.gitignorePatterns[k] !in Present(content);
  }

  // ---------------------------------------------------------------------------
  // GenerateMessage and TryAPIGeneration
  // ---------------------------------------------------------------------------

  /** The model used when the configuration names none. */
  const DefaultModel := "gpt-4o-mini"

  /** At most this many file names go into the prompt. */
  const MaxPromptFiles := 100

  /** The byte budget of the compressed change payload. */
  const PayloadBudget := 12000

  const AuthError := "authentication failed: please run 'gh auth login' or use 'autocommiter set-api-key'"

  /** What api.GenerateCommitMessage is called with. */
  datatype Request = Request(token: string, branch: string, fileNames: string, payload: string, model: string)

  /**
   * What the message pipeline sees of the outside world: the token `gh` holds,
   * the current branch, the two diffs of each file, the completion API's
   * answer to each request, and the index GetRandomGitmoji would draw.
   */
  datatype MessageWorld = MessageWorld(
    ghToken: string,
    branch: string,
    diffs: string -> Summarizer.DiffOutputs,
    api: Request -> Result<string>,
    pick: nat)

  /** The names of the first MaxPromptFiles changes, in order (the loop that breaks at index 100). */
  function PromptFiles(changes: seq<Summarizer.FileChange>): (r: seq<string>)
    ensures |r| == if |changes| < MaxPromptFiles then |changes| else MaxPromptFiles
    ensures forall i :: 0 <= i < |r| ==> r[i] == changes[i].file
  {
    if |changes| == 0 || MaxPromptFiles == 0 then []
    else
      var n := if |changes| < MaxPromptFiles then |changes| else MaxPromptFiles;
      seq(n, i requires 0 <= i < n => changes[i].file)
  }

  /** The request TryAPIGeneration sends for the changes of `listing`. */
  function BuildRequest(token: string, branch: string, cfg: Config, changes: seq<Summarizer.FileChange>): (r: Request)
    ensures r.token == token && r.branch == branch
    ensures cfg.selectedModel.None? ==> r.model == DefaultModel
    ensures cfg.selectedModel.Some? ==> r.model == cfg.selectedModel.value
    ensures r.fileNames == Join(PromptFiles(changes), "\n")
    ensures r.payload == Summarizer.Compress(changes, PayloadBudget)
  {
    Request(token, branch, Join(PromptFiles(changes), "\n"), Summarizer.Compress(changes, PayloadBudget), cfg.selectedModel.GetOr(DefaultModel))
  }

  /**
   * The file-name list of the prompt splits back into the first
   * MaxPromptFiles staged files, in listing order.
   */
  lemma PromptFilesRoundTrip(token: string, branch: string, cfg: Config, listing: Result<string>, diffs: string -> Summarizer.DiffOutputs)
    requires Summarizer.BuildFileChanges(listing, diffs).Ok?
    requires |Git.StagedFiles(listing).value| > 0
    ensures var files := Git.StagedFiles(listing).value;
            var n := if |files| < MaxPromptFiles then |files| else MaxPromptFiles;
            Split(BuildRequest(token, branch, cfg, Summarizer.BuildFileChanges(listing, diffs).value).fileNames, '\n') == files[..n]
  {
    var files := Git.StagedFiles(listing).value;
    var changes := Summarizer.BuildFileChanges(listing, diffs).value;
    var n := if |files| < MaxPromptFiles then |files| else MaxPromptFiles;
    PromptNamesAreFiles(changes, files);
    NoNewlineInPrefix(files, n);
    SplitJoin(files[..n], '\n');
  }

  /** The prompt lists the files of the changes, capped at MaxPromptFiles. */
  lemma PromptNamesAreFiles(changes: seq<Summarizer.FileChange>, files: seq<string>)
    requires |changes| == |files| && forall i :: 0 <= i < |files| ==> changes[i].file == files[i]
    ensures PromptFiles(changes) == files[..if |files| < MaxPromptFiles then |files| else MaxPromptFiles]
  {
  }

  /** A prefix of newline-free names is newline-free. */
  lemma NoNewlineInPrefix(files: seq<string>, n: nat)
    requires n <= |files| && forall i :: 0 <= i < |files| ==> '\n' !in files[i]
    ensures forall i :: 0 <= i < |files[..n]| ==> '\n' !in files[..n][i]
  {
    forall i | 0 <= i < |files[..n]| ensures '\n' !in files[..n][i] {
      assert files[..n][i] == files[i];
    }
  }

  /**
   * TryAPIGeneration: an error building the changes or from the API is
   * returned; otherwise the API's message, prefixed with a gitmoji when the
   * configuration enables it.
   */
  function TryAPIGeneration(token: string, cfg: Config, listing: Result<string>, w: MessageWorld): (r: Result<string>)
    ensures Summarizer.BuildFileChanges(listing, w.diffs).Err? ==> r == Err(Summarizer.BuildFileChanges(listing, w.diffs).error)
    ensures Summarizer.BuildFileChanges(listing, w.diffs).Ok? ==>
              var answer := w.api(BuildRequest(token, w.branch, cfg, Summarizer.BuildFileChanges(listing, w.diffs).value));
              && (answer.Err? ==> r == answer)
              && (answer.Ok? && !cfg.enableGitmoji.GetOr(false) ==> r == answer)
              && (answer.Ok? && cfg.enableGitmoji.GetOr(false) ==>
                    r.Ok? && HasSuffix(r.value, " " + answer.value)
                    && (exists k :: 0 <= k < |Gitmoji.Gitmojis| && r.value == Gitmoji.Gitmojis[k].emoji + " " + answer.value)
                    && r == Ok(Gitmoji.Gitmojified(answer.value, w.pick))
                    && (Gitmoji.FindBestGitmoji(answer.value).Some? ==>
                          r.value == Gitmoji.Gitmojis[Gitmoji.FindBestGitmoji(answer.value).value].emoji + " " + answer.value))
  {
    match Summarizer.BuildFileChanges(listing, w.diffs)
    case Err(e) => Err(e)
    case Ok(changes) =>
      match w.api(BuildRequest(token, w.branch, cfg, changes))
      case Err(e) => Err(e)
      case Ok(message) =>
        if cfg.enableGitmoji.GetOr(false) then Ok(Gitmoji.Gitmojified(message, w.pick)) else Ok(message)
  }

  /**
   * GenerateMessage: without a token (no configured key and none from `gh`)
   * an authentication error and no request; otherwise TryAPIGeneration with
   * that token.
   */
  function GenerateMessage(cfg: Config, listing: Result<string>, w: MessageWorld): (r: Result<string>)
    ensures Auth.GetToken(cfg.apiKey.GetOr(""), w.ghToken) == "" ==> r == Err(AuthError)
    ensures cfg.apiKey.GetOr("") != "" ==> r == TryAPIGeneration(cfg.apiKey.value, cfg, listing, w)
    ensures cfg.apiKey.GetOr("") == "" && w.ghToken != "" ==> r == TryAPIGeneration(w.ghToken, cfg, listing, w)
  {
    var token := Auth.GetToken(cfg.apiKey.GetOr(""), w.ghToken);
    if token == "" then Err(AuthError) else TryAPIGeneration(token, cfg, listing, w)
  }

  // ---------------------------------------------------------------------------
  // ProcessSingleRepo
  // ---------------------------------------------------------------------------

  /** The git operations ProcessSingleRepo performs that change the repository. */
  datatype Action = StageAll | Commit(message: string) | Push

  /**
   * What one repository run sees: its configuration, the .gitignore read and
   * write results, the staged-file listing before and after `git add -A`, the
   * results of staging, committing and pushing, the line typed at the
   * confirmation prompt, and the message pipeline's world.
   */
  datatype RepoWorld = RepoWorld(
    config: Config,
    gitignore: Result<string>,
    gitignoreWrite: Outcome,
    staged: Result<string>,
    stageAll: Outcome,
    restaged: Result<string>,
    message: MessageWorld,
    input: string,
    commit: Outcome,
    push: Outcome)

  /** The outcome of one repository run and the operations it performed, in order. */
  datatype RepoRun = RepoRun(outcome: Outcome, actions: seq<Action>)

  /** strings.EqualFold(strings.TrimSpace(input), "y"): the prompt was answered yes. */
  predicate Confirmed(input: string)
  {
    TrimSpace(input) == "y" || TrimSpace(input) == "Y"
  }

  /** The listing that holds the files to commit: the first one, or the one after staging everything. */
  function Listing(w: RepoWorld): Result<string>
  {
    if Git.StagedFiles(w.staged) == Ok([]) then w.restaged else w.staged
  }

  /**
   * The results of the steps of one run, each as it would come out if the
   * run reached it: the .gitignore merge, the two staged-file lists, the
   * staging, the message, whether the prompt is skipped, the typed answer,
   * the commit and the push.
   */
  datatype Steps = Steps(
    gitignore: Outcome,
    staged: Result<seq<string>>,
    stageAll: Outcome,
    restaged: Result<seq<string>>,
    message: Result<string>,
    skipConfirmation: bool,
    confirmed: bool,
    commit: Outcome,
    push: Outcome)

  /** The steps of a run in `w`. */
  function StepsOf(w: RepoWorld): Steps
  {
    Steps(
      EnsureGitignoreSafety(w.config, w.gitignore, w.gitignoreWrite),
      Git.StagedFiles(w.staged),
      w.stageAll,
      Git.StagedFiles(w.restaged),
      GenerateMessage(w.config, Listing(w), w.message),
      w.config.skipConfirmation.GetOr(false),
      Confirmed(w.input),
      w.commit,
      w.push)
  }

  /** The files to commit: those already staged, or those staged by staging everything. */
  function ToCommit(s: Steps): Result<seq<string>>
  {
    if s.staged == Ok([]) then s.restaged else s.staged
  }

  /** The steps before the prompt succeed and leave files to commit. */
  predicate Ready(s: Steps)
  {
    && s.gitignore.Pass?
    && s.staged.Ok?
    && (s.staged.value == [] ==> s.stageAll.Pass?)
    && ToCommit(s).Ok? && |ToCommit(s).value| > 0
    && s.message.Ok?
  }

  /** The commit gate: the user is not asked, or answers yes. */
  predicate MayCommit(s: Steps, force: bool)
  {
    force || s.skipConfirmation || s.confirmed
  }

  /**
   * The gating of ProcessSingleRepo: the .gitignore merge, staging everything
   * only when nothing is staged, stopping quietly when there is still
   * nothing, the message, the confirmation, the commit and, unless `noPush`,
   * the push; the first failing step's error is returned.
   */
  function Gate(s: Steps, noPush: bool, force: bool): (r: RepoRun)
    ensures StageAll in r.actions <==> s.gitignore.Pass? && s.staged == Ok([])
    ensures (exists m :: Commit(m) in r.actions) <==> Ready(s) && MayCommit(s, force)
    ensures forall m :: Commit(m) in r.actions ==> s.message == Ok(m)
    ensures Push in r.actions <==> Ready(s) && MayCommit(s, force) && s.commit.Pass? && !noPush
    ensures |r.actions| > 0 && r.actions[|r.actions| - 1] == Push ==> |r.actions| >= 2 && r.actions[|r.actions| - 2].Commit?
    ensures r.outcome.Fail? <==>
              || s.gitignore.Fail? || s.staged.Err?
              || (s.staged == Ok([]) && (s.stageAll.Fail? || s.restaged.Err?))
              || (ToCommit(s).Ok? && |ToCommit(s).value| > 0 && s.message.Err?)
              || (Ready(s) && MayCommit(s, force) && (s.commit.Fail? || (!noPush && s.push.Fail?)))
    ensures s.gitignore.Fail? ==> r.outcome == s.gitignore
    ensures s.gitignore.Pass? && s.staged.Err? ==> r.outcome == Fail(s.staged.error)
    ensures s.gitignore.Pass? && s.staged == Ok([]) && s.stageAll.Fail? ==> r.outcome == s.stageAll
    ensures s.gitignore.Pass? && s.staged == Ok([]) && s.stageAll.Pass? && s.restaged.Err? ==> r.outcome == Fail(s.restaged.error)
    ensures (s.gitignore.Pass? && s.staged.Ok? && (s.staged.value == [] ==> s.stageAll.Pass?)
             && ToCommit(s).Ok? && |ToCommit(s).value| > 0 && s.message.Err?) ==> r.outcome == Fail(s.message.error)
    ensures Ready(s) && MayCommit(s, force) && s.commit.Fail? ==> r.outcome == s.commit
    ensures Ready(s) && MayCommit(s, force) && s.commit.Pass? && !noPush ==> r.outcome == s.push
  {
    if s.gitignore.Fail? then RepoRun(s.gitignore, [])
    else
      match s.staged
      case Err(e) => RepoRun(Fail(e), [])
      case Ok(files) =>
        var staging := if files == [] then [StageAll] else [];
        if files == [] && s.stageAll.Fail? then RepoRun(s.stageAll, staging)
        else
          match ToCommit(s)
          case Err(e) => RepoRun(Fail(e), staging)
          case Ok(toCommit) =>
            if toCommit == [] then RepoRun(Pass, staging)
            else
              match s.message
              case Err(e) => RepoRun(Fail(e), staging)
              case Ok(message) =>
                if !MayCommit(s, force) then RepoRun(Pass, staging)
                else
                  var committed := staging + [Commit(message)];
                  if s.commit.Fail? then RepoRun(s.commit, committed)
                  else if noPush then RepoRun(Pass, committed)
                  else RepoRun(s.push, committed + [Push])
  }

  /** ProcessSingleRepo: the gated run over the steps of `w`. */
  function ProcessSingleRepo(w: RepoWorld, noPush: bool, force: bool): RepoRun
  {
    Gate(StepsOf(w), noPush, force)
  }

  /** The message committed is the one generated from the listing of the files to commit. */
  lemma CommitsGeneratedMessage(w: RepoWorld, noPush: bool, force: bool, m: string)
    requires Commit(m) in ProcessSingleRepo(w, noPush, force).actions
    ensures GenerateMessage(w.config, Listing(w), w.message) == Ok(m)
    ensures Git.StagedFiles(Listing(w)) == ToCommit(StepsOf(w))
  {
  }

  /** With files already staged nothing is staged anew. */
  lemma AlreadyStagedIsKept(w: RepoWorld, noPush: bool, force: bool)
    requires Git.StagedFiles(w.staged).Ok? && |Git.StagedFiles(w.staged).value| > 0
    ensures StageAll !in ProcessSingleRepo(w, noPush, force).actions
    ensures Listing(w) == w.staged
  {
  }

  /** Staging everything that still leaves nothing staged ends the run successfully, without a commit. */
  lemma NothingToCommit(w: RepoWorld, noPush: bool, force: bool)
    requires StepsOf(w).gitignore.Pass?
    requires Git.StagedFiles(w.staged) == Ok([]) && w.stageAll.Pass? && Git.StagedFiles(w.restaged) == Ok([])
    ensures ProcessSingleRepo(w, noPush, force) == RepoRun(Pass, [StageAll])
  {
  }

  /** A declined prompt ends the run successfully with nothing committed or pushed. */
  lemma DeclinedIsQuiet(w: RepoWorld, noPush: bool)
    requires Ready(StepsOf(w))
    requires !w.config.skipConfirmation.GetOr(false) && !Confirmed(w.input)
    ensures ProcessSingleRepo(w, noPush, false).outcome == Pass
    ensures forall a :: a in ProcessSingleRepo(w, noPush, false).actions ==> a == StageAll
  {
    DeclinedStepsAreQuiet(StepsOf(w), noPush);
  }

  /** Declining after ready steps: success, and at most the staging was done. */
  lemma DeclinedStepsAreQuiet(s: Steps, noPush: bool)
    requires Ready(s) && !MayCommit(s, false)
    ensures Gate(s, noPush, false).outcome == Pass
    ensures forall a :: a in Gate(s, noPush, false).actions ==> a == StageAll
  {
  }

  // ---------------------------------------------------------------------------
  // GenerateCommit
  // ---------------------------------------------------------------------------

  /** The directory discovery starts from: "." for an empty path. */
  function StartDir(repoPath: string): (r: string)
    ensures r != ""
    ensures repoPath != "" ==> r == repoPath
  {
    if repoPath == "" then "." else repoPath
  }

  /** What discovery sees from the start directory: working directory, rev-parse answer, tree. */
  datatype Tree = Tree(cwd: Option<string>, toplevel: Result<string>, root: Git.Entry)

  /**
   * GenerateCommit: an error when discovery finds no repository; otherwise
   * every repository is processed, in discovery order, whatever the earlier
   * ones returned, and the result is success. `process` is the run of one
   * repository, ProcessSingleRepo in that repository's world with the
   * command's `noPush` and `force`; `report` pairs each repository with its
   * run.
   */
  method GenerateCommit(repoPath: string, t: Tree, process: string -> RepoRun)
    returns (r: Outcome, report: seq<(string, RepoRun)>)
    ensures var repos := Git.DiscoverRepositories(StartDir(repoPath), t.cwd, t.toplevel, t.root);
            && (|repos| == 0 ==> r == Fail("no git repositories found in " + StartDir(repoPath)) && report == [])
            && (|repos| > 0 ==> r == Pass)
            && |report| == |repos|
            && forall i :: 0 <= i < |repos| ==> report[i] == (repos[i], process(repos[i]))
  {
    var startDir := StartDir(repoPath);
    var repos := Git.DiscoverRepositories(startDir, t.cwd, t.toplevel, t.root);
    if |repos| == 0 {
      return Fail("no git repositories found in " + startDir), [];
    }
    report := ProcessAll(repos, process);
    r := Pass;
  }

  /** The loop of GenerateCommit: every repository is run, in order, errors only reported. */
  method ProcessAll(repos: seq<string>, process: string -> RepoRun) returns (report: seq<(string, RepoRun)>)
    ensures |report| == |repos|
    ensures forall i :: 0 <= i < |repos| ==> report[i] == (repos[i], process(repos[i]))
  {
    report := [];
    var i := 0;
    while i < |repos|
      invariant 0 <= i <= |repos|
      invariant |report| == i
      invariant forall j :: 0 <= j < i ==> report[j] == (repos[j], process(repos[j]))
    {
      var run := process(repos[i]);
      report := report + [(repos[i], run)];
      i := i + 1;
    }
  }
}

=== FILE: summarizer.dfy ===
/**
 * internal/summarizer/summarizer.go: the per-file change descriptor, the list
 * of staged changes, and its compression into a JSON payload that fits a byte
 * budget.
 */
module Summarizer {
  import opened Wrappers
  import opened Text
  import Git

  /** One staged file and its short change descriptor (JSON fields "f" and "c"). */
  datatype FileChange = FileChange(file: string, change: string)

  // ---------------------------------------------------------------------------
  // Per-file descriptor
  // ---------------------------------------------------------------------------

  /** The outputs of `git diff --staged --numstat` and `--unified=0` for one file. */
  datatype DiffOutputs = DiffOutputs(numstat: Result<string>, unified: Result<string>)

  /** Longest unified-diff line kept in a descriptor. */
  const MaxLineLen := 40

  /** The minus sign the numstat descriptor ends with (U+2212). */
  const MinusSign: char := '\U{2212}'

  /** A numstat count, with git's "-" for binary files read as "0". */
  function NumstatCount(field: string): (r: string)
    ensures field == "-" ==> r == "0"
    ensures field != "-" ==> r == field
  {
    if field == "-" then "0" else field
  }

  /**
   * The descriptor of non-empty numstat output: from a first line with at
   * least three tab-separated fields, "<added>+/<removed>−"; otherwise "mod".
   */
  function NumstatDescriptor(diff: string): (r: string)
    ensures var fields := Split(Split(diff, '\n')[0], '\t');
            |fields| >= 3 ==> r == NumstatCount(fields[0]) + "+/" + NumstatCount(fields[1]) + [MinusSign]
    ensures var fields := Split(Split(diff, '\n')[0], '\t');
            |fields| < 3 ==> r == "mod"
  {
    var lines := Split(diff, '\n');
    var fields := Split(lines[0], '\t');
    if |fields| >= 3 then NumstatCount(fields[0]) + "+/" + NumstatCount(fields[1]) + [MinusSign]
    else "mod"
  }

  /** Position of the first line that is not blank once trimmed; |lines| when all are blank. */
  function FirstNonBlankIndex(lines: seq<string>): (k: nat)
    ensures k <= |lines|
    ensures forall j :: 0 <= j < k ==> TrimSpace(lines[j]) == ""
    ensures k < |lines| ==> TrimSpace(lines[k]) != ""
  {
    FirstWhere(lines, l => TrimSpace(l) != "")
  }

  /** Every regexp space is a space for TrimSpace. */
  lemma RegexSpaceIsSpace(c: char)
    ensures IsRegexSpace(c) ==> IsSpace(c)
  {
  }

  /**
   * A line made short: cut to 40 characters, whitespace runs collapsed to one
   * space. A line not starting with a space gives a non-empty result that
   * does not either; the words of the cut line survive, each whitespace run
   * between them becomes one space, and a trailing run one space.
   */
  function ShortLine(line: string): (r: string)
    requires line != "" && !IsSpace(line[0])
    ensures 0 < |r| <= MaxLineLen
    ensures !IsRegexSpace(r[0])
    ensures forall i :: 0 <= i < |r| ==> IsRegexSpace(r[i]) ==> r[i] == ' '
    ensures forall i :: 0 <= i < |r| - 1 ==> !(IsRegexSpace(r[i]) && IsRegexSpace(r[i + 1]))
    ensures RegexWords(r) == RegexWords(Cut(line, MaxLineLen))
    ensures var cut := Cut(line, MaxLineLen); IsRegexSpace(r[|r| - 1]) <==> IsRegexSpace(cut[|cut| - 1])
    ensures StripRegexSpaces(r) == StripRegexSpaces(Cut(line, MaxLineLen))
  {
    var cut := Cut(line, MaxLineLen);
    RegexSpaceIsSpace(line[0]);
    assert cut[0] == line[0];
    CollapseSpaces(cut)
  }

  /**
   * The descriptor taken from a zero-context unified diff: its first non-blank
   * line trimmed ("mod" if there is none), made short.
   */
  function UnifiedDescriptor(hunks: string): (r: string)
    ensures 0 < |r| <= MaxLineLen
    ensures !IsRegexSpace(r[0])
    ensures forall i :: 0 <= i < |r| ==> IsRegexSpace(r[i]) ==> r[i] == ' '
    ensures forall i :: 0 <= i < |r| - 1 ==> !(IsRegexSpace(r[i]) && IsRegexSpace(r[i + 1]))
    ensures var lines := Split(hunks, '\n');
            var k := FirstNonBlankIndex(lines);
            k < |lines| ==> RegexWords(r) == RegexWords(Cut(TrimSpace(lines[k]), MaxLineLen))
    ensures var lines := Split(hunks, '\n');
            FirstNonBlankIndex(lines) == |lines| ==> r == ShortLine("mod")
    ensures var lines := Split(hunks, '\n');
            var k := FirstNonBlankIndex(lines);
            k < |lines| ==> StripRegexSpaces(r) == StripRegexSpaces(Cut(TrimSpace(lines[k]), MaxLineLen))
    ensures var lines := Split(hunks, '\n');
            var k := FirstNonBlankIndex(lines);
            k < |lines| ==> var cut := Cut(TrimSpace(lines[k]), MaxLineLen);
                            IsRegexSpace(r[|r| - 1]) <==> IsRegexSpace(cut[|cut| - 1])
  {
    var lines := Split(hunks, '\n');
    var k := FirstNonBlankIndex(lines);
    var line := if k < |lines| then TrimSpace(lines[k]) else "mod";
    ShortLine(line)
  }

  /**
   * AnalyzeFileChange: the numstat descriptor when numstat succeeded with
   * output, else the unified-diff descriptor when that succeeded, else "err".
   */
  function AnalyzeFileChange(d: DiffOutputs): (r: string)
    ensures d.numstat.Ok? && d.numstat.value != "" ==> r == NumstatDescriptor(d.numstat.value)
    ensures !(d.numstat.Ok? && d.numstat.value != "") && d.unified.Ok? ==> r == UnifiedDescriptor(d.unified.value)
    ensures !(d.numstat.Ok? && d.numstat.value != "") && d.unified.Err? ==> r == "err"
    ensures r != ""
  {
    if d.numstat.Ok? && d.numstat.value != "" then NumstatDescriptor(d.numstat.value)
    else if d.unified.Ok? then UnifiedDescriptor(d.unified.value)
    else "err"
  }

  /**
   * A numstat line "<added>\t<removed>\t<path>" yields "<added>+/<removed>−",
   * with "-" counts (binary files) shown as 0.
   */
  lemma NumstatLine(added: string, removed: string, path: string, unified: Result<string>)
    requires '\n' !in added && '\n' !in removed && '\n' !in path
    requires '\t' !in added && '\t' !in removed
    ensures AnalyzeFileChange(DiffOutputs(Ok(added + "\t" + removed + "\t" + path), unified))
            == NumstatCount(added) + "+/" + NumstatCount(removed) + [MinusSign]
  {
    var line := added + "\t" + removed + "\t" + path;
    assert '\n' !in line;
    SplitNoSeparator(line, '\n');
    var rest := removed + "\t" + path;
    assert line == added + ['\t'] + rest;
    SplitAround(added, rest, '\t');
    SplitNoSeparator(added, '\t');
    assert rest == removed + ['\t'] + path;
    SplitAround(removed, path, '\t');
    SplitNoSeparator(removed, '\t');
  }

  // ---------------------------------------------------------------------------
  // The change list
  // ---------------------------------------------------------------------------

  /**
   * BuildFileChanges: an error listing the staged files is returned; otherwise
   * one entry per staged file, in listing order, with that file's descriptor.
   * `diffs` gives the two git diff outputs of each file.
   */
  function BuildFileChanges(staged: Result<string>, diffs: string -> DiffOutputs): (r: Result<seq<FileChange>>)
    ensures Git.StagedFiles(staged).Err? ==> r == Err(Git.StagedFiles(staged).error)
    ensures Git.StagedFiles(staged).Ok? ==>
              var files := Git.StagedFiles(staged).value;
              r.Ok? && |r.value| == |files|
              && forall i :: 0 <= i < |files| ==>
                   r.value[i].file == files[i] && r.value[i].change == AnalyzeFileChange(diffs(files[i]))
  {
    match Git.StagedFiles(staged)
    case Err(e) => Err(e)
    case Ok(files) => Ok(seq(|files|, i requires 0 <= i < |files| => FileChange(files[i], AnalyzeFileChange(diffs(files[i])))))
  }

  // ---------------------------------------------------------------------------
  // JSON encoding (encoding/json.Marshal of FileChangesResponse)
  // ---------------------------------------------------------------------------

  /** The payload for no changes. */
  const EmptyPayload := "{\"files\":[]}"

  function HexDigit(n: nat): char
    requires n < 16
  {
    "0123456789abcdef"[n]
  }

  /**
   * How encoding/json writes one character inside a string: quote and
   * backslash escaped, control characters as short or \u00XX escapes, `<`, `>`
   * and `&` as \u00XX (HTML-safe), U+2028 and U+2029 as \u escapes.
   */
  function EscapeChar(c: char): (r: string)
    ensures |r| >= 1
  {
    if c == '"' then "\\\""
    else if c == '\\' then "\\\\"
    else if c == '\n' then "\\n"
    else if c == '\r' then "\\r"
    else if c == '\t' then "\\t"
    else if c == '\U{0008}' then "\\b"
    else if c == '\U{000C}' then "\\f"
    else if c < ' ' || c == '<' || c == '>' || c == '&' then "\\u00" + [HexDigit(c as int / 16), HexDigit(c as int % 16)]
    else if c == '\U{2028}' then "\\u2028"
    else if c == '\U{2029}' then "\\u2029"
    else [c]
  }

  function EscapeString(s: string): string
  {
    if |s| == 0 then "" else EscapeChar(s[0]) + EscapeString(s[1..])
  }

  /** A JSON string literal. */
  function Quote(s: string): string
  {
    "\"" + EscapeString(s) + "\""
  }

  /** `{"f":<file>,"c":<change>}`. */
  function EncodeEntry(fc: FileChange): string
  {
    "{\"f\":" + Quote(fc.file) + ",\"c\":" + Quote(fc.change) + "}"
  }

  /** The entries, comma-separated. */
  function EncodeEntries(fcs: seq<FileChange>): string
  {
    if |fcs| == 0 then ""
    else if |fcs| == 1 then EncodeEntry(fcs[0])
    else EncodeEntry(fcs[0]) + "," + EncodeEntries(fcs[1..])
  }

  /** json.Marshal(FileChangesResponse{Files: fcs}); a nil slice is written as null. */
  function Encode(fcs: seq<FileChange>): string
  {
    if |fcs| == 0 then "{\"files\":null}"
    else "{\"files\":[" + EncodeEntries(fcs) + "]}"
  }

  /** Bytes of one character in UTF-8. */
  function Utf8Len(c: char): nat
  {
    if c as int < 0x80 then 1 else if c as int < 0x800 then 2 else if c as int < 0x10000 then 3 else 4
  }

  /** Go's len() of a string: its UTF-8 byte count. */
  function ByteLen(s: string): nat
  {
    if |s| == 0 then 0 else Utf8Len(s[0]) + ByteLen(s[1..])
  }

  lemma {:induction false} ByteLenConcat(a: string, b: string)
    ensures ByteLen(a + b) == ByteLen(a) + ByteLen(b)
  {
    if |a| == 0 {
      assert a + b == b;
    } else {
      assert (a + b)[0] == a[0];
      assert (a + b)[1..] == a[1..] + b;
      ByteLenConcat(a[1..], b);
    }
  }

  /** A character encoding/json writes as itself, in one byte. */
  predicate IsPlainChar(c: char)
  {
    ' ' <= c <= '~' && c != '"' && c != '\\' && c != '<' && c != '>' && c != '&'
  }

  predicate IsPlain(s: string)
  {
    forall i :: 0 <= i < |s| ==> IsPlainChar(s[i])
  }

  /** Plain text is written unchanged. */
  lemma {:induction false} EscapePlain(s: string)
    requires IsPlain(s)
    ensures EscapeString(s) == s
    ensures ByteLen(s) == |s|
  {
    if |s| > 0 {
      EscapePlain(s[1..]);
      assert s == [s[0]] + s[1..];
    }
  }

  /** Escaping never shortens: every character takes at least one byte. */
  lemma {:induction false} EscapeAtLeast(s: string)
    ensures ByteLen(EscapeString(s)) >= |s|
  {
    if |s| > 0 {
      EscapeAtLeast(s[1..]);
      ByteLenConcat(EscapeChar(s[0]), EscapeString(s[1..]));
      assert ByteLen(EscapeChar(s[0])) >= 1;
    }
  }

  /** Encoded size of an entry of plain text: its two strings plus 15 bytes of syntax. */
  function PlainEntrySize(fc: FileChange): nat
  {
    |fc.file| + |fc.change| + 15
  }

  /** Sum of the entry sizes and one separator byte per entry. */
  function PlainSize(fcs: seq<FileChange>): nat
  {
    if |fcs| == 0 then 0 else PlainEntrySize(fcs[0]) + 1 + PlainSize(fcs[1..])
  }

  predicate IsPlainEntry(fc: FileChange)
  {
    IsPlain(fc.file) && IsPlain(fc.change)
  }

  /** An entry takes at least 15 bytes, exactly 15 more than its two strings when they are plain. */
  lemma EntryLen(fc: FileChange)
    ensures ByteLen(EncodeEntry(fc)) >= 15
    ensures IsPlainEntry(fc) ==> ByteLen(EncodeEntry(fc)) == PlainEntrySize(fc)
  {
    EntryFrameLen(Quote(fc.file), Quote(fc.change));
    QuoteLen(fc.file);
    QuoteLen(fc.change);
    EscapeAtLeast(fc.file);
    EscapeAtLeast(fc.change);
    if IsPlainEntry(fc) {
      EscapePlain(fc.file);
      EscapePlain(fc.change);
    }
  }

  /** The fixed syntax of an entry takes 11 bytes. */
  lemma EntryFrameLen(q1: string, q2: string)
    ensures ByteLen("{\"f\":" + q1 + ",\"c\":" + q2 + "}") == ByteLen(q1) + ByteLen(q2) + 11
  {
    ByteLenConcat("{\"f\":", q1);
    ByteLenConcat("{\"f\":" + q1, ",\"c\":");
    ByteLenConcat("{\"f\":" + q1 + ",\"c\":", q2);
    ByteLenConcat("{\"f\":" + q1 + ",\"c\":" + q2, "}");
  }

  /** Quotes add two bytes to the escaped text. */
  lemma QuoteLen(s: string)
    ensures ByteLen(Quote(s)) == ByteLen(EscapeString(s)) + 2
  {
    ByteLenConcat("\"", EscapeString(s));
    ByteLenConcat("\"" + EscapeString(s), "\"");
  }

  lemma {:induction false} EntriesLen(fcs: seq<FileChange>)
    requires |fcs| > 0
    ensures ByteLen(EncodeEntries(fcs)) >= 16 * |fcs| - 1
    ensures (forall i :: 0 <= i < |fcs| ==> IsPlainEntry(fcs[i])) ==> ByteLen(EncodeEntries(fcs)) == PlainSize(fcs) - 1
  {
    EntryLen(fcs[0]);
    if |fcs| > 1 {
      EntriesLen(fcs[1..]);
      ByteLenConcat(EncodeEntry(fcs[0]), ",");
      ByteLenConcat(EncodeEntry(fcs[0]) + ",", EncodeEntries(fcs[1..]));
      assert forall i :: 1 <= i < |fcs| ==> fcs[i] == fcs[1..][i - 1];
    }
  }

  /**
   * The byte length of a non-empty payload: at least 27 bytes for one entry
   * and 16 more per further entry; for plain text exactly 11 plus, per entry,
   * its file name and descriptor and 16 bytes of syntax.
   */
  lemma EncodedLength(fcs: seq<FileChange>)
    requires |fcs| > 0
    ensures ByteLen(Encode(fcs)) >= 11 + 16 * |fcs|
    ensures (forall i :: 0 <= i < |fcs| ==> IsPlainEntry(fcs[i])) ==> ByteLen(Encode(fcs)) == 11 + PlainSize(fcs)
  {
    EntriesLen(fcs);
    ByteLenConcat("{\"files\":[", EncodeEntries(fcs));
    ByteLenConcat("{\"files\":[" + EncodeEntries(fcs), "]}");
  }

  // ---------------------------------------------------------------------------
  // Compression
  // ---------------------------------------------------------------------------

  /** The truncation lengths tried, most generous first; -1 keeps descriptors whole. */
  const TruncateLens: seq<int> := [-1, 12, 6, 3, 1]

  /** A descriptor cut to its first `t` characters when `t` is positive. */
  function Cut(c: string, t: int): (r: string)
    ensures HasPrefix(c, r)
    ensures t <= 0 ==> r == c
    ensures t > 0 ==> |r| == if |c| > t then t else |c|
  {
    if t > 0 && |c| > t then c[..t] else c
  }

  /** The first `keep` changes with every descriptor cut to `t`; the `serialize` closure's list. */
  function Shape(changes: seq<FileChange>, t: int, keep: nat): (r: seq<FileChange>)
    requires keep <= |changes|
    ensures |r| == keep
    ensures forall i :: 0 <= i < keep ==> r[i].file == changes[i].file && r[i].change == Cut(changes[i].change, t)
  {
    seq(keep, i requires 0 <= i < keep => FileChange(changes[i].file, Cut(changes[i].change, t)))
  }

  /** A point of the search: the truncation length index and the number of kept changes. */
  datatype Choice = Choice(lenIndex: nat, keep: nat)

  /** The points the search visits for `n` changes. */
  predicate InRange(c: Choice, n: nat)
  {
    c.lenIndex < |TruncateLens| && 1 <= c.keep <= n
  }

  /** `a` is visited before `b`: truncation is the outer loop, the kept count the inner, counting down. */
  predicate Precedes(a: Choice, b: Choice)
  {
    a.lenIndex < b.lenIndex || (a.lenIndex == b.lenIndex && a.keep > b.keep)
  }

  /** The payload of a search point. */
  function Serialize(changes: seq<FileChange>, c: Choice): string
    requires InRange(c, |changes|)
  {
    Encode(Shape(changes, TruncateLens[c.lenIndex], c.keep))
  }

  /** The payload of a search point is within the budget. */
  predicate Fits(changes: seq<FileChange>, c: Choice, maxLen: int)
    requires InRange(c, |changes|)
  {
    ByteLen(Serialize(changes, c)) <= maxLen
  }

  /** `c` is visited at or after the point (i, keep). */
  predicate From(c: Choice, i: nat, keep: nat)
  {
    c.lenIndex > i || (c.lenIndex == i && c.keep <= keep)
  }

  /** The first fitting point visited from (i, keep) on. */
  function SearchFrom(changes: seq<FileChange>, maxLen: int, i: nat, keep: nat): (r: Option<Choice>)
    requires |changes| > 0 && i <= |TruncateLens| && keep <= |changes|
    ensures r.Some? ==> InRange(r.value, |changes|) && From(r.value, i, keep) && Fits(changes, r.value, maxLen)
    ensures forall c :: InRange(c, |changes|) && From(c, i, keep) && (r.None? || Precedes(c, r.value))
                        ==> !Fits(changes, c, maxLen)
    decreases |TruncateLens| - i, keep
  {
    if i == |TruncateLens| then None
    else if keep == 0 then SearchFrom(changes, maxLen, i + 1, |changes|)
    else if Fits(changes, Choice(i, keep), maxLen) then Some(Choice(i, keep))
    else SearchFrom(changes, maxLen, i, keep - 1)
  }

  /**
   * The point CompressToJSON settles on: it fits, and every point visited
   * before it does not; None when no point fits.
   */
  function FirstFit(changes: seq<FileChange>, maxLen: int): (r: Option<Choice>)
    requires |changes| > 0
    ensures r.Some? ==> InRange(r.value, |changes|) && Fits(changes, r.value, maxLen)
    ensures r.Some? ==> forall c :: InRange(c, |changes|) && Precedes(c, r.value) ==> !Fits(changes, c, maxLen)
    ensures r.None? ==> forall c :: InRange(c, |changes|) ==> !Fits(changes, c, maxLen)
  {
    SearchFrom(changes, maxLen, 0, |changes|)
  }

  /** The first-fit property pins the point down: any fitting point with no fitting predecessor is FirstFit's. */
  lemma FirstFitUnique(changes: seq<FileChange>, maxLen: int, c: Choice)
    requires |changes| > 0 && InRange(c, |changes|) && Fits(changes, c, maxLen)
    requires forall d :: InRange(d, |changes|) && Precedes(d, c) ==> !Fits(changes, d, maxLen)
    ensures FirstFit(changes, maxLen) == Some(c)
  {
    var r := FirstFit(changes, maxLen);
    assert r.Some?;
    assert !Precedes(c, r.value);
    assert !Precedes(r.value, c);
  }

  /** The fallback payload: the base name of the first file (after its last "/") marked "mod". */
  function Fallback(changes: seq<FileChange>): (r: seq<FileChange>)
    requires |changes| > 0
    ensures |r| == 1 && r[0].change == "mod"
    ensures '/' !in r[0].file && HasSuffix(changes[0].file, r[0].file)
    ensures var f := changes[0].file; |r[0].file| == |f| || f[|f| - |r[0].file| - 1] == '/'
  {
    var parts := Split(changes[0].file, '/');
    var name := parts[|parts| - 1];
    SplitSuffix(changes[0].file, '/');
    [FileChange(name, "mod")]
  }

  /** The last piece of a split is a suffix of the string: all of it, or what follows its last separator. */
  lemma {:induction false} SplitSuffix(s: string, sep: char)
    ensures LastPieceOf(s, sep, Split(s, sep))
  {
    if |s| > 0 {
      SplitSuffix(s[1..], sep);
      LastPieceStep(s, sep, Split(s[1..], sep));
    }
  }

  /** The last of `parts` is all of `s` when it is the only one, else the suffix following a separator. */
  predicate LastPieceOf(s: string, sep: char, parts: seq<string>)
  {
    |parts| > 0 &&
    var l := parts[|parts| - 1];
    HasSuffix(s, l) && (if |parts| == 1 then l == s else |l| < |s| && s[|s| - |l| - 1] == sep)
  }

  /** One step of Split keeps the last piece a separator-delimited suffix. */
  lemma LastPieceStep(s: string, sep: char, rest: seq<string>)
    requires |s| > 0 && LastPieceOf(s[1..], sep, rest)
    ensures LastPieceOf(s, sep, if s[0] == sep then [""] + rest else [[s[0]] + rest[0]] + rest[1..])
  {
    var l := rest[|rest| - 1];
    var parts := if s[0] == sep then [""] + rest else [[s[0]] + rest[0]] + rest[1..];
    if |rest| == 1 {
      assert rest[0] == s[1..];
      if s[0] == sep {
        assert parts[|parts| - 1] == l && |parts| == 2;
        assert s[|s| - |l|..] == s[1..];
      } else {
        assert s == [s[0]] + s[1..];
        assert rest[1..] == [];
        assert parts == [s];
      }
    } else {
      assert parts[|parts| - 1] == l && |parts| > 1;
      assert s[|s| - |l| - 1] == s[1..][|s| - 1 - |l| - 1];
      assert s[|s| - |l|..] == s[1..][|s| - 1 - |l|..];
    }
  }

  /**
   * CompressToJSON(changes, maxLen): `{"files":[]}` for no changes; otherwise
   * the payload of the first fitting search point, or the fallback payload
   * when none fits.
   */
  function Compress(changes: seq<FileChange>, maxLen: int): (r: string)
    ensures |changes| == 0 ==> r == EmptyPayload
    ensures |changes| > 0 && FirstFit(changes, maxLen).Some? ==> ByteLen(r) <= maxLen
    ensures |changes| > 0 && FirstFit(changes, maxLen).None? ==> r == Encode(Fallback(changes))
  {
    if |changes| == 0 then EmptyPayload
    else
      match FirstFit(changes, maxLen)
      case Some(c) => Serialize(changes, c)
      case None => Encode(Fallback(changes))
  }

  /**
   * CompressToJSON as the program writes it: truncation lengths in the outer
   * loop, kept counts from all down to one in the inner loop, the first
   * payload within the budget returned at once. `choice` is the point taken.
   */
  method CompressToJSON(changes: seq<FileChange>, maxLen: int) returns (out: string, choice: Option<Choice>)
    ensures |changes| == 0 ==> out == EmptyPayload && choice.None?
    ensures choice.Some? ==> InRange(choice.value, |changes|) && out == Serialize(changes, choice.value)
                             && ByteLen(out) <= maxLen
    ensures choice.Some? ==> forall c :: InRange(c, |changes|) && Precedes(c, choice.value) ==> !Fits(changes, c, maxLen)
    ensures |changes| > 0 && choice.None? ==> out == Encode(Fallback(changes))
    ensures choice.None? ==> forall c :: InRange(c, |changes|) ==> !Fits(changes, c, maxLen)
    ensures out == Compress(changes, maxLen)
  {
    if |changes| == 0 {
      return EmptyPayload, None;
    }
    var i := 0;
    while i < |TruncateLens|
      invariant 0 <= i <= |TruncateLens|
      invariant forall c :: InRange(c, |changes|) && c.lenIndex < i ==> !Fits(changes, c, maxLen)
    {
      var found := ScanKeeps(changes, maxLen, i);
      if found.Some? {
        var c := Choice(i, found.value);
        FirstFitUnique(changes, maxLen, c);
        return Serialize(changes, c), Some(c);
      }
      i := i + 1;
    }
    NothingFits(changes, maxLen);
    out := Encode(Fallback(changes));
    choice := None;
  }

  /** When no point fits, the search chooses none. */
  lemma NothingFits(changes: seq<FileChange>, maxLen: int)
    requires |changes| > 0
    requires forall c :: InRange(c, |changes|) && c.lenIndex < |TruncateLens| ==> !Fits(changes, c, maxLen)
    ensures FirstFit(changes, maxLen).None?
  {
  }

  /**
   * The inner loop of CompressToJSON at truncation length index `i`: the
   * largest kept count whose payload fits, counting down from all changes.
   */
  method ScanKeeps(changes: seq<FileChange>, maxLen: int, i: nat) returns (found: Option<nat>)
    requires |changes| > 0 && i < |TruncateLens|
    ensures found.Some? ==> 1 <= found.value <= |changes| && Fits(changes, Choice(i, found.value), maxLen)
    ensures found.Some? ==> forall c :: InRange(c, |changes|) && c.lenIndex == i && c.keep > found.value ==> !Fits(changes, c, maxLen)
    ensures found.None? ==> forall c :: InRange(c, |changes|) && c.lenIndex == i ==> !Fits(changes, c, maxLen)
  {
    var keep := |changes|;
    while keep >= 1
      invariant 0 <= keep <= |changes|
      invariant forall c :: InRange(c, |changes|) && c.lenIndex == i && c.keep > keep ==> !Fits(changes, c, maxLen)
    {
      if ByteLen(Serialize(changes, Choice(i, keep))) <= maxLen {
        return Some(keep);
      }
      keep := keep - 1;
    }
    found := None;
  }

  // ---------------------------------------------------------------------------
  // Properties of the search
  // ---------------------------------------------------------------------------

  /**
   * When some prefix fits with whole descriptors, nothing is truncated: the
   * payload lists the first `keep` changes exactly as given, and `keep` is the
   * longest such prefix that fits.
   */
  lemma WholeDescriptorsPreferred(changes: seq<FileChange>, maxLen: int, k: nat)
    requires 1 <= k <= |changes| && Fits(changes, Choice(0, k), maxLen)
    ensures var c := FirstFit(changes, maxLen);
            c.Some? && c.value.lenIndex == 0 && c.value.keep >= k
            && Shape(changes, TruncateLens[0], c.value.keep) == changes[..c.value.keep]
            && Compress(changes, maxLen) == Encode(changes[..c.value.keep])
  {
    var c := FirstFit(changes, maxLen);
    assert c.Some?;
    assert !Precedes(Choice(0, k), c.value);
    var keep := c.value.keep;
    assert Shape(changes, TruncateLens[0], keep) == changes[..keep] by {
      forall i | 0 <= i < keep ensures Shape(changes, TruncateLens[0], keep)[i] == changes[i] {
      }
    }
  }

  /**
   * Shrinking the budget never moves the chosen point earlier: the point
   * chosen under the smaller budget is the same or visited later, and if
   * nothing fits the larger budget nothing fits the smaller one.
   */
  lemma ShrinkingBudgetNeverEarlier(changes: seq<FileChange>, small: int, large: int)
    requires |changes| > 0 && small <= large
    ensures FirstFit(changes, large).None? ==> FirstFit(changes, small).None?
    ensures FirstFit(changes, small).Some? ==>
              FirstFit(changes, large).Some? && !Precedes(FirstFit(changes, small).value, FirstFit(changes, large).value)
  {
  }

  /**
   * Below 27 bytes no payload fits, so the fallback is returned, and it is
   * itself longer than the budget.
   */
  lemma TinyBudgetFallsBack(changes: seq<FileChange>, maxLen: int)
    requires |changes| > 0 && maxLen < 27
    ensures FirstFit(changes, maxLen).None?
    ensures Compress(changes, maxLen) == Encode(Fallback(changes))
    ensures ByteLen(Compress(changes, maxLen)) > maxLen
  {
    forall c | InRange(c, |changes|) ensures !Fits(changes, c, maxLen) {
      EncodedLength(Shape(changes, TruncateLens[c.lenIndex], c.keep));
    }
    EncodedLength(Fallback(changes));
  }

  /**
   * The kept count is not monotone in the budget: for a file with a
   * 40-character descriptor followed by one with a 1-character descriptor
   * (one-character names, plain text), a budget of 68 bytes keeps only the
   * first file, whole, while the smaller budget of 60 keeps both, cut to 12.
   */
  lemma KeptCountNotMonotone(a: FileChange, b: FileChange)
    requires IsPlainEntry(a) && IsPlainEntry(b)
    requires |a.file| == 1 && |a.change| == 40 && |b.file| == 1 && |b.change| == 1
    ensures FirstFit([a, b], 68) == Some(Choice(0, 1))
    ensures FirstFit([a, b], 60) == Some(Choice(1, 2))
  {
    var changes := [a, b];
    ExampleSizes(a, b);
    forall d | InRange(d, 2) && Precedes(d, Choice(0, 1)) ensures !Fits(changes, d, 68) {
      assert d == Choice(0, 2);
    }
    FirstFitUnique(changes, 68, Choice(0, 1));
    forall d | InRange(d, 2) && Precedes(d, Choice(1, 2)) ensures !Fits(changes, d, 60) {
      assert d == Choice(0, 2) || d == Choice(0, 1);
    }
    FirstFitUnique(changes, 60, Choice(1, 2));
  }

  /** The payload sizes of that example: 86 and 68 bytes whole, 58 bytes with descriptors cut to 12. */
  lemma ExampleSizes(a: FileChange, b: FileChange)
    requires IsPlainEntry(a) && IsPlainEntry(b)
    requires |a.file| == 1 && |a.change| == 40 && |b.file| == 1 && |b.change| == 1
    ensures ByteLen(Serialize([a, b], Choice(0, 2))) == 86
    ensures ByteLen(Serialize([a, b], Choice(0, 1))) == 68
    ensures ByteLen(Serialize([a, b], Choice(1, 2))) == 58
  {
    ExampleWhole(a, b);
    ExampleFirst(a, b);
    ExampleCut(a, b);
  }

  /** Both changes whole: 86 bytes. */
  lemma ExampleWhole(a: FileChange, b: FileChange)
    requires IsPlainEntry(a) && IsPlainEntry(b)
    requires |a.file| == 1 && |a.change| == 40 && |b.file| == 1 && |b.change| == 1
    ensures ByteLen(Serialize([a, b], Choice(0, 2))) == 86
  {
    var full2 := Shape([a, b], -1, 2);
    assert full2 == [a, b];
    PlainSizeTwo(a, b);
    EncodedLength(full2);
  }

  /** The plain size of two entries. */
  lemma PlainSizeTwo(x: FileChange, y: FileChange)
    ensures PlainSize([x, y]) == PlainEntrySize(x) + PlainEntrySize(y) + 2
  {
    assert [y][1..] == [];
    assert PlainSize([y]) == PlainEntrySize(y) + 1;
    assert [x, y][1..] == [y];
  }

  /** The first change alone: 68 bytes. */
  lemma ExampleFirst(a: FileChange, b: FileChange)
    requires IsPlainEntry(a) && IsPlainEntry(b)
    requires |a.file| == 1 && |a.change| == 40 && |b.file| == 1 && |b.change| == 1
    ensures ByteLen(Serialize([a, b], Choice(0, 1))) == 68
  {
    var full1 := Shape([a, b], -1, 1);
    assert full1 == [a];
    EncodedLength(full1);
  }

  /** Both changes, descriptors cut to 12 characters: 58 bytes. */
  lemma ExampleCut(a: FileChange, b: FileChange)
    requires IsPlainEntry(a) && IsPlainEntry(b)
    requires |a.file| == 1 && |a.change| == 40 && |b.file| == 1 && |b.change| == 1
    ensures ByteLen(Serialize([a, b], Choice(1, 2))) == 58
  {
    var cut2 := Shape([a, b], 12, 2);
    var a' := FileChange(a.file, a.change[..12]);
    assert cut2 == [a', b];
    assert IsPlainEntry(a');
    PlainSizeTwo(a', b);
    EncodedLength(cut2);
  }
}

=== FILE: text.dfy ===
/**
 * The pieces of Go's `strings`, `regexp` and `fmt` packages the core relies on,
 * over strings as sequences of characters. Lengths count characters, which is
 * the byte length Go uses as long as the text is ASCII.
 */
module Text {

  // ---------------------------------------------------------------------------
  // Character classes
  // ---------------------------------------------------------------------------

  /** Go's unicode.IsSpace: the characters strings.TrimSpace and strings.Fields drop. */
  predicate IsSpace(c: char)
  {
    c == ' ' || c == '\t' || c == '\n' || c == '\r' || c == '\U{000B}' || c == '\U{000C}'
    || c == '\U{0085}' || c == '\U{00A0}' || c == '\U{1680}'
    || ('\U{2000}' <= c <= '\U{200A}')
    || c == '\U{2028}' || c == '\U{2029}' || c == '\U{202F}' || c == '\U{205F}' || c == '\U{3000}'
  }

  /** The `\s` class of Go's regexp syntax: tab, newline, form feed, carriage return and space. */
  predicate IsRegexSpace(c: char)
  {
    c == ' ' || c == '\t' || c == '\n' || c == '\r' || c == '\U{000C}'
  }

  /** ASCII lower-casing of one character (unicode.ToLower on ASCII input). */
  function LowerChar(c: char): char
  {
    if 'A' <= c <= 'Z' then (c as int + 32) as char else c
  }

  /** strings.ToLower on ASCII text. */
  function ToLower(s: string): (r: string)
    ensures |r| == |s|
    ensures forall i :: 0 <= i < |s| ==> r[i] == LowerChar(s[i])
  {
    seq(|s|, i requires 0 <= i < |s| => LowerChar(s[i]))
  }

  // ---------------------------------------------------------------------------
  // Prefixes, suffixes and substrings
  // ---------------------------------------------------------------------------

  /** strings.HasPrefix(s, p). */
  predicate HasPrefix(s: string, p: string)
  {
    |p| <= |s| && s[..|p|] == p
  }

  /** strings.HasSuffix(s, p). */
  predicate HasSuffix(s: string, p: string)
  {
    |p| <= |s| && s[|s| - |p|..] == p
  }

  /** A concatenation ends with its second part. */
  lemma ConcatHasSuffix(a: string, b: string)
    ensures HasSuffix(a + b, b)
  {
    assert (a + b)[|a|..] == b;
  }

  /** `t` occurs in `s` starting at position `i`. */
  predicate OccursAt(s: string, t: string, i: int)
  {
    0 <= i <= |s| - |t| && s[i..i + |t|] == t
  }

  /** strings.Contains(s, t): `t` occurs somewhere in `s` (the empty string occurs everywhere). */
  predicate Contains(s: string, t: string)
  {
    exists i | 0 <= i <= |s| - |t| :: OccursAt(s, t, i)
  }

  /** A text can only contain `t` if it has every character of `t`. */
  lemma NotContainsMissingChar(s: string, t: string, c: char)
    requires c in t && c !in s
    ensures !Contains(s, t)
  {
    var k :| 0 <= k < |t| && t[k] == c;
    forall i | 0 <= i <= |s| - |t|
      ensures !OccursAt(s, t, i)
    {
      assert s[i..i + |t|][k] == s[i + k];
    }
  }

  /** A `t` without spaces found in two texts joined by a space lies within one of them. */
  lemma ContainsAcrossSpace(a: string, b: string, t: string)
    requires ' ' !in t && Contains(a + " " + b, t)
    ensures Contains(a, t) || Contains(b, t)
  {
    var s := a + " " + b;
    var i :| 0 <= i <= |s| - |t| && OccursAt(s, t, i);
    if i + |t| <= |a| {
      assert a[i..i + |t|] == s[i..i + |t|];
      assert OccursAt(a, t, i);
    } else if i > |a| {
      assert b[i - |a| - 1..i - |a| - 1 + |t|] == s[i..i + |t|];
      assert OccursAt(b, t, i - |a| - 1);
    } else {
      OccursAtChar(s, t, i, |a|);
      assert false;
    }
  }

  /** Every character an occurrence of `t` covers is a character of `t`. */
  lemma OccursAtChar(s: string, t: string, i: int, j: int)
    requires OccursAt(s, t, i) && i <= j < i + |t|
    ensures s[j] in t
  {
    assert s[i..i + |t|][j - i] == s[j];
  }

  /** A non-empty `t` without spaces that no word contains is not in the words joined by single spaces. */
  lemma {:induction false} NotContainsJoin(ws: seq<string>, t: string)
    requires |t| > 0 && ' ' !in t
    requires forall i :: 0 <= i < |ws| ==> !Contains(ws[i], t)
    ensures !Contains(Join(ws, " "), t)
  {
    if |ws| > 1 {
      NotContainsJoin(ws[1..], t);
      assert !Contains(ws[0], t);
      if Contains(Join(ws, " "), t) {
        ContainsAcrossSpace(ws[0], Join(ws[1..], " "), t);
      }
    } else if |ws| == 1 {
      assert !Contains(ws[0], t);
    }
  }

  /** A text containing `t` contains every prefix of `t`. */
  lemma ContainsPrefix(s: string, t: string, n: nat)
    requires Contains(s, t) && n <= |t|
    ensures Contains(s, t[..n])
  {
    var i :| 0 <= i <= |s| - |t| && OccursAt(s, t, i);
    assert s[i..i + n] == s[i..i + |t|][..n];
    assert OccursAt(s, t[..n], i);
  }

  // ---------------------------------------------------------------------------
  // Trimming
  // ---------------------------------------------------------------------------

  /** `s` without its leading whitespace. */
  function TrimLeft(s: string): (r: string)
    ensures |r| <= |s| && r == s[|s| - |r|..]
    ensures forall i :: 0 <= i < |s| - |r| ==> IsSpace(s[i])
    ensures r == [] || !IsSpace(r[0])
  {
    if |s| > 0 && IsSpace(s[0]) then TrimLeft(s[1..]) else s
  }

  /** `s` without its trailing whitespace. */
  function TrimRight(s: string): (r: string)
    ensures |r| <= |s| && r == s[..|r|]
    ensures forall i :: |r| <= i < |s| ==> IsSpace(s[i])
    ensures r == [] || !IsSpace(r[|r| - 1])
  {
    if |s| > 0 && IsSpace(s[|s| - 1]) then TrimRight(s[..|s| - 1]) else s
  }

  /** A string that neither starts nor ends with whitespace. */
  predicate IsTrimmed(s: string)
  {
    s == [] || (!IsSpace(s[0]) && !IsSpace(s[|s| - 1]))
  }

  /** `r` is the slice of `s` at `a` and everything of `s` around it is whitespace. */
  predicate SpaceAround(s: string, r: string, a: int)
  {
    && 0 <= a <= |s| - |r| && r == s[a..a + |r|]
    && (forall i :: 0 <= i < a ==> IsSpace(s[i]))
    && (forall i :: a + |r| <= i < |s| ==> IsSpace(s[i]))
  }

  /** strings.TrimSpace: the middle slice of `s` left once whitespace is cut from both ends. */
  function TrimSpace(s: string): (r: string)
    ensures IsTrimmed(r)
    ensures exists a :: SpaceAround(s, r, a)
  {
    TrimBothEnds(s);
    TrimRight(TrimLeft(s))
  }

  /** Cutting the leading, then the trailing whitespace leaves a trimmed middle slice. */
  lemma TrimBothEnds(s: string)
    ensures IsTrimmed(TrimRight(TrimLeft(s)))
    ensures SpaceAround(s, TrimRight(TrimLeft(s)), |s| - |TrimLeft(s)|)
  {
    TrimmedSlice(s, TrimLeft(s), TrimRight(TrimLeft(s)));
  }

  /**
   * A suffix `l` of `s` after leading whitespace, and a prefix `r` of `l`
   * before trailing whitespace, with no whitespace at either cut: `r` is the
   * trimmed middle of `s`.
   */
  lemma TrimmedSlice(s: string, l: string, r: string)
    requires |l| <= |s| && l == s[|s| - |l|..] && forall i :: 0 <= i < |s| - |l| ==> IsSpace(s[i])
    requires l == [] || !IsSpace(l[0])
    requires |r| <= |l| && r == l[..|r|] && forall i :: |r| <= i < |l| ==> IsSpace(l[i])
    requires r == [] || !IsSpace(r[|r| - 1])
    ensures IsTrimmed(r)
    ensures SpaceAround(s, r, |s| - |l|)
  {
    var a := |s| - |l|;
    forall i | a + |r| <= i < |s| ensures IsSpace(s[i]) {
      assert s[i] == l[i - a];
    }
    if |r| > 0 {
      assert r[0] == l[0];
    }
  }

  /** Trimming a trimmed string changes nothing, so TrimSpace is idempotent. */
  lemma TrimmedIsFixpoint(s: string)
    requires IsTrimmed(s)
    ensures TrimSpace(s) == s
  {
  }

  // ---------------------------------------------------------------------------
  // Splitting and joining
  // ---------------------------------------------------------------------------

  /** strings.Join(parts, sep). */
  function Join(parts: seq<string>, sep: string): string
  {
    if |parts| == 0 then ""
    else if |parts| == 1 then parts[0]
    else parts[0] + sep + Join(parts[1..], sep)
  }

  /** Text without upper-case ASCII letters is its own lower-case form. */
  lemma ToLowerOfLower(s: string)
    requires forall i :: 0 <= i < |s| ==> !('A' <= s[i] <= 'Z')
    ensures ToLower(s) == s
  {
  }

  /** Lower-casing distributes over concatenation. */
  lemma ToLowerConcat(a: string, b: string)
    ensures ToLower(a + b) == ToLower(a) + ToLower(b)
  {
  }

  /** Lower-casing keeps whitespace and non-whitespace apart, so a word stays a word. */
  lemma ToLowerWord(w: string)
    requires IsWord(w)
    ensures IsWord(ToLower(w))
  {
  }

  /** Every string of `ws` lower-cased. */
  function LowerAll(ws: seq<string>): (r: seq<string>)
    ensures |r| == |ws|
    ensures forall i :: 0 <= i < |ws| ==> r[i] == ToLower(ws[i])
  {
    seq(|ws|, i requires 0 <= i < |ws| => ToLower(ws[i]))
  }

  /** Lower-casing words joined by a space joins the lower-cased words. */
  lemma {:induction false} ToLowerJoin(ws: seq<string>)
    ensures ToLower(Join(ws, " ")) == Join(LowerAll(ws), " ")
  {
    if |ws| == 0 {
      assert Join(ws, " ") == "";
    } else if |ws| == 1 {
      assert Join(ws, " ") == ws[0];
      assert Join(LowerAll(ws), " ") == LowerAll(ws)[0];
    } else {
      var tail := ws[1..];
      ToLowerJoin(tail);
      assert LowerAll(ws)[1..] == LowerAll(tail);
      assert Join(ws, " ") == ws[0] + " " + Join(tail, " ");
      assert Join(LowerAll(ws), " ") == ToLower(ws[0]) + " " + Join(LowerAll(tail), " ");
      ToLowerConcat(ws[0] + " ", Join(tail, " "));
      ToLowerConcat(ws[0], " ");
    }
  }

  /**
   * strings.Split(s, sep) for a one-character separator: the pieces between
   * separators, always at least one (the empty string splits into [""]).
   */
  function Split(s: string, sep: char): (parts: seq<string>)
    ensures |parts| >= 1
    ensures forall i :: 0 <= i < |parts| ==> sep !in parts[i]
    ensures Join(parts, [sep]) == s
  {
    if |s| == 0 then [""]
    else
      var rest := Split(s[1..], sep);
      if s[0] == sep then
        assert ([""] + rest)[1..] == rest;
        [""] + rest
      else
        var parts := [[s[0]] + rest[0]] + rest[1..];
        assert parts[1..] == rest[1..];
        assert s == [s[0]] + s[1..];
        parts
  }

  /** A string without the separator is a single piece. */
  lemma {:induction false} SplitNoSeparator(s: string, sep: char)
    requires sep !in s
    ensures Split(s, sep) == [s]
  {
    if |s| > 0 {
      SplitNoSeparator(s[1..], sep);
    }
  }

  /** Splitting distributes over a separator: the pieces of `a` then the pieces of `b`. */
  lemma {:induction false} SplitAround(a: string, b: string, sep: char)
    ensures Split(a + [sep] + b, sep) == Split(a, sep) + Split(b, sep)
  {
    if |a| == 0 {
      assert a + [sep] + b == [sep] + b;
      SplitCons(sep, b, sep);
      assert Split(a, sep) == [""];
    } else {
      var c, t := a[0], a[1..] + [sep] + b;
      assert a + [sep] + b == [c] + t;
      assert a == [c] + a[1..];
      SplitAround(a[1..], b, sep);
      SplitCons(c, t, sep);
      SplitCons(c, a[1..], sep);
      ConsPieceAppend(c, Split(a[1..], sep), Split(b, sep), sep);
    }
  }

  /** The pieces of `[c] + t`, given the pieces of `t`. */
  function ConsPiece(c: char, parts: seq<string>, sep: char): seq<string>
    requires |parts| > 0
  {
    if c == sep then [""] + parts else [[c] + parts[0]] + parts[1..]
  }

  /** One step of Split: a leading separator closes an empty piece, any other character opens the first piece. */
  lemma SplitCons(c: char, t: string, sep: char)
    ensures Split([c] + t, sep) == ConsPiece(c, Split(t, sep), sep)
  {
    var s := [c] + t;
    assert s[0] == c && s[1..] == t;
  }

  /** A step of Split touches only the first piece, so it commutes with appending further pieces. */
  lemma ConsPieceAppend(c: char, pa: seq<string>, pb: seq<string>, sep: char)
    requires |pa| > 0
    ensures ConsPiece(c, pa + pb, sep) == ConsPiece(c, pa, sep) + pb
  {
    if c != sep {
      assert (pa + pb)[0] == pa[0] && (pa + pb)[1..] == pa[1..] + pb;
    }
  }

  /** Splitting undoes joining when no piece holds the separator. */
  lemma {:induction false} SplitJoin(parts: seq<string>, sep: char)
    requires |parts| >= 1
    requires forall i :: 0 <= i < |parts| ==> sep !in parts[i]
    ensures Split(Join(parts, [sep]), sep) == parts
  {
    if |parts| == 1 {
      SplitNoSeparator(parts[0], sep);
    } else {
      SplitNoSeparator(parts[0], sep);
      SplitJoin(parts[1..], sep);
      SplitAround(parts[0], Join(parts[1..], [sep]), sep);
      assert parts == [parts[0]] + parts[1..];
    }
  }

  // ---------------------------------------------------------------------------
  // Fields and whitespace collapsing
  // ---------------------------------------------------------------------------

  /** The longest prefix of `s` without whitespace. */
  function Word(s: string): (w: string)
    ensures |w| <= |s| && w == s[..|w|]
    ensures forall i :: 0 <= i < |w| ==> !IsSpace(w[i])
    ensures |w| == |s| || IsSpace(s[|w|])
  {
    if |s| == 0 || IsSpace(s[0]) then "" else [s[0]] + Word(s[1..])
  }

  /** After TrimLeft, a non-empty string starts with a non-empty word. */
  lemma WordNonEmpty(t: string)
    requires |t| > 0 && !IsSpace(t[0])
    ensures IsWord(Word(t)) && |Word(t)| <= |t|
  {
  }

  /** A word in front of a list of words gives a list of words. */
  lemma ConsWords(w: string, rest: seq<string>)
    requires IsWord(w) && forall i :: 0 <= i < |rest| ==> IsWord(rest[i])
    ensures forall i :: 0 <= i < |[w] + rest| ==> IsWord(([w] + rest)[i])
  {
    forall i | 0 <= i < |[w] + rest| ensures IsWord(([w] + rest)[i]) {
      if i > 0 {
        assert ([w] + rest)[i] == rest[i - 1];
      }
    }
  }

  /** A non-empty run of non-whitespace characters. */
  predicate IsWord(w: string)
  {
    |w| > 0 && forall j :: 0 <= j < |w| ==> !IsSpace(w[j])
  }

  /** strings.Fields: the maximal runs of non-whitespace characters, in order. */
  function Fields(s: string): (fs: seq<string>)
    ensures forall i :: 0 <= i < |fs| ==> IsWord(fs[i])
    decreases |s|
  {
    var t := TrimLeft(s);
    if |t| == 0 then []
    else
      var w := Word(t);
      WordNonEmpty(t);
      var rest := Fields(t[|w|..]);
      ConsWords(w, rest);
      [w] + rest
  }

  /** A run of non-whitespace followed by whitespace or nothing is read whole by Word. */
  lemma {:induction false} WordPrefix(w: string, s: string)
    requires forall j :: 0 <= j < |w| ==> !IsSpace(w[j])
    requires s == [] || IsSpace(s[0])
    ensures Word(w + s) == w
  {
    if |w| == 0 {
      assert w + s == s;
    } else {
      assert (w + s)[0] == w[0] && (w + s)[1..] == w[1..] + s;
      WordPrefix(w[1..], s);
      assert w == [w[0]] + w[1..];
    }
  }

  /** Leading whitespace does not change the fields. */
  lemma FieldsSkipSpace(c: char, s: string)
    requires IsSpace(c)
    ensures Fields([c] + s) == Fields(s)
  {
    assert ([c] + s)[1..] == s;
    assert TrimLeft([c] + s) == TrimLeft(s);
  }

  /** A string starting with a non-space character: its first word, then the fields of the rest. */
  lemma FieldsStep(s: string)
    requires |s| > 0 && !IsSpace(s[0])
    ensures Fields(s) == [Word(s)] + Fields(s[|Word(s)|..])
  {
    assert TrimLeft(s) == s;
  }

  /** Joining words with single spaces and splitting into fields gives the words back. */
  lemma {:induction false} FieldsJoin(ws: seq<string>)
    requires forall i :: 0 <= i < |ws| ==> IsWord(ws[i])
    ensures Fields(Join(ws, " ")) == ws
  {
    if |ws| <= 1 {
      FieldsJoinShort(ws);
    } else {
      TailWords(ws);
      FieldsJoin(ws[1..]);
      FieldsJoinStep(ws);
    }
  }

  /** No words, or a single word, survive joining and splitting. */
  lemma FieldsJoinShort(ws: seq<string>)
    requires |ws| <= 1 && forall i :: 0 <= i < |ws| ==> IsWord(ws[i])
    ensures Fields(Join(ws, " ")) == ws
  {
    if |ws| == 1 {
      FieldsJoinOne(ws);
    } else {
      FieldsJoinNone(ws);
    }
  }

  /** Joining a single word gives the word, its only field. */
  lemma FieldsJoinOne(ws: seq<string>)
    requires |ws| == 1 && IsWord(ws[0])
    ensures Fields(Join(ws, " ")) == ws
  {
    Singleton(ws);
    assert Join(ws, " ") == ws[0];
    FieldsOfWord(ws[0]);
  }

  /** A one-element sequence is the display of its element. */
  lemma Singleton<T>(xs: seq<T>)
    requires |xs| == 1
    ensures xs == [xs[0]]
  {
  }

  /** Joining no words gives the empty string, which has no fields. */
  lemma FieldsJoinNone(ws: seq<string>)
    requires |ws| == 0
    ensures Fields(Join(ws, " ")) == ws
  {
    assert Join(ws, " ") == "";
    FieldsOfEmpty();
  }

  /** The empty string has no fields. */
  lemma FieldsOfEmpty()
    ensures Fields("") == []
  {
    assert TrimLeft("") == "";
  }

  /** The inductive step of FieldsJoin: the first word, then the fields of the rest. */
  lemma FieldsJoinStep(ws: seq<string>)
    requires |ws| > 1 && forall i :: 0 <= i < |ws| ==> IsWord(ws[i])
    requires Fields(Join(ws[1..], " ")) == ws[1..]
    ensures Fields(Join(ws, " ")) == ws
  {
    TailWords(ws);
    FieldsCons(ws[0], ws[1..]);
    assert ws == [ws[0]] + ws[1..];
  }

  /** The tail of a list of words is a list of words. */
  lemma TailWords(ws: seq<string>)
    requires |ws| > 0 && forall i :: 0 <= i < |ws| ==> IsWord(ws[i])
    ensures forall i :: 0 <= i < |ws[1..]| ==> IsWord(ws[1..][i])
  {
    forall i | 0 <= i < |ws[1..]| ensures IsWord(ws[1..][i]) { assert ws[1..][i] == ws[i + 1]; }
  }

  /** A single word is its only field. */
  lemma FieldsOfWord(w: string)
    requires IsWord(w)
    ensures Fields(w) == [w]
  {
    WordPrefix(w, "");
    assert w + "" == w;
    FieldsStep(w);
    assert w[|w|..] == "";
  }

  /** Joining a word in front of a non-empty list puts it and a space in front. */
  lemma JoinCons(w: string, ws: seq<string>)
    requires |ws| > 0
    ensures Join([w] + ws, " ") == w + " " + Join(ws, " ")
  {
    assert ([w] + ws)[1..] == ws;
  }

  /** A word followed by a space-led rest: the word, then the fields of the rest. */
  lemma FieldsAfterWord(w: string, rest: string)
    requires IsWord(w) && |rest| > 0 && rest[0] == ' '
    ensures Fields(w + rest) == [w] + Fields(rest)
  {
    var s := w + rest;
    assert Word(s) == w by {
      WordPrefix(w, rest);
    }
    assert s[|w|..] == rest;
    FieldsStep(s);
  }

  /** The fields of a word joined in front of other words. */
  lemma FieldsCons(w: string, ws: seq<string>)
    requires IsWord(w) && |ws| > 0 && forall i :: 0 <= i < |ws| ==> IsWord(ws[i])
    ensures Fields(Join([w] + ws, " ")) == [w] + Fields(Join(ws, " "))
  {
    JoinCons(w, ws);
    var tail := Join(ws, " ");
    assert w + " " + tail == w + (" " + tail);
    FieldsAfterWord(w, " " + tail);
    FieldsSkipSpace(' ', tail);
  }

  /** `s` with every regexp-whitespace character removed. */
  function StripRegexSpaces(s: string): string
  {
    if |s| == 0 then ""
    else if IsRegexSpace(s[0]) then StripRegexSpaces(s[1..])
    else [s[0]] + StripRegexSpaces(s[1..])
  }

  /** `s` without its leading run of regexp whitespace. */
  function DropRegexSpaces(s: string): (r: string)
    ensures |r| <= |s| && r == s[|s| - |r|..]
    ensures r == [] || !IsRegexSpace(r[0])
    ensures forall i :: 0 <= i < |s| - |r| ==> IsRegexSpace(s[i])
    ensures StripRegexSpaces(r) == StripRegexSpaces(s)
  {
    if |s| > 0 && IsRegexSpace(s[0]) then
      var r := DropRegexSpaces(s[1..]);
      DropRegexStep(s, r);
      r
    else s
  }

  /** Dropping one more leading space keeps DropRegexSpaces' promises. */
  lemma DropRegexStep(s: string, r: string)
    requires |s| > 0 && IsRegexSpace(s[0])
    requires |r| <= |s| - 1 && r == s[1..][|s| - 1 - |r|..]
    requires forall i :: 0 <= i < |s| - 1 - |r| ==> IsRegexSpace(s[1..][i])
    requires StripRegexSpaces(r) == StripRegexSpaces(s[1..])
    ensures r == s[|s| - |r|..]
    ensures forall i :: 0 <= i < |s| - |r| ==> IsRegexSpace(s[i])
    ensures StripRegexSpaces(r) == StripRegexSpaces(s)
  {
    assert s[1..][|s| - 1 - |r|..] == s[|s| - |r|..];
    forall i | 1 <= i < |s| - |r| ensures IsRegexSpace(s[i]) {
      assert s[i] == s[1..][i - 1];
    }
  }

  /** The pieces of `s` between its regexp-whitespace characters, empty pieces included. */
  function RegexPieces(s: string): (ps: seq<string>)
    ensures |ps| > 0
    ensures ps[0] == "" <==> s == "" || IsRegexSpace(s[0])
  {
    if |s| == 0 then [""]
    else
      var rest := RegexPieces(s[1..]);
      if IsRegexSpace(s[0]) then [""] + rest else [[s[0]] + rest[0]] + rest[1..]
  }

  /** The pieces that are not empty, in order. */
  function NonEmptyPieces(ps: seq<string>): seq<string>
  {
    if |ps| == 0 then []
    else if ps[0] == "" then NonEmptyPieces(ps[1..])
    else [ps[0]] + NonEmptyPieces(ps[1..])
  }

  /** The words of `s` as `\s+` separates them: its maximal runs of non-whitespace, in order. */
  function RegexWords(s: string): seq<string>
  {
    NonEmptyPieces(RegexPieces(s))
  }

  /** A whitespace character in front changes no word. */
  lemma RegexWordsSkip(c: char, z: string)
    requires IsRegexSpace(c)
    ensures RegexWords([c] + z) == RegexWords(z)
  {
    assert ([c] + z)[1..] == z;
  }

  /** Leading whitespace changes no word. */
  lemma {:induction false} RegexWordsDrop(s: string)
    ensures RegexWords(DropRegexSpaces(s)) == RegexWords(s)
    decreases |s|
  {
    if |s| > 0 && IsRegexSpace(s[0]) {
      RegexWordsDrop(s[1..]);
      assert s == [s[0]] + s[1..];
      RegexWordsSkip(s[0], s[1..]);
    }
  }

  /** A non-space character in front starts a word of its own or joins the first word. */
  lemma RegexWordsCons(c: char, y: string)
    requires !IsRegexSpace(c)
    ensures y == "" ==> RegexWords([c] + y) == [[c]]
    ensures y != "" && IsRegexSpace(y[0]) ==> RegexWords([c] + y) == [[c]] + RegexWords(y)
    ensures y != "" && !IsRegexSpace(y[0]) ==>
              |RegexWords(y)| > 0 && RegexWords([c] + y) == [[c] + RegexWords(y)[0]] + RegexWords(y)[1..]
  {
    var ps := RegexPieces(y);
    assert ([c] + y)[1..] == y;
    assert RegexPieces([c] + y) == [[c] + ps[0]] + ps[1..];
    assert RegexWords([c] + y) == [[c] + ps[0]] + NonEmptyPieces(ps[1..]);
    if y == "" {
      assert ps == [""] && ps[1..] == [];
      assert [c] + ps[0] == [c];
    } else if IsRegexSpace(y[0]) {
      assert [c] + ps[0] == [c];
    }
  }

  /** What CollapseSpaces promises of its result `r` for `s`. */
  predicate CollapsedFrom(r: string, s: string)
  {
    && |r| <= |s|
    && (|r| == 0 <==> |s| == 0)
    && (|s| > 0 ==> (IsRegexSpace(r[0]) <==> IsRegexSpace(s[0])))
    && (|s| > 0 ==> (IsRegexSpace(r[|r| - 1]) <==> IsRegexSpace(s[|s| - 1])))
    && RegexWords(r) == RegexWords(s)
    && (forall i :: 0 <= i < |r| && IsRegexSpace(r[i]) ==> r[i] == ' ')
    && (forall i :: 0 <= i < |r| - 1 ==> !(IsRegexSpace(r[i]) && IsRegexSpace(r[i + 1])))
    && StripRegexSpaces(r) == StripRegexSpaces(s)
  }

  /** A leading whitespace run becomes one space in front of the collapsed rest. */
  lemma CollapseLeadRun(s: string, d: string, cd: string)
    requires |s| > 0 && IsRegexSpace(s[0]) && d == DropRegexSpaces(s)
    requires CollapsedFrom(cd, d)
    ensures CollapsedFrom(" " + cd, s)
  {
    var r := " " + cd;
    assert r[1..] == cd;
    RegexWordsSkip(' ', cd);
    RegexWordsDrop(s);
    LeadRunEnds(s, d, cd);
    LeadSpaceShape(cd);
    assert StripRegexSpaces(r) == StripRegexSpaces(cd);
  }

  /** One space in front of text whose spaces are single blanks, not at its start. */
  lemma LeadSpaceShape(cd: string)
    requires cd == "" || !IsRegexSpace(cd[0])
    requires forall i :: 0 <= i < |cd| && IsRegexSpace(cd[i]) ==> cd[i] == ' '
    requires forall i :: 0 <= i < |cd| - 1 ==> !(IsRegexSpace(cd[i]) && IsRegexSpace(cd[i + 1]))
    ensures forall i :: 0 <= i < |" " + cd| && IsRegexSpace((" " + cd)[i]) ==> (" " + cd)[i] == ' '
    ensures forall i :: 0 <= i < |" " + cd| - 1 ==> !(IsRegexSpace((" " + cd)[i]) && IsRegexSpace((" " + cd)[i + 1]))
  {
    var r := " " + cd;
    forall i | 0 < i < |r| ensures r[i] == cd[i - 1] { }
  }

  /** The lengths and the end characters after collapsing a leading run. */
  lemma LeadRunEnds(s: string, d: string, cd: string)
    requires |s| > 0 && IsRegexSpace(s[0])
    requires |d| <= |s| && d == s[|s| - |d|..] && forall i :: 0 <= i < |s| - |d| ==> IsRegexSpace(s[i])
    requires |d| > 0 ==> !IsRegexSpace(d[0])
    requires |cd| <= |d| && (|cd| == 0 <==> |d| == 0)
    requires |d| > 0 ==> (IsRegexSpace(cd[|cd| - 1]) <==> IsRegexSpace(d[|d| - 1]))
    ensures |" " + cd| <= |s|
    ensures IsRegexSpace((" " + cd)[|cd|]) <==> IsRegexSpace(s[|s| - 1])
  {
    if |d| > 0 {
      assert s[|s| - 1] == d[|d| - 1];
    } else {
      assert IsRegexSpace(s[|s| - 1]);
    }
  }

  /** A leading non-space character is kept in front of the collapsed rest. */
  lemma CollapseLeadChar(s: string, cr: string)
    requires |s| > 0 && !IsRegexSpace(s[0])
    requires CollapsedFrom(cr, s[1..])
    ensures CollapsedFrom([s[0]] + cr, s)
  {
    CollapseLeadCharLayout(s, cr);
    CollapseLeadCharWords(s, cr);
    CollapseLeadCharStrip(s, cr);
  }

  /** The length, the end characters and the spacing after keeping a leading non-space character. */
  lemma CollapseLeadCharLayout(s: string, cr: string)
    requires |s| > 0 && !IsRegexSpace(s[0])
    requires CollapsedFrom(cr, s[1..])
    ensures |[s[0]] + cr| <= |s|
    ensures !IsRegexSpace(([s[0]] + cr)[0])
    ensures IsRegexSpace(([s[0]] + cr)[|cr|]) <==> IsRegexSpace(s[|s| - 1])
    ensures forall i :: 0 <= i < |[s[0]] + cr| && IsRegexSpace(([s[0]] + cr)[i]) ==> ([s[0]] + cr)[i] == ' '
    ensures forall i :: 0 <= i < |[s[0]] + cr| - 1 ==>
              !(IsRegexSpace(([s[0]] + cr)[i]) && IsRegexSpace(([s[0]] + cr)[i + 1]))
  {
    var r := [s[0]] + cr;
    forall i | 0 < i < |r| ensures r[i] == cr[i - 1] { }
    if |cr| > 0 {
      assert s[|s| - 1] == s[1..][|s[1..]| - 1];
    }
  }

  /** The words after keeping a leading non-space character are those of `s`. */
  lemma CollapseLeadCharWords(s: string, cr: string)
    requires |s| > 0 && !IsRegexSpace(s[0])
    requires CollapsedFrom(cr, s[1..])
    ensures RegexWords([s[0]] + cr) == RegexWords(s)
  {
    assert s == [s[0]] + s[1..];
    RegexWordsCons(s[0], s[1..]);
    RegexWordsCons(s[0], cr);
  }

  /** The non-space characters after keeping a leading non-space character are those of `s`. */
  lemma CollapseLeadCharStrip(s: string, cr: string)
    requires |s| > 0 && !IsRegexSpace(s[0])
    requires CollapsedFrom(cr, s[1..])
    ensures StripRegexSpaces([s[0]] + cr) == StripRegexSpaces(s)
  {
    assert ([s[0]] + cr)[1..] == cr;
  }

  /**
   * regexp.MustCompile(`\s+`).ReplaceAllString(s, " "): every maximal run of
   * whitespace becomes one space. The words survive, separated by single
   * spaces, and leading or trailing whitespace stays one space.
   */
  function CollapseSpaces(s: string): (r: string)
    ensures CollapsedFrom(r, s)
    decreases |s|
  {
    if |s| == 0 then ""
    else if IsRegexSpace(s[0]) then
      var rest := DropRegexSpaces(s);
      CollapseLeadRun(s, rest, CollapseSpaces(rest));
      " " + CollapseSpaces(rest)
    else
      CollapseLeadChar(s, CollapseSpaces(s[1..]));
      [s[0]] + CollapseSpaces(s[1..])
  }

  // ---------------------------------------------------------------------------
  // First-match search
  // ---------------------------------------------------------------------------

  /** Position of the first element satisfying `p`; |xs| when there is none. */
  function FirstWhere(xs: seq<string>, p: string -> bool): (k: nat)
    ensures k <= |xs|
    ensures forall j :: 0 <= j < k ==> !p(xs[j])
    ensures k < |xs| ==> p(xs[k])
  {
    if |xs| == 0 then 0
    else if p(xs[0]) then 0
    else
      var k := FirstWhere(xs[1..], p);
      assert forall j :: 1 <= j < |xs| ==> xs[j] == xs[1..][j - 1];
      1 + k
  }

  /** FirstWhere finds the first satisfying position and no other. */
  lemma FirstWhereIs(xs: seq<string>, p: string -> bool, g: nat)
    requires g < |xs| && p(xs[g])
    requires forall j :: 0 <= j < g ==> !p(xs[j])
    ensures FirstWhere(xs, p) == g
  {
  }

  // ---------------------------------------------------------------------------
  // Decimal numbers (fmt's %d)
  // ---------------------------------------------------------------------------

  predicate IsDigit(c: char)
  {
    '0' <= c <= '9'
  }

  /** The decimal digits of `n`, most significant first, without leading zeros. */
  function NatToDecimal(n: nat): (r: string)
    ensures |r| >= 1
    ensures forall i :: 0 <= i < |r| ==> IsDigit(r[i])
    ensures |r| > 1 ==> r[0] != '0'
  {
    if n < 10 then ["0123456789"[n]]
    else NatToDecimal(n / 10) + ["0123456789"[n % 10]]
  }

  /** fmt.Sprintf("%d", n). */
  function IntToDecimal(n: int): (r: string)
    ensures |r| >= 1
    ensures n >= 0 ==> forall i :: 0 <= i < |r| ==> IsDigit(r[i])
    ensures n < 0 ==> r[0] == '-'
  {
    if n < 0 then "-" + NatToDecimal(-n) else NatToDecimal(n)
  }

  /** The number a string of decimal digits denotes. */
  function DecimalValue(s: string): nat
    requires forall i :: 0 <= i < |s| ==> IsDigit(s[i])
  {
    if |s| == 0 then 0
    else
      assert IsDigit(s[|s| - 1]);
      DecimalValue(s[..|s| - 1]) * 10 + (s[|s| - 1] as int - '0' as int)
  }

  /** Printing a number in decimal and reading it back gives the number. */
  lemma {:induction false} DecimalRoundTrip(n: nat)
    ensures DecimalValue(NatToDecimal(n)) == n
  {
    if n >= 10 {
      DecimalRoundTrip(n / 10);
      var r := NatToDecimal(n);
      assert r[..|r| - 1] == NatToDecimal(n / 10);
    }
  }
}

=== FILE: updater.dfy ===
/**
 * internal/updater/updater.go: the version comparison, the decision of
 * SeamlessUpdate on the release path, the name of the release binary, the
 * list of installed copies, and the AutoUpdate guard. Releases, the file
 * system and `which` are inputs here.
 */
module Updater {
  import opened Wrappers
  import opened Text
  import opened Ordering
  import Paths

  // ---------------------------------------------------------------------------
  // Versions
  // ---------------------------------------------------------------------------

  /**
   * isNewer(latest, current) with its branches as written: nothing is newer
   * than itself or than an empty tag, the rolling tag "latest" is newer than
   * any other version, anything is newer than a development build, and two
   * different tags count as newer.
   */
  function IsNewer(latest: string, current: string): (r: bool)
    ensures r <==> latest != "" && latest != current
  {
    if latest == "" || latest == current then false
    else if latest == "latest" then current != "latest"
    else if current == "dev" || current == "" then true
    else latest != current
  }

  /** isNewer is irreflexive and never holds for an empty tag, so it is not an order on versions. */
  lemma IsNewerSymmetricOnTags(a: string, b: string)
    requires a != "" && b != "" && a != b
    ensures IsNewer(a, b) && IsNewer(b, a)
    ensures !IsNewer(a, a) && !IsNewer("", b)
  {
  }

  /** SeamlessUpdate's "already up to date": the same tag, not the rolling tag, not a development build. */
  predicate UpToDate(latest: string, current: string)
  {
    latest == current && latest != "latest" && current != "v0.0.0-dev" && current != "dev"
  }

  /**
   * A version that isNewer reports is never "already up to date"; for tags
   * other than the rolling tag and current versions other than development
   * builds, the two are complements.
   */
  lemma UpToDateAgreesWithIsNewer(latest: string, current: string)
    ensures IsNewer(latest, current) ==> !UpToDate(latest, current)
    ensures latest != "" && latest != "latest" && current != "v0.0.0-dev" && current != "dev" ==>
              (UpToDate(latest, current) <==> !IsNewer(latest, current))
  {
  }

  // ---------------------------------------------------------------------------
  // The release binary
  // ---------------------------------------------------------------------------

  /** The operating system the release is chosen for: Termux counts as android. */
  function TargetOS(goos: string, termux: bool): (r: string)
    ensures goos != "linux" ==> r == goos
    ensures goos == "linux" ==> (r == "android" <==> termux)
  {
    if goos == "linux" && termux then "android" else goos
  }

  const BinaryPrefix := "autocommiter-"

  /**
   * The asset name "autocommiter-<os>-<arch>", with ".exe" for windows;
   * `termux` says whether /data/data/com.termux exists.
   */
  function BinaryName(goos: string, goarch: string, termux: bool): (r: string)
    ensures HasPrefix(r, BinaryPrefix + TargetOS(goos, termux) + "-")
    ensures goos == "windows" ==> HasSuffix(r, goarch + ".exe")
    ensures goos != "windows" ==> HasSuffix(r, goarch)
  {
    var osName := TargetOS(goos, termux);
    var head := BinaryPrefix + osName + "-";
    var base := head + goarch;
    assert base[..|head|] == head;
    ConcatHasSuffix(head, goarch);
    if osName == "windows" then
      assert base + ".exe" == head + (goarch + ".exe");
      ConcatHasSuffix(head, goarch + ".exe");
      base + ".exe"
    else
      base
  }

  /** A string cut at its first '-' gives back both parts. */
  lemma CutAtDash(o1: string, t1: string, o2: string, t2: string)
    requires '-' !in o1 && '-' !in o2
    requires o1 + ['-'] + t1 == o2 + ['-'] + t2
    ensures o1 == o2 && t1 == t2
  {
    SplitAround(o1, t1, '-');
    SplitAround(o2, t2, '-');
    SplitNoSeparator(o1, '-');
    SplitNoSeparator(o2, '-');
    assert Split(o1 + ['-'] + t1, '-')[0] == o1;
    assert Split(o2 + ['-'] + t2, '-')[0] == o2;
    assert t1 == (o1 + ['-'] + t1)[|o1| + 1..];
    assert t2 == (o2 + ['-'] + t2)[|o2| + 1..];
  }

  /** The asset name is the prefix, the target system, a '-' and the architecture part. */
  lemma BinaryNameShape(goos: string, goarch: string, termux: bool)
    ensures var o := TargetOS(goos, termux);
            BinaryName(goos, goarch, termux)[|BinaryPrefix|..] == o + ['-'] + (if o == "windows" then goarch + ".exe" else goarch)
  {
  }

  /** The asset name determines the target: operating systems without '-' are read back, and so is the architecture. */
  lemma BinaryNameDeterminesTarget(goos1: string, goarch1: string, termux1: bool, goos2: string, goarch2: string, termux2: bool)
    requires '-' !in goos1 && '-' !in goos2
    requires BinaryName(goos1, goarch1, termux1) == BinaryName(goos2, goarch2, termux2)
    ensures TargetOS(goos1, termux1) == TargetOS(goos2, termux2)
    ensures goarch1 == goarch2
  {
    var o1 := TargetOS(goos1, termux1);
    var o2 := TargetOS(goos2, termux2);
    var tail1 := if o1 == "windows" then goarch1 + ".exe" else goarch1;
    var tail2 := if o2 == "windows" then goarch2 + ".exe" else goarch2;
    BinaryNameShape(goos1, goarch1, termux1);
    BinaryNameShape(goos2, goarch2, termux2);
    CutAtDash(o1, tail1, o2, tail2);
    if o1 == "windows" {
      assert goarch1 == tail1[..|tail1| - 4];
      assert goarch2 == tail2[..|tail2| - 4];
    }
  }

  const Repo := "nathfavour/autocommiter.go"

  /** What SeamlessUpdate does on the release path (BuildFromSource unset or false). */
  datatype Plan =
    | CheckFailed(error: string)
    | AlreadyUpToDate
    | Download(url: string)

  /**
   * SeamlessUpdate up to the download: a failed tag lookup is an error, an
   * up-to-date installation is left alone, and otherwise the asset of the
   * latest tag for this platform is downloaded.
   */
  function ReleasePlan(latest: Result<string>, current: string, goos: string, goarch: string, termux: bool): (r: Plan)
    ensures latest.Err? <==> r.CheckFailed?
    ensures r == AlreadyUpToDate <==> latest.Ok? && UpToDate(latest.value, current)
    ensures r.Download? ==> HasSuffix(r.url, "/" + latest.value + "/" + BinaryName(goos, goarch, termux))
  {
    match latest
    case Err(e) => CheckFailed("failed to check for updates: " + e)
    case Ok(tag) =>
      if UpToDate(tag, current) then AlreadyUpToDate
      else
        var tail := "/" + tag + "/" + BinaryName(goos, goarch, termux);
        var url := "https://github.com/" + Repo + "/releases/download" + tail;
        assert url == ("https://github.com/" + Repo + "/releases/download") + tail;
        ConcatHasSuffix("https://github.com/" + Repo + "/releases/download", tail);
        Download(url)
  }

  // ---------------------------------------------------------------------------
  // Installed copies (getAllInstances)
  // ---------------------------------------------------------------------------

  /** The non-empty lines of the trimmed `which -a` output, in order; nothing when `which` fails. */
  function WhichPaths(output: Result<string>): (r: seq<string>)
    ensures output.Err? ==> r == []
    ensures output.Ok? ==> forall l :: l in r <==> l in Split(TrimSpace(output.value), '\n') && l != ""
  {
    match output
    case Err(_) => []
    case Ok(out) => NonEmpty(Split(TrimSpace(out), '\n'))
  }

  /** The non-empty strings of `xs`, in order. */
  function NonEmpty(xs: seq<string>): (r: seq<string>)
    ensures forall l :: l in r <==> l in xs && l != ""
  {
    if |xs| == 0 then []
    else
      assert xs == [xs[0]] + xs[1..];
      if xs[0] == "" then NonEmpty(xs[1..]) else [xs[0]] + NonEmpty(xs[1..])
  }

  /** The filter works string by string: the strings of a concatenation are those of its parts, in order. */
  lemma {:induction false} NonEmptyAppend(a: seq<string>, b: seq<string>)
    ensures NonEmpty(a + b) == NonEmpty(a) + NonEmpty(b)
  {
    if |a| > 0 {
      assert (a + b)[1..] == a[1..] + b;
      NonEmptyAppend(a[1..], b);
    } else {
      assert a + b == b;
    }
  }

  /** One string is kept exactly when it is not empty. */
  lemma NonEmptySingle(l: string)
    ensures NonEmpty([l]) == if l == "" then [] else [l]
  {
  }

  /** `which -a` output that is already trimmed gives its non-empty lines, in the order printed. */
  lemma WhichPathsLines(lines: seq<string>)
    requires forall i :: 0 <= i < |lines| ==> '\n' !in lines[i]
    requires IsTrimmed(Join(lines, "\n"))
    ensures WhichPaths(Ok(Join(lines, "\n"))) == NonEmpty(lines)
  {
    TrimmedIsFixpoint(Join(lines, "\n"));
    if |lines| == 0 {
      assert Split("", '\n') == [""];
      NonEmptySingle("");
    } else {
      SplitJoin(lines, '\n');
    }
  }

  /** The PATH list separator of the platform. */
  function ListSeparator(goos: string): char
  {
    if goos == "windows" then ';' else ':'
  }

  /** filepath.Join(dir, exe), with ".exe" added on windows when it does not end in it already. */
  function Candidate(goos: string, dir: string, exe: string): (r: string)
    ensures goos == "windows" ==> HasSuffix(r, ".exe")
  {
    var full := Paths.JoinPath(dir, exe);
    if goos == "windows" && !HasSuffix(full, ".exe") then
      ConcatHasSuffix(full, ".exe");
      full + ".exe"
    else full
  }

  /** The candidates of the PATH entries that exist, in PATH order. */
  function PathHits(goos: string, dirs: seq<string>, exe: string, exists_: string -> bool): (r: seq<string>)
    ensures forall p :: p in r <==> exists_(p) && exists k :: 0 <= k < |dirs| && p == Candidate(goos, dirs[k], exe)
  {
    if |dirs| == 0 then []
    else
      var full := Candidate(goos, dirs[0], exe);
      var rest := PathHits(goos, dirs[1..], exe, exists_);
      assert forall k :: 1 <= k < |dirs| ==> dirs[k] == dirs[1..][k - 1];
      if exists_(full) then [full] + rest else rest
  }

  /** The scan works entry by entry: the hits of a concatenated PATH are those of its parts, in order. */
  lemma {:induction false} PathHitsAppend(goos: string, a: seq<string>, b: seq<string>, exe: string, exists_: string -> bool)
    ensures PathHits(goos, a + b, exe, exists_) == PathHits(goos, a, exe, exists_) + PathHits(goos, b, exe, exists_)
  {
    if |a| > 0 {
      assert (a + b)[1..] == a[1..] + b;
      assert (a + b)[0] == a[0];
      PathHitsAppend(goos, a[1..], b, exe, exists_);
    } else {
      assert a + b == b;
    }
  }

  /** One PATH entry gives its candidate when that exists, and nothing otherwise. */
  lemma PathHitsSingle(goos: string, dir: string, exe: string, exists_: string -> bool)
    ensures PathHits(goos, [dir], exe, exists_) ==
              if exists_(Candidate(goos, dir, exe)) then [Candidate(goos, dir, exe)] else []
  {
  }

  /**
   * getAllInstances(exe): the `which -a` lines, then the PATH entries where
   * `exe` exists (`exists_` is os.Stat succeeding), without repeats, each at
   * its first occurrence.
   */
  function AllInstances(which: Result<string>, envPath: string, goos: string, exe: string, exists_: string -> bool): (r: seq<string>)
    ensures Distinct(r)
    ensures forall p :: p in r <==> p in WhichPaths(which) || p in PathHits(goos, Split(envPath, ListSeparator(goos)), exe, exists_)
    ensures "" !in WhichPaths(which)
    ensures forall i, j :: 0 <= i < j < |r| ==>
              var all := WhichPaths(which) + PathHits(goos, Split(envPath, ListSeparator(goos)), exe, exists_);
              FirstIndex(all, r[i]) < FirstIndex(all, r[j])
  {
    var dirs := Split(envPath, ListSeparator(goos));
    var all := WhichPaths(which) + PathHits(goos, dirs, exe, exists_);
    Dedupe(all)
  }

  /** Every line `which -a` prints is reported before any copy found only by scanning PATH. */
  lemma WhichFirst(which: Result<string>, envPath: string, goos: string, exe: string, exists_: string -> bool, i: nat, j: nat)
    requires var r := AllInstances(which, envPath, goos, exe, exists_);
             i < |r| && j < |r| && r[i] in WhichPaths(which) && r[j] !in WhichPaths(which)
    ensures i < j
  {
    var dirs := Split(envPath, ListSeparator(goos));
    DedupeKeepsFrontFirst(WhichPaths(which), PathHits(goos, dirs, exe, exists_), i, j);
  }

  // ---------------------------------------------------------------------------
  // AutoUpdate
  // ---------------------------------------------------------------------------

  /** The cached LatestVersionFound afterwards, and whether an update was attempted. */
  datatype AutoRun = AutoRun(attempted: bool, cached: string)

  /**
   * AutoUpdate: an update is attempted only for a cached tag that isNewer
   * than the running version (`update` is what SeamlessUpdate returns). The
   * cleared tag reaches the configuration file only when the update and then
   * SaveConfig (`save`, whose error Go discards) both succeed; otherwise the
   * file keeps the cached tag.
   */
  function AutoUpdate(cached: string, current: string, update: Outcome, save: Outcome): (r: AutoRun)
    ensures r.attempted <==> cached != "" && cached != current
    ensures r.cached == "" <==> cached == "" || (r.attempted && update.Pass? && save.Pass?)
    ensures r.cached != "" ==> r.cached == cached
  {
    if cached == "" || !IsNewer(cached, current) then AutoRun(false, cached)
    else if update.Fail? || save.Fail? then AutoRun(true, cached)
    else AutoRun(true, "")
  }

  /**
   * When the cached tag that triggers AutoUpdate is still the latest release,
   * SeamlessUpdate downloads it rather than reporting "already up to date";
   * once that update succeeds and its cleared tag is saved, the next
   * AutoUpdate attempts nothing, and when the save fails the next run tries
   * the same update again.
   */
  lemma CachedTagIsDownloaded(cached: string, current: string, update: Outcome, save: Outcome,
                              next: Outcome, nextSave: Outcome, goos: string, goarch: string, termux: bool)
    requires AutoUpdate(cached, current, update, save).attempted
    ensures ReleasePlan(Ok(cached), current, goos, goarch, termux).Download?
    ensures update.Pass? && save.Pass? ==> !AutoUpdate(AutoUpdate(cached, current, update, save).cached, current, next, nextSave).attempted
    ensures update.Fail? || save.Fail? ==> AutoUpdate(AutoUpdate(cached, current, update, save).cached, current, next, nextSave).attempted
  {
    UpToDateAgreesWithIsNewer(cached, current);
  }
}

=== FILE: wrappers.dfy ===
/** Failure-carrying values used for the Go `(value, error)` pairs of the model. */
module Wrappers {

  /** A value that may be absent (a Go nil pointer, a NULL column, a missing file). */
  datatype Option<+T> = None | Some(value: T) {

    /** The carried value, or `default` when there is none. */
    function GetOr(default: T): T
    {
      match this
      case Some(v) => v
      case None => default
    }
  }

  /** The outcome of a Go call returning `(value, error)`: the error text on failure. */
  datatype Result<+T> = Ok(value: T) | Err(error: string)

  /** The outcome of a Go call returning only `error`. */
  datatype Outcome = Pass | Fail(error: string)
}
